=== FILE: README.md ===
# GTS identifiers in Dafny

A model of the core of `gts-dotnet`, the .NET library for GTS (Global Type
System) identifiers such as `gts.x.core.events.type.v1~` (a type),
`gts.x.core.events.type.v1~x.app.orders.order.v1.2` (an instance, a chain of
segments separated by `~`) and `gts.x.core.*` (a pattern). The model covers:

- the identifier grammar (`Gts/Parsing/Parsers.cs`): a recursive-descent
  parser that keeps the parser-combinator library's rules on committed
  failures (`Try`, `Optional`, `Or`, `Many`), with the three top-level
  parsers for types, instances and patterns (`parsers.dfy`), and proofs that
  the canonical text of every identifier parses back to it
  (`parser_properties.dfy`);
- `GtsId` (`Gts/GtsId.cs`): the type/instance dispatch of `TryParse`,
  `TryParsePattern`, the throwing `Parse`/`ParsePattern`, the mapping to
  `GtsIdSegment`, pattern matching with its star rule, and `ToGuid`
  (`gts_id.dfy`);
- name-based version-5 UUIDs (`Gts/Utils/GuidUtils.cs`, section 4.3 of
  RFC 4122) in .NET's byte layout (`guid_utils.dfy`);
- extraction from JSON documents (`Gts/Extraction/GtsExtract.cs`): the
  reference walk (`references.dfy`) and the choice of entity field, schema
  identifier and result (`gts_extract.dfy`), over a JSON tree (`json.dfy`).

`wrappers.dfy` holds `Option` (C#'s null) and `Result` (C#'s exceptions);
`text.dfy` the string operations the code calls (`Trim`, `IndexOf`,
`LastIndexOf`, `Split`, `int.Parse`, character counts).

Every parser is a function from the input and a position to a `Reply`: a
value with the position after it and whether input was consumed, or a
failure that says whether input was consumed. The top-level parsers accept a
string when a prefix of it is an identifier, as the library's `Parse` does
without an end-of-input check.

SHA-1 and UTF-8 encoding are library calls: they enter `GuidUtils.Create`,
`GuidUtils.GtsNamespace` and `GtsIds.ToGuid` as function parameters. The
validity test inside the extraction layer's walk and field scan is also a
parameter (`valid`) of the generic definitions; the functions the library
exposes instantiate it with `References.IsValidGtsId`.

Where the code and its tests disagree, the model follows the code:
`ExtractId` returns an empty `Id` (not null) for a document without an
identifier (`Gts.Tests/Extraction/ExtractBasicTests.cs` expects null).

Two defects found while stating the contracts are described under
"## Findings". In each case both the behaviour as written and a corrected
definition are modelled, and the corrected definition carries the intended
property. `GtsExtract.BuildEntity`, like the code, collects references with
the walk as written; `GtsExtract.ExtractEntityCorrected` is the same entity
with the references of the corrected walk. `GtsIds.TryParsePattern` stays as
written, because the rest of the model uses it only in the validity test, and
the correction does not change which texts it accepts.
`GtsIds.MatchesText` is the matching as written, and
`GtsIds.MatchesTextCorrected` is the corrected matching beside it.

## Model

| member | source | states |
|---|---|---|
| Parsers.Try | Gts/Parsing/Parsers.cs:84-86 | a failure under `Try` no longer counts as consuming input; success is unchanged |
| Parsers.Optional | Gts/Parsing/Parsers.cs:30 | an optional parser fails only when its parser failed after consuming input; absence reads nothing |
| Parsers.Char | Gts/Parsing/Parsers.cs:10-13 | a character parser succeeds exactly on that character, reading one position; it fails without consuming |
| Parsers.Literal | Gts/Parsing/Parsers.cs:56-57 | a literal succeeds exactly where the text starts with it, and reads its length |
| Parsers.Wildcard | Gts/Parsing/Parsers.cs:15-16 | `*` is read exactly where it stands, as the text `*` |
| Parsers.GtsPrefix | Gts/Parsing/Parsers.cs:56-57 | the prefix is the lower-case `gts` and nothing else |
| Parsers.RunEnd | Gts/Parsing/Parsers.cs:49 | `Many` of one character class stops at the end of the longest run of that class |
| Parsers.VersionNumber | Gts/Parsing/Parsers.cs:21-22 | a version number is a maximal run of digits, with its decimal value; it needs a digit to start |
| Parsers.VersionMajor | Gts/Parsing/Parsers.cs:23-24 | a major version is `v` and a digit run; a `v` without a digit fails after consuming |
| Parsers.VersionMinor | Gts/Parsing/Parsers.cs:25-26 | a minor version is a digit run without `v` |
| Parsers.DotMinor | Gts/Parsing/Parsers.cs:30 | `.minor` needs a digit after the dot; a dot alone fails after consuming |
| Parsers.VersionFull | Gts/Parsing/Parsers.cs:28-33 | a version starts with `v` and a digit, ends before a digit, and without a minor it never ends before a dot |
| Parsers.VersionText | Gts/Parsing/Parsers.cs:125-127 | the rendered version starts with `v` and a digit |
| Parsers.VersionFullString | Gts/Parsing/Parsers.cs:35-36 | the string form of a version needs `v` and a digit to succeed; a `v` without a digit fails after consuming |
| Parsers.Identifier | Gts/Parsing/Parsers.cs:42-50 | a name is read exactly when a `[_a-z]` starts it, as the longest `[_a-z0-9]*` token there |
| Parsers.IdentifierOrWildcard | Gts/Parsing/Parsers.cs:52-54 | it succeeds exactly at `*` or at a name start |
| Parsers.DotIdentifier | Gts/Parsing/Parsers.cs:70-72 | `.name` needs a name start after the dot; a dot alone fails after consuming |
| Parsers.DotNames | Gts/Parsing/Parsers.cs:69-72 | the fixed sequence of `.name` parts yields exactly that many tokens |
| Parsers.DotVersionFull | Gts/Parsing/Parsers.cs:73 | `.version` consumes input whenever it succeeds |
| Parsers.Segment | Gts/Parsing/Parsers.cs:68-80 | a segment yields all four names and a version, starts at a name start, and fails without consuming only when none is there |
| Parsers.DotWildcardOrVersion | Gts/Parsing/Parsers.cs:87 | the pattern version part is `.` then `*` (yielding `*`) or `.` then a version |
| Parsers.PatternVersionPart | Gts/Parsing/Parsers.cs:87-95 | a pattern keeps a version only when a `.` and a name start (such as `v`) follow its names |
| Parsers.OptionalName | Gts/Parsing/Parsers.cs:84-86 | a `Try`'d optional `.name` never fails, and yields a name exactly when `.` and a name start follow |
| Parsers.PatternNames | Gts/Parsing/Parsers.cs:83-86 | pattern names are a prefix of package, namespace, type: once one is missing, so are the later ones, and the first missing one could not have been read |
| Parsers.Pattern | Gts/Parsing/Parsers.cs:82-96 | a pattern segment has a vendor and only a trailing run of parts missing |
| Parsers.Many | Gts/Parsing/Parsers.cs:49 | repetition consumes input exactly when it yields at least one item |
| Parsers.ThenMany | Gts/Parsing/Parsers.cs:108-118 | a list yields at least one item, and fails without consuming only when its first item does |
| Parsers.ManyYields | Gts/Parsing/Parsers.cs:49 | every item a repetition collects is one its parser produced |
| Parsers.ThenManyYields | Gts/Parsing/Parsers.cs:108-118 | every item of a list satisfies what both of its parsers guarantee |
| Parsers.SegmentBeforeTilde | Gts/Parsing/Parsers.cs:108 | a type's segment is strict and is followed by the `~` that ends it |
| Parsers.TildeSegment | Gts/Parsing/Parsers.cs:113 | a later instance segment is `~` and a strict segment |
| Parsers.TildePattern | Gts/Parsing/Parsers.cs:118 | a later pattern segment is `~` and a pattern segment |
| Parsers.ElementsProgress | Gts/Parsing/Parsers.cs:108-118 | the segment parsers never succeed without consuming, so `Many` may repeat them, and they yield segments of their grammar |
| Parsers.GtsDot | Gts/Parsing/Parsers.cs:107 | every identifier starts with `gts.`, and after it reading goes on at position 4 |
| Parsers.SeparatedList | Gts/Parsing/Parsers.cs:111-119 | a `~`-separated list follows `gts.` and yields one or more segments of its grammar |
| Parsers.GtsTypeId | Gts/Parsing/Parsers.cs:106-109 | a type identifier is `gts.` and one or more strict segments, and is marked as a type |
| Parsers.GtsInstanceId | Gts/Parsing/Parsers.cs:111-114 | an instance identifier is `gts.` and one or more strict segments, and is marked as an instance |
| Parsers.GtsPattern | Gts/Parsing/Parsers.cs:116-119 | a pattern is `gts.` and one or more pattern segments, and is marked as a pattern |
| ParserProperties.IdentifierReads | Gts/Parsing/Parsers.cs:42-50 | a token is read whole, up to where no name character follows |
| ParserProperties.IdentifierAcceptsExactlyTokens | Gts/Parsing/Parsers.cs:42-50 | a string is read whole as a name exactly when it is a `[_a-z][_a-z0-9]*` token |
| ParserProperties.DotNamesReads | Gts/Parsing/Parsers.cs:69-72 | dotted names read back as the same names |
| ParserProperties.VersionNumberReads | Gts/Parsing/Parsers.cs:21-22 | a digit run reads back as its decimal value |
| ParserProperties.VersionFullReads | Gts/Parsing/Parsers.cs:28-33 | a version's text reads back as the version, when no digit follows and, without a minor, no dot follows |
| ParserProperties.VersionFullDotWithoutMinor | Gts/Parsing/Parsers.cs:28-33 | `vN.` not followed by a digit fails after consuming, so the whole segment fails |
| ParserProperties.VersionTextRoundTrip | Gts/Parsing/Parsers.cs:125-135 | `FromString` inverts `ToString` on every version |
| ParserProperties.VersionFullStringRoundTrip | Gts/Parsing/Parsers.cs:35-36 | every version the grammar reads survives the trip through its text |
| ParserProperties.SegmentReads | Gts/Parsing/Parsers.cs:68-80 | a strict segment's text reads back as the segment |
| ParserProperties.PatternNamesReads | Gts/Parsing/Parsers.cs:83-86 | up to three dotted names read back in order, the missing ones as absent |
| ParserProperties.VersionPartReads | Gts/Parsing/Parsers.cs:87-95 | a pattern's version part reads back as its version, and `.*` as no version |
| ParserProperties.PatternReads | Gts/Parsing/Parsers.cs:82-96 | a pattern segment's text reads back as the segment, whether it ends in `.*`, a version, or nothing |
| ParserProperties.PatternVersionAfterVendorIsPackage | Gts/Parsing/Parsers.cs:84-87 | in a pattern `vendor.vN` reads `vN` as a package, not as a version |
| ParserProperties.TypeIdReads | Gts/Parsing/Parsers.cs:106-109 | a type identifier's text reads back as its segments, stopping after the last `~` |
| ParserProperties.SeparatedListReads | Gts/Parsing/Parsers.cs:111-119 | a `~`-separated list's text reads back as its segments |
| ParserProperties.InstanceIdReads | Gts/Parsing/Parsers.cs:111-114 | an instance identifier's text reads back as its segments |
| ParserProperties.PatternIdReads | Gts/Parsing/Parsers.cs:116-119 | a pattern's text reads back as its segments |
| GtsIds.MapSegment | Gts/GtsId.cs:128-132 | a library segment is always stamped as a type and never as a wildcard |
| GtsIds.MapSegmentRoundTrip | Gts/GtsId.cs:128-132 | the library segment keeps everything the parser read |
| GtsIds.MapSegments | Gts/GtsId.cs:93-94 | the mapped list has one stamped segment per parsed one, and strict segments come out complete |
| GtsIds.MapSegmentsRoundTrip | Gts/GtsId.cs:93-94 | each parsed segment can be read back from its library segment |
| GtsIds.TryParse | Gts/GtsId.cs:80-104 | text ending with `~` is accepted exactly when the type grammar reads it, other text when the instance grammar does; the identifier keeps the text, its kind, and one or more complete segments |
| GtsIds.TryParsePattern | Gts/GtsId.cs:106-126 | a pattern is accepted exactly when the pattern grammar reads it, and only `IsPattern` is set |
| GtsIds.Parse | Gts/GtsId.cs:46-56 | `Parse` succeeds exactly where `TryParse` does, and otherwise throws a parse error |
| GtsIds.ParsePattern | Gts/GtsId.cs:63-73 | `ParsePattern` succeeds exactly where `TryParsePattern` does, and otherwise throws a parse error |
| GtsIds.TypeIdTextEndsWithTilde | Gts/GtsId.cs:82-83 | the canonical text of a type ends with `~`, so it takes the type branch |
| GtsIds.InstanceIdTextEndsWithDigit | Gts/GtsId.cs:82-84 | the canonical text of an instance ends with a digit, so it takes the instance branch |
| GtsIds.TryParseTypeText | Gts/GtsId.cs:80-104 | a type's canonical text parses back, with anything after it that cannot start a segment, to a type with the same segments |
| GtsIds.TryParseInstanceText | Gts/GtsId.cs:80-104 | an instance's canonical text parses back, with anything after it that cannot continue the list, to an instance with the same segments |
| GtsIds.TryParsePatternText | Gts/GtsId.cs:106-126 | a pattern's canonical text parses back to a pattern with the same segments |
| GtsIds.FirstWildcard | Gts/GtsId.cs:171-186 | the loop's first wildcard segment: none before it, and it is one |
| GtsIds.MatchFromMeans | Gts/GtsId.cs:171-197 | the loop accepts exactly when every segment before the first wildcard fits field by field and the wildcard segment fits on the fields it sets |
| GtsIds.MatchSegmentsMeans | Gts/GtsId.cs:163-198 | segment matching is the declarative `SegmentsMatch`, in both directions |
| GtsIds.StampedMatchIsFieldwise | Gts/GtsId.cs:188-194 | without wildcard segments, matching is field-by-field fit on the candidate's first segments |
| GtsIds.MatchSegmentsPrefix | Gts/GtsId.cs:166-174 | only the candidate's first segments count: appending more does not change the answer |
| GtsIds.Matches | Gts/GtsId.cs:138-150 | a match needs a pattern with at most one `*`, which comes last, and no more segments than the candidate |
| GtsIds.MatchesText | Gts/GtsId.cs:156-161 | null, empty or unparsable pattern text matches nothing, and a match obeys the star rule |
| GtsIds.MisplacedStarNeverMatches | Gts/GtsId.cs:146-147 | a pattern with two `*` or a `*` not at the end matches nothing |
| GtsIds.MatchesIgnoresLaterSegments | Gts/GtsId.cs:171 | extra candidate segments after the pattern's never change a match |
| GtsIds.SegmentFitsItself | Gts/GtsId.cs:188-194 | every segment fits itself |
| GtsIds.MatchesItself | Gts/GtsId.cs:138-150 | an identifier without `*` whose segments are not wildcards matches itself |
| GtsIds.ParsedMatchesItself | Gts/GtsId.cs:138-150 | every parsed identifier without `*` matches itself |
| GtsIds.MinorVersionLeniency | Gts/GtsId.cs:193 | a pattern without a minor version accepts any minor; one with a minor accepts exactly that minor |
| GtsIds.ToGuid | Gts/GtsId.cs:203-206 | an identifier has a UUID exactly when its text is non-empty |
| GtsIds.ParsedToGuid | Gts/GtsId.cs:203-206 | every parsed identifier or pattern has a version-5, RFC 4122 variant UUID, the one `Create` gives for its text in the GTS namespace |
| GtsIds.VendorPatternParses | Gts/GtsId.cs:106-126 | `gts.<vendor>.*` parses as a pattern with one segment holding only the vendor |
| GtsIds.OpenSegmentFitsNothing | Gts/GtsId.cs:188-192 | in the exact branch a segment that lacks a name or the major version fits no complete segment |
| GtsIds.OpenPatternMatchesNothing | Gts/GtsId.cs:128-132 | as written, a pattern whose first segment lacks anything matches no parsed identifier |
| GtsIds.VendorPatternMatchesNothing | Gts/GtsId.cs:176-186 | as written, `gts.<vendor>.*` matches no parsed identifier, not even one of that vendor |
| GtsIds.MapPatternSegment | Gts/GtsId.cs:128-132 | corrected: a pattern segment without a version is a wildcard, and it keeps everything the parser read |
| GtsIds.MapPatternSegments | Gts/GtsId.cs:117-118 | corrected: every pattern segment is mapped in place |
| GtsIds.TryParsePatternCorrected | Gts/GtsId.cs:106-126 | corrected parsing accepts the same patterns and differs only in the wildcard flags |
| GtsIds.MatchesTextCorrected | Gts/GtsId.cs:156-161 | corrected matching needs non-empty text that parses and obeys the star rule |
| GtsIds.VendorPatternStar | Gts/GtsId.cs:146-147 | `gts.<vendor>.*` passes the star rule |
| GtsIds.VendorPatternMatchesVendor | Gts/GtsId.cs:176-186 | corrected: `gts.<vendor>.*` matches exactly the identifiers whose first vendor is that vendor |
| GuidUtils.Swap | Gts/Utils/GuidUtils.cs:57-60 | the two bytes are exchanged and every other byte stays |
| GuidUtils.SwapPermutes | Gts/Utils/GuidUtils.cs:57-60 | a swap keeps the same bytes |
| GuidUtils.SwapByteOrder | Gts/Utils/GuidUtils.cs:48-55 | the length is kept, and any array that is not 16 bytes long is left alone |
| GuidUtils.SwapByteOrderMoves | Gts/Utils/GuidUtils.cs:48-55 | on 16 bytes the first three fields are reversed and the last eight bytes stay |
| GuidUtils.SwapByteOrderPermutes | Gts/Utils/GuidUtils.cs:48-55 | the byte-order swap only reorders bytes |
| GuidUtils.SwapByteOrderInvolution | Gts/Utils/GuidUtils.cs:48-55 | swapping twice gives back the input |
| GuidUtils.FromNetworkOrder | Gts/Utils/GuidUtils.cs:44-45 | the GUID built from network-order octets reads back as those octets |
| GuidUtils.StampVersionBits | Gts/Utils/GuidUtils.cs:41-42 | octet 6 carries version 5, octet 8 the variant `10`, and every other bit is the hash's |
| GuidUtils.HashInput | Gts/Utils/GuidUtils.cs:27-34 | the hash input is the namespace in network order followed by the name's bytes |
| GuidUtils.Create | Gts/Utils/GuidUtils.cs:22-46 | `Create` refuses exactly the empty name, with `ArgumentNullException` |
| GuidUtils.CreateIsVersion5 | Gts/Utils/GuidUtils.cs:22-46 | in network order the UUID is the first 16 bytes of SHA-1 over namespace and name, with version 5 and the RFC 4122 variant stamped in |
| GuidUtils.CreateLayout | Gts/Utils/GuidUtils.cs:41-45 | in .NET's layout the version sits in byte 7 and the variant in byte 8 |
| GuidUtils.UrlNamespaceNetworkOrder | Gts/Utils/GuidUtils.cs:16-17 | the URL namespace constant reads, in network order, as `6ba7b811-9dad-11d1-80b4-00c04fd430c8` |
| GuidUtils.GtsNamespace | Gts/Utils/GuidUtils.cs:16-17 | the GTS namespace is the version-5 UUID of `gts` in the URL namespace |
| Text.Trim | Gts/Extraction/GtsExtract.cs:210 | trimming gives nothing exactly for white space; otherwise it gives the inner run of the text, with non-white ends and only white space cut from either side |
| Text.TrimSurrounded | Gts/Extraction/GtsExtract.cs:210 | trimming gives back a value that white space surrounds |
| Text.TrimIdempotent | Gts/Extraction/GtsExtract.cs:210 | a trimmed value is already trimmed, so trimming again changes nothing |
| Text.IndexOf | Gts/Extraction/GtsExtract.cs:104 | the first position of a character, or -1 exactly when it is absent |
| Text.LastIndexOf | Gts/Extraction/GtsExtract.cs:130 | the last position of a character: nothing after it is that character |
| Text.SecondOccurrence | Gts/Extraction/GtsExtract.cs:104-109 | the search after the first `~` finds one exactly when there are two or more |
| Text.CountChar | Gts/GtsId.cs:146 | the count is zero exactly when the character is absent |
| Text.Split | Gts/Parsing/Parsers.cs:131 | splitting gives one more part than separators, and no part holds one |
| Text.JoinSplit | Gts/Parsing/Parsers.cs:131 | joining the parts of a split gives back the text |
| Text.SplitJoin | Gts/Parsing/Parsers.cs:131 | splitting the join of separator-free parts gives back the parts |
| Text.SplitAtFirst | Gts/Parsing/Parsers.cs:131 | a text without the separator, followed by the separator, is the first part of the split, and splitting continues after it |
| Text.ParseNat | Gts/Parsing/Parsers.cs:133-134 | on the unsigned digit runs `ToString` produces, `int.Parse` succeeds, and it rejects anything that holds a non-digit or is empty |
| Text.NatToString | Gts/Parsing/Parsers.cs:125-127 | a number renders as digits without a leading zero |
| Text.ParseNatToString | Gts/Parsing/Parsers.cs:133-134 | parsing a rendered number gives back the number |
| Json.Lookup | Gts/Extraction/GtsExtract.cs:203 | a missing key gives nothing; a found value belongs to a member with that key |
| Json.AsString | Gts/Extraction/GtsExtract.cs:206 | a null node gives null, a string its text, and any other node throws |
| References.ValidIdStartsWithGts | Gts/Extraction/GtsExtract.cs:239-242 | every valid identifier starts with `gts.` |
| References.SourcePath | Gts/Extraction/GtsExtract.cs:254 | a recorded path is never empty |
| References.OccurrencesValid | Gts/Extraction/GtsExtract.cs:252-257 | every occurrence the walk sees is a valid identifier at a non-empty path |
| References.WalkIsRecordAll | Gts/Extraction/GtsExtract.cs:244-282 | the walk fails exactly on a number or a boolean anywhere in the tree; otherwise it records the depth-first occurrences one by one |
| References.WalkMembersIsRecordAll | Gts/Extraction/GtsExtract.cs:263-272 | an object's members are walked in order, with the same failure rule |
| References.WalkItemsIsRecordAll | Gts/Extraction/GtsExtract.cs:274-281 | an array's elements are walked in order, with the same failure rule |
| References.RecordAllAppend | Gts/Extraction/GtsExtract.cs:256-257 | recording two lists in turn is recording their concatenation |
| References.RecordAllFromEmpty | Gts/Extraction/GtsExtract.cs:256-257 | from nothing, recording keeps the first reference of each key and has seen every key |
| References.CollectReferencesMeans | Gts/Extraction/GtsExtract.cs:83-89 | extraction from no node is empty, fails exactly on a number or a boolean, and otherwise keeps the first occurrence of each key in depth-first order |
| References.ExtractReferences | Gts/Extraction/GtsExtract.cs:83-89 | fails exactly on a number or a boolean in the tree; otherwise it returns only valid-identifier occurrences, one per `id\|path` key, and loses no key the walk saw |
| References.ExtractReferencesCorrected | Gts/Extraction/GtsExtract.cs:83-89 | fails exactly on a number or a boolean in the tree; otherwise it returns every distinct (identifier, path) occurrence exactly once |
| References.FirstKeyedKeeps | Gts/Extraction/GtsExtract.cs:256-257 | deduplication keeps only occurrences, one per key, and loses no key |
| References.FirstOccurrences | Gts/Extraction/GtsExtract.cs:256-257 | deduplicating on the reference keeps every distinct reference exactly once |
| References.FirstKeyedInjective | Gts/Extraction/GtsExtract.cs:255-257 | where the key tells references apart, keyed deduplication is deduplication on the reference |
| References.RefKeyInjective | Gts/Extraction/GtsExtract.cs:255 | the `id|path` key tells apart references whose identifiers hold no `|` |
| References.ExtractReferencesAgree | Gts/Extraction/GtsExtract.cs:255 | when no identifier holds `|`, the walk as written records what the corrected one records |
| References.FirstKeyedPair | Gts/Extraction/GtsExtract.cs:256 | of two references the second is kept exactly when its key differs |
| References.KeyCollision | Gts/Extraction/GtsExtract.cs:255-257 | as written, two different references that share the key `t|x|y` come out as one; the corrected walk keeps both |
| References.InstanceIdsValid | Gts/Extraction/GtsExtract.cs:239-242 | an instance's text is valid, and so is that text followed by `|x` |
| References.KeyCollisionDropsReference | Gts/Extraction/GtsExtract.cs:255-257 | as written, a document with an instance identifier and the same text plus `|x` loses the second reference; the corrected walk keeps it |
| GtsExtract.IsJsonSchema | Gts/Extraction/GtsExtract.cs:194-199 | a document is a schema exactly when it has a `$schema` or `$$schema` member, whatever its value |
| GtsExtract.GetFieldValue | Gts/Extraction/GtsExtract.cs:201-218 | reading throws exactly on a value that is neither string nor null; it gives nothing exactly for a missing, null or white-space value; otherwise the trimmed text, without `gts://` for `$id` only |
| GtsExtract.GetFieldValueTrims | Gts/Extraction/GtsExtract.cs:207-217 | a value surrounded by white space is read as that value |
| GtsExtract.GetFieldValueStripsUri | Gts/Extraction/GtsExtract.cs:214-215 | a `$id` of `gts://` and a value is read as the value |
| GtsExtract.ReadAll | Gts/Extraction/GtsExtract.cs:222-231 | the read results line up with the names, one per name |
| GtsExtract.FirstValid | Gts/Extraction/GtsExtract.cs:222-227 | the first pass returns the first accepted value, with all before it neither accepted nor throwing; nothing exactly when none is accepted or throws; a throw only at a name before any accepted one |
| GtsExtract.FirstFilled | Gts/Extraction/GtsExtract.cs:229-234 | the second pass returns the first non-empty value, with all before it empty; nothing exactly when all are empty and none throws |
| GtsExtract.FirstField | Gts/Extraction/GtsExtract.cs:220-237 | the chosen field is one of the names with its non-empty value; nothing exactly when every name is empty and none throws; a throw only at a name before any accepted value |
| GtsExtract.FirstFieldPrefersValid | Gts/Extraction/GtsExtract.cs:222-227 | an accepted value wins over every earlier name |
| GtsExtract.FirstValidFinds | Gts/Extraction/GtsExtract.cs:222-227 | from any starting name, the first pass stops at the first accepted value when no earlier read threw |
| GtsExtract.FirstFieldFallsBack | Gts/Extraction/GtsExtract.cs:229-234 | with no accepted value, the first non-empty value is taken |
| GtsExtract.FirstFilledFinds | Gts/Extraction/GtsExtract.cs:229-234 | from any starting name, the second pass stops at the first non-empty value when no earlier read threw |
| GtsExtract.FirstNonEmptyFieldIsRead | Gts/Extraction/GtsExtract.cs:220-237 | the chosen field's value is what reading that property gives |
| GtsExtract.ThroughFirstTilde | Gts/Extraction/GtsExtract.cs:104-112 | a chain's first link is a prefix of it that ends with its only `~` |
| GtsExtract.ThroughLastTilde | Gts/Extraction/GtsExtract.cs:131-134 | the schema part of an instance chain is a prefix that ends with `~`, with no `~` after it |
| GtsExtract.DerivedSchemaChainMeans | Gts/Extraction/GtsExtract.cs:102-110 | for a valid identifier the derived-schema test means: it ends with `~` and holds two or more |
| GtsExtract.InstanceChainMeans | Gts/Extraction/GtsExtract.cs:128-131 | for a valid identifier the instance test means: it does not end with `~` but holds one |
| GtsExtract.ParsedId | Gts/Extraction/GtsExtract.cs:154-164 | the parsed identifier keeps the value's text, is never a pattern, and exists only for a valid value; a non-empty value `TryParse` accepts gives exactly that identifier |
| GtsExtract.BuildEntity | Gts/Extraction/GtsExtract.cs:145-192 | an entity is built exactly when the document holds no number or boolean; it carries the parsed identifier and its text as label, the chosen entity field, the document itself and the references of the walk as written, and keeps a schema's or a non-empty schema identifier |
| GtsExtract.SchemaSourceOfSchema | Gts/Extraction/GtsExtract.cs:99-124 | the schema branch throws only when it has to read `$schema` and that value is not a string |
| GtsExtract.SchemaSourceOfInstance | Gts/Extraction/GtsExtract.cs:125-142 | the instance branch throws only when it has to scan the schema names and that scan throws |
| GtsExtract.UnnamedEntity | Gts/Extraction/GtsExtract.cs:91-143 | a document with none of the named properties and no `$schema` gives an instance entity with no identifier, no schema identifier and no fields, carrying only the document and its references |
| GtsExtract.NoNamedField | Gts/Extraction/GtsExtract.cs:220-237 | reading only property names the document does not hold chooses no field |
| GtsExtract.ExtractEntityCorrected | Gts/Extraction/GtsExtract.cs:180-191 | succeeds exactly where the entity as written does and differs from it only in the references, which are every distinct (identifier, path) occurrence exactly once |
| GtsExtract.EntityKeyCollision | Gts/Extraction/GtsExtract.cs:180 | as written, the entity of a document with an instance identifier and the same text plus `\|x` lists one reference; the corrected entity lists both |
| GtsExtract.ExtractEntityInternal | Gts/Extraction/GtsExtract.cs:91-143 | the entity is a schema exactly when the document has `$schema` or `$$schema`; it carries the chosen entity field and its parsed identifier, the document and the references of the walk as written; it fails only when the document holds a number or a boolean, or a property it reads holds something other than a string or null |
| GtsExtract.SchemaIdOfDerivedSchema | Gts/Extraction/GtsExtract.cs:102-114 | a schema whose identifier is a valid chain of two or more links takes the first link, read from the entity field |
| GtsExtract.SchemaIdOfPlainSchema | Gts/Extraction/GtsExtract.cs:116-123 | any other schema takes a non-empty `$schema`, read from `$schema`, or has none |
| GtsExtract.SchemaIdOfChainedInstance | Gts/Extraction/GtsExtract.cs:128-136 | an instance whose identifier has a `~` before its end takes everything through the last `~`, read from the entity field |
| GtsExtract.SchemaIdOfPlainInstance | Gts/Extraction/GtsExtract.cs:138-141 | any other instance takes the schema-name scan's choice, or has none |
| GtsExtract.ExtractId | Gts/Extraction/GtsExtract.cs:19-41 | the result exists exactly when the entity does, carries its fields and kind, and reports an empty schema identifier as null |
| GtsExtract.ExtractIdId | Gts/Extraction/GtsExtract.cs:24-32 | the `Id` is the chosen entity value, except for a schema whose value does not parse, and empty when no field was chosen |
| GtsExtract.SchemaDocumentId | Gts/Extraction/GtsExtract.cs:19-41 | a schema whose `$id` is `gts://` and a type identifier gets that identifier back as its `Id`, read from `$id` |
| GtsExtract.TypeDocumentId | Gts/Extraction/GtsExtract.cs:19-41 | every canonical type identifier written as `gts://` plus its text in `$id` comes back as the `Id` |
| GtsExtract.ExtractIdFromNode | Gts/Extraction/GtsExtract.cs:46-52 | a root that is not an object gives the empty result; an object is extracted |

## Left out

- `ExtractId(JsonElement)` (`Gts/Extraction/GtsExtract.cs:58-68`): it re-parses the element's raw text into a node, which is JSON text parsing. For an object element it is `ExtractId` on that object.
- JSON parsing, duplicate keys and number formats: a document is given as a tree. `Json.Lookup` takes the first member with a key.
- Pidgin's error messages, labels and expected-token sets. A failed parse is `None` or a `ParseError`, and `ParseResult` carries nothing else either.
- `GtsId.MaxLength` (`Gts/GtsId.cs:13`): no code reads it.
- SHA-1 and UTF-8 encoding: library calls, taken as parameters (`sha1`, `utf8`). The SHA-1 parameter must return 20 bytes.
- Parsers.VersionNumber: reads an unsigned run of digits as an unbounded number. Pidgin's `Num` also accepts a leading sign; its sign and `Int32` overflow behaviour are not modelled.
- Text.ParseNat: models `int.Parse` only on strings without sign or surrounding white space, and as an unbounded number. The sign, the white space and the `Int32` overflow exception are not modelled; at its one call site the text is a digit run rendered by `ToString`.
- GtsIds.TryParse: `id.EndsWith("~")` is modelled as an ordinal test on the last character. The C# overload with a string argument is culture-sensitive, which matters only for characters such as ignorable code points.
- Text.Trim: white space is the fixed set of `char.IsWhiteSpace` code points, all below U+10000.
- Strings are sequences of Unicode scalar values, where .NET strings are UTF-16 code units. A character above U+FFFF is one `char` here and two code units in .NET, and a lone surrogate cannot be represented. The difference does not change any result. No character above U+FFFF is white space, so `Trim` agrees. `IndexOf` and `LastIndexOf` count positions in different units, but the substrings cut at `Gts/Extraction/GtsExtract.cs:112` and `:134` are the same.
- GtsExtract.BuildEntity: the re-derivation of an instance's schema identifier from its own chain (`Gts/Extraction/GtsExtract.cs:165-176`) is modelled. Its contract does not describe it, because `ExtractEntityInternal` never reaches it: by then the chain test has already failed.
- GtsExtract.ExtractEntityInternal: its contract names the only causes of failure, not that each cause does make it fail. For documents with strings only, the `SchemaIdOf` lemmas state success in each branch.
- Tests that expect a null `Id` for a document without an identifier: the code returns an empty string, and the model follows the code.

## Findings

| source | as written | input that shows it | evidently intended | confidence | as-written member | corrected member |
|---|---|---|---|---|---|---|
| Gts/GtsId.cs:128-132 | `MapSegment` sets `IsWildcard` to false for every segment, pattern segments included. So the wildcard branch of `MatchSegments` (lines 176-186) is never taken, and a pattern segment that omits fields is compared field by field: an absent package never equals a present one | candidate `gts.x.core.events.type.v1~` against pattern `gts.x.*` | `gts.x.*` matches every identifier whose first segment has vendor `x` (the method's doc comment allows one trailing wildcard) | high; not executed | GtsIds.VendorPatternMatchesNothing | GtsIds.VendorPatternMatchesVendor |
| Gts/Extraction/GtsExtract.cs:255-257 | References are deduplicated on the string `id + "\|" + path`. The grammar accepts a valid prefix, so an identifier may itself contain `\|`, and two different references can share a key | `{"x\|y": t, "y": t + "\|x"}` with `t` any instance identifier: both give the key `t\|x\|y`, and the second reference is dropped | each distinct (identifier, path) pair is reported once | high; not executed | References.KeyCollisionDropsReference | References.ExtractReferencesCorrected |

=== FILE: gts_extract.dfy ===
/**
 * `GtsExtract`: the primary identifier, the schema identifier and the
 * references of a JSON document. A JSON object is given by its members;
 * `options` left out (`None`) stands for `GtsExtractOptions.Default`.
 */
module GtsExtract {
  import opened Wrappers
  import opened Text
  import opened Json
  import opened GtsIds
  import opened References
  import opened Parsers
  import opened ParserProperties

  /** `GtsExtractOptions`: the property names to try, in priority order. */
  datatype Options = Options(entityIdPropertyNames: seq<string>, schemaIdPropertyNames: seq<string>)

  /** `GtsExtractOptions.Default`. */
  const DefaultOptions: Options := Options(
    ["$id", "gtsId", "gtsIid", "gtsOid", "gtsI", "gts_id", "gts_oid", "gts_iid", "id"],
    ["gtsTid", "gtsType", "gtsT", "gts_t", "gts_tid", "gts_type", "type", "schema"])

  /** The URI scheme a `$id` value may carry in front of its identifier. */
  const GtsUriPrefix: string := "gts://"

  /** `ExtractResult`. */
  datatype ExtractResult = ExtractResult(
    id: string,
    schemaId: Option<string>,
    selectedEntityField: Option<string>,
    selectedSchemaIdField: Option<string>,
    isSchema: bool)

  /** `GtsJsonEntity`. */
  datatype GtsJsonEntity = GtsJsonEntity(
    gtsId: Option<GtsId>,
    schemaId: string,
    selectedEntityField: Option<string>,
    selectedSchemaIdField: Option<string>,
    isSchema: bool,
    content: seq<Member>,
    gtsRefs: seq<GtsReference>,
    /** `Label`: the parsed identifier's text, or empty. */
    labelText: string)

  /** A property name and the value read from it. */
  datatype Field = Field(name: string, value: string)

  // ---------------------------------------------------------------------------
  // Reading properties
  // ---------------------------------------------------------------------------

  /** The object has a member named `key`, whatever its value. */
  predicate HasMember(obj: seq<Member>, key: string) {
    exists i | 0 <= i < |obj| :: obj[i].key == key
  }

  /** `IsJsonSchema`: a `$schema` or a `$$schema` member, whatever its value, makes the document a schema. */
  function IsJsonSchema(obj: seq<Member>): (b: bool)
    ensures b <==> HasMember(obj, "$schema") || HasMember(obj, "$$schema")
  {
    Lookup(obj, "$schema").Some? || Lookup(obj, "$$schema").Some?
  }

  /**
   * `GetFieldValue`: a missing member, a null and a white-space-only string
   * give nothing; a string gives its trimmed text, without a leading
   * `gts://` when the property is `$id`; any other value throws.
   */
  function GetFieldValue(obj: seq<Member>, name: string): (r: Result<Option<string>>)
    ensures r.Failure? <==> Lookup(obj, name).Some? && !(Lookup(obj, name).value.JNull? || Lookup(obj, name).value.JString?)
    ensures r == Success(None) <==>
      || Lookup(obj, name).None?
      || Lookup(obj, name).value.JNull?
      || (Lookup(obj, name).value.JString? && AllWhiteSpace(Lookup(obj, name).value.str))
    ensures r.Success? && r.value.Some? ==>
      var raw := Lookup(obj, name).value.str;
      if name == "$id" && StartsWith(Trim(raw), GtsUriPrefix) then GtsUriPrefix + r.value.value == Trim(raw)
      else r.value.value == Trim(raw) && |r.value.value| > 0
  {
    match Lookup(obj, name)
    case None => Success(None)
    case Some(node) =>
      var s :- AsString(node);
      if s.None? || AllWhiteSpace(s.value) then Success(None)
      else
        var trimmed := Trim(s.value);
        if |trimmed| == 0 then Success(None)
        else if name == "$id" && StartsWith(trimmed, GtsUriPrefix) then Success(Some(trimmed[|GtsUriPrefix|..]))
        else Success(Some(trimmed))
  }

  /** A property other than `$id` holding white space around a value gives that value back. */
  lemma GetFieldValueTrims(obj: seq<Member>, name: string, before: string, v: string, after: string)
    requires name != "$id" && Lookup(obj, name) == Some(JString(before + v + after))
    requires AllWhiteSpace(before) && AllWhiteSpace(after)
    requires |v| > 0 && !IsWhiteSpace(v[0]) && !IsWhiteSpace(v[|v| - 1])
    ensures GetFieldValue(obj, name) == Success(Some(v))
  {
    TrimSurrounded(before, v, after);
    assert !AllWhiteSpace(before + v + after) by {
      assert (before + v + after)[|before|] == v[0];
    }
  }

  /** A `$id` holding `gts://` and then a value gives the value without the prefix. */
  lemma GetFieldValueStripsUri(obj: seq<Member>, v: string)
    requires Lookup(obj, "$id") == Some(JString(GtsUriPrefix + v))
    requires |v| > 0 && !IsWhiteSpace(v[|v| - 1])
    ensures GetFieldValue(obj, "$id") == Success(Some(v))
  {
    var raw := GtsUriPrefix + v;
    TrimSurrounded([], raw, []);
    assert [] + raw + [] == raw;
    assert !AllWhiteSpace(raw) by {
      assert raw[0] == 'g';
    }
    assert raw[|GtsUriPrefix|..] == v;
  }

  // ---------------------------------------------------------------------------
  // Choosing a field
  // ---------------------------------------------------------------------------

  /**
   * What reading each of `names` gives. Reading has no side effect, so
   * scanning these results in order is scanning the object name by name.
   */
  function ReadAll(obj: seq<Member>, names: seq<string>): (results: seq<Result<Option<string>>>)
    ensures |results| == |names| && forall k | 0 <= k < |names| :: results[k] == GetFieldValue(obj, names[k])
  {
    seq(|names|, k requires 0 <= k < |names| => GetFieldValue(obj, names[k]))
  }

  /** The `k`-th result is a non-empty string. */
  predicate FilledAt(results: seq<Result<Option<string>>>, k: nat)
    requires k < |results|
  {
    results[k].Success? && results[k].value.Some? && |results[k].value.value| > 0
  }

  /** The `k`-th result is a non-empty string that `valid` accepts. */
  predicate ValidAt(valid: string -> bool, results: seq<Result<Option<string>>>, k: nat)
    requires k < |results|
  {
    FilledAt(results, k) && valid(results[k].value.value)
  }

  /** The `k`-th read threw. */
  predicate FailsAt(results: seq<Result<Option<string>>>, k: nat)
    requires k < |results|
  {
    results[k].Failure?
  }

  function FieldAt(names: seq<string>, results: seq<Result<Option<string>>>, k: nat): Field
    requires k < |names| == |results| && FilledAt(results, k)
  {
    Field(names[k], results[k].value.value)
  }

  /** The first loop of `FirstNonEmptyField`, from the `i`-th name on: the first value `valid` accepts. */
  function FirstValid(valid: string -> bool, names: seq<string>, results: seq<Result<Option<string>>>, i: nat)
    : (r: Result<Option<Field>>)
    requires |names| == |results| && i <= |names|
    ensures r.Success? && r.value.Some? ==> exists k | i <= k < |names| ::
      && ValidAt(valid, results, k) && r.value.value == FieldAt(names, results, k)
      && forall j | i <= j < k :: !ValidAt(valid, results, j) && !FailsAt(results, j)
    ensures r == Success(None) <==> forall j | i <= j < |names| :: !ValidAt(valid, results, j) && !FailsAt(results, j)
    ensures r.Failure? ==> exists k | i <= k < |names| ::
      && FailsAt(results, k)
      && forall j | i <= j < k :: !ValidAt(valid, results, j) && !FailsAt(results, j)
    decreases |names| - i
  {
    if i == |names| then Success(None)
    else
      match results[i]
      case Failure(e) =>
        assert FailsAt(results, i);
        Failure(e)
      case Success(v) =>
        if v.Some? && |v.value| > 0 && valid(v.value) then
          assert ValidAt(valid, results, i) && FieldAt(names, results, i) == Field(names[i], v.value);
          Success(Some(Field(names[i], v.value)))
        else FirstValid(valid, names, results, i + 1)
  }

  /** The second loop of `FirstNonEmptyField`, from the `i`-th name on: the first non-empty value. */
  function FirstFilled(names: seq<string>, results: seq<Result<Option<string>>>, i: nat): (r: Result<Option<Field>>)
    requires |names| == |results| && i <= |names|
    ensures r.Success? && r.value.Some? ==> exists k | i <= k < |names| ::
      && FilledAt(results, k) && r.value.value == FieldAt(names, results, k)
      && forall j | i <= j < k :: !FilledAt(results, j) && !FailsAt(results, j)
    ensures r == Success(None) <==> forall j | i <= j < |names| :: !FilledAt(results, j) && !FailsAt(results, j)
    ensures r.Failure? ==> exists k | i <= k < |names| :: FailsAt(results, k)
    decreases |names| - i
  {
    if i == |names| then Success(None)
    else
      match results[i]
      case Failure(e) =>
        assert FailsAt(results, i);
        Failure(e)
      case Success(v) =>
        if v.Some? && |v.value| > 0 then
          assert FilledAt(results, i) && FieldAt(names, results, i) == Field(names[i], v.value);
          Success(Some(Field(names[i], v.value)))
        else FirstFilled(names, results, i + 1)
  }

  /**
   * The two passes of `FirstNonEmptyField`: the first name, in list order,
   * whose value `valid` accepts; failing that, the first whose value is not
   * empty; failing that, none. A read that throws ends the scan, but only
   * when no earlier name holds an accepted value.
   */
  function FirstField(valid: string -> bool, names: seq<string>, results: seq<Result<Option<string>>>)
    : (r: Result<Option<Field>>)
    requires |names| == |results|
    ensures r.Success? && r.value.Some? ==> exists k | 0 <= k < |names| ::
      FilledAt(results, k) && r.value.value == FieldAt(names, results, k)
    ensures r == Success(None) <==> forall j | 0 <= j < |names| :: !FilledAt(results, j) && !FailsAt(results, j)
    ensures r.Failure? ==> exists k | 0 <= k < |names| ::
      FailsAt(results, k) && forall j | 0 <= j < k :: !ValidAt(valid, results, j)
  {
    var first := FirstValid(valid, names, results, 0);
    if first.Failure? then first
    else if first.value.Some? then first
    else FirstFilled(names, results, 0)
  }

  /** `FirstNonEmptyField`: the field choice, with valid GTS identifiers preferred. */
  function FirstNonEmptyField(obj: seq<Member>, names: seq<string>): Result<Option<Field>> {
    FirstField(IsValidGtsId, names, ReadAll(obj, names))
  }

  /** An accepted value wins over every value before it. */
  lemma FirstFieldPrefersValid(valid: string -> bool, names: seq<string>, results: seq<Result<Option<string>>>, k: nat)
    requires |names| == |results| && k < |names| && ValidAt(valid, results, k)
    requires forall j | 0 <= j < k :: !ValidAt(valid, results, j) && !FailsAt(results, j)
    ensures FirstField(valid, names, results) == Success(Some(FieldAt(names, results, k)))
  {
    FirstValidFinds(valid, names, results, 0, k);
  }

  /** The first loop, started at `i`, stops at the first accepted value when nothing before it threw. */
  lemma {:induction false} FirstValidFinds(
    valid: string -> bool, names: seq<string>, results: seq<Result<Option<string>>>, i: nat, k: nat)
    requires |names| == |results| && i <= k < |names| && ValidAt(valid, results, k)
    requires forall j | i <= j < k :: !ValidAt(valid, results, j) && !FailsAt(results, j)
    ensures FirstValid(valid, names, results, i) == Success(Some(FieldAt(names, results, k)))
    decreases k - i
  {
    if i < k {
      assert !ValidAt(valid, results, i) && !FailsAt(results, i);
      FirstValidFinds(valid, names, results, i + 1, k);
    }
  }

  /** With no accepted value anywhere, the first non-empty one is taken. */
  lemma FirstFieldFallsBack(valid: string -> bool, names: seq<string>, results: seq<Result<Option<string>>>, k: nat)
    requires |names| == |results|
    requires forall j | 0 <= j < |names| :: !ValidAt(valid, results, j) && !FailsAt(results, j)
    requires k < |names| && FilledAt(results, k)
    requires forall j | 0 <= j < k :: !FilledAt(results, j)
    ensures FirstField(valid, names, results) == Success(Some(FieldAt(names, results, k)))
  {
    assert FirstValid(valid, names, results, 0) == Success(None);
    FirstFilledFinds(names, results, 0, k);
  }

  /** The second loop, started at `i`, stops at the first non-empty value when nothing before it threw. */
  lemma {:induction false} FirstFilledFinds(names: seq<string>, results: seq<Result<Option<string>>>, i: nat, k: nat)
    requires |names| == |results| && i <= k < |names| && FilledAt(results, k)
    requires forall j | i <= j < k :: !FilledAt(results, j) && !FailsAt(results, j)
    ensures FirstFilled(names, results, i) == Success(Some(FieldAt(names, results, k)))
    decreases k - i
  {
    if i < k {
      assert !FilledAt(results, i) && !FailsAt(results, i);
      FirstFilledFinds(names, results, i + 1, k);
    }
  }

  /** The chosen field's value is what reading that property gives. */
  lemma FirstNonEmptyFieldIsRead(obj: seq<Member>, names: seq<string>, f: Field)
    requires FirstNonEmptyField(obj, names) == Success(Some(f))
    ensures f.name in names && GetFieldValue(obj, f.name) == Success(Some(f.value)) && |f.value| > 0
  {
    var results := ReadAll(obj, names);
    var k :| 0 <= k < |names| && FilledAt(results, k) && f == FieldAt(names, results, k);
  }

  // ---------------------------------------------------------------------------
  // Schema identifiers from identifier chains
  // ---------------------------------------------------------------------------

  /** `value[..(value.IndexOf('~') + 1)]`: the chain's first link, its `~` included. */
  function ThroughFirstTilde(value: string): (t: string)
    requires '~' in value
    ensures t <= value && EndsWith(t, '~') && CountChar(t, '~') == 1
  {
    var k := IndexOf(value, '~');
    var t := value[..k + 1];
    assert t == value[..k] + ['~'];
    CountCharAppend(value[..k], ['~'], '~');
    assert ['~'][1..] == [];
    t
  }

  /** `value[..(value.LastIndexOf('~') + 1)]`: everything up to the chain's last `~`. */
  function ThroughLastTilde(value: string): (t: string)
    requires '~' in value
    ensures t <= value && EndsWith(t, '~') && '~' !in value[|t|..]
  {
    LastIndexOfAbsent(value, '~');
    value[..LastIndexOf(value, '~') + 1]
  }

  /** The derived-schema test: a valid, `~`-terminated value whose first `~` is followed by another one. */
  predicate DerivedSchemaChain(value: Option<string>) {
    && value.Some? && |value.value| > 0 && IsValidGtsId(value.value) && EndsWith(value.value, '~')
    && var k := IndexOf(value.value, '~');
       k > 0 && IndexOf(value.value[k + 1..], '~') >= 0
  }

  /** The instance test: a valid value that does not end with `~` but has one, after its start. */
  predicate InstanceChain(value: Option<string>) {
    && value.Some? && |value.value| > 0 && IsValidGtsId(value.value) && !EndsWith(value.value, '~')
    && LastIndexOf(value.value, '~') > 0
  }

  /** For a valid identifier the derived-schema test asks for two `~` or more. */
  lemma DerivedSchemaChainMeans(value: string)
    requires IsValidGtsId(value)
    ensures DerivedSchemaChain(Some(value)) <==> EndsWith(value, '~') && CountChar(value, '~') >= 2
  {
    ValidIdStartsWithGts(value);
    TwoTildes(value);
    if EndsWith(value, '~') {
      assert value[|value| - 1] == '~';
    }
  }

  /** In text starting with `gts.`, a `~` after the first one means two or more. */
  lemma TwoTildes(value: string)
    requires |value| >= 4 && value[..4] == "gts."
    ensures '~' in value ==> IndexOf(value, '~') > 0
    ensures '~' in value ==> (IndexOf(value[IndexOf(value, '~') + 1..], '~') >= 0 <==> CountChar(value, '~') >= 2)
  {
    if '~' in value {
      var k := IndexOf(value, '~');
      assert forall i | 0 <= i < 4 :: value[i] == "gts."[i];
      assert value[k] == '~';
      SecondOccurrence(value, '~');
    }
  }

  /** For a valid identifier the instance test asks for a `~` that is not the last character. */
  lemma InstanceChainMeans(value: string)
    requires IsValidGtsId(value)
    ensures InstanceChain(Some(value)) <==> !EndsWith(value, '~') && '~' in value
  {
    ValidIdStartsWithGts(value);
    LastIndexOfAbsent(value, '~');
    var k := LastIndexOf(value, '~');
    assert value[0] == "gts."[0];
  }

  // ---------------------------------------------------------------------------
  // Entities
  // ---------------------------------------------------------------------------

  /** `string.IsNullOrEmpty`, with `None` for null. */
  predicate NullOrEmpty(s: Option<string>) {
    s.None? || |s.value| == 0
  }

  /** The identifier a value names, when it is valid and `TryParse` accepts it. */
  function ParsedId(value: Option<string>): (r: Option<GtsId>)
    ensures r.Some? ==> value.Some? && r.value.id == value.value && IsValidGtsId(value.value) && !r.value.isPattern
    ensures value.Some? && |value.value| > 0 && TryParse(value.value).Some? ==> r == TryParse(value.value)
  {
    if !NullOrEmpty(value) && IsValidGtsId(value.value) && TryParse(value.value).Some? then TryParse(value.value) else None
  }

  /**
   * `BuildEntity`: the parsed identifier, the schema identifier and the
   * references. For an instance whose schema identifier is still empty, the
   * chain is tried once more; `ExtractEntityInternal` never leaves that case.
   * The references are those of `ExtractReferences` as written, keyed on
   * `id|path`; `ExtractEntityCorrected` replaces them.
   */
  function BuildEntity(
    obj: seq<Member>, isSchema: bool, entityIdValue: Option<string>, selectedEntityField: Option<string>,
    schemaId: string, selectedSchemaIdField: Option<string>): (r: Result<GtsJsonEntity>)
    ensures r.Success? <==> StringsOnly(JObject(obj))
    ensures r.Success? ==> r.value.gtsId == ParsedId(entityIdValue) && r.value.isSchema == isSchema
    ensures r.Success? ==> r.value.labelText == (if r.value.gtsId.Some? then r.value.gtsId.value.id else [])
    ensures r.Success? && (isSchema || |schemaId| > 0 || !InstanceChain(entityIdValue)) ==>
      r.value.schemaId == schemaId && r.value.selectedSchemaIdField == selectedSchemaIdField
    ensures r.Success? ==> r.value.content == obj && r.value.selectedEntityField == selectedEntityField
    ensures r.Success? ==> r.value.gtsRefs == ExtractReferences(Some(JObject(obj))).value
  {
    var gtsId := ParsedId(entityIdValue);
    var rederive :=
      && !isSchema && gtsId.Some? && |schemaId| == 0 && !NullOrEmpty(selectedEntityField)
      && !EndsWith(entityIdValue.value, '~') && LastIndexOf(entityIdValue.value, '~') > 0;
    var schemaId' := if rederive then entityIdValue.value[..LastIndexOf(entityIdValue.value, '~') + 1] else schemaId;
    var selectedSchemaIdField' := if rederive then selectedEntityField else selectedSchemaIdField;
    var refs :- ExtractReferences(Some(JObject(obj)));
    Success(GtsJsonEntity(
      gtsId, schemaId', selectedEntityField, selectedSchemaIdField', isSchema, obj, refs,
      if gtsId.Some? then gtsId.value.id else ""))
  }

  /** The entity field's name and value, each `None` when no field was chosen. */
  function FieldName(f: Option<Field>): Option<string> {
    if f.Some? then Some(f.value.name) else None
  }

  function FieldValue(f: Option<Field>): Option<string> {
    if f.Some? then Some(f.value.value) else None
  }

  /** A schema identifier and the property it was read from. */
  datatype SchemaSource = SchemaSource(schemaId: string, field: Option<string>)

  /** The schema branch of `ExtractEntityInternal`: a derived chain's first link, else `$schema`, else nothing. */
  function SchemaSourceOfSchema(obj: seq<Member>, entityIdValue: Option<string>, selectedEntityField: Option<string>)
    : (r: Result<SchemaSource>)
    ensures r.Failure? <==> !DerivedSchemaChain(entityIdValue) && GetFieldValue(obj, "$schema").Failure?
  {
    if DerivedSchemaChain(entityIdValue) then
      Success(SchemaSource(ThroughFirstTilde(entityIdValue.value), selectedEntityField))
    else
      var schemaValue :- GetFieldValue(obj, "$schema");
      if !NullOrEmpty(schemaValue) then Success(SchemaSource(schemaValue.value, Some("$schema")))
      else Success(SchemaSource("", None))
  }

  /** The instance branch of `ExtractEntityInternal`: the chain up to its last `~`, else the schema property names. */
  function SchemaSourceOfInstance(
    obj: seq<Member>, options: Options, entityIdValue: Option<string>, selectedEntityField: Option<string>)
    : (r: Result<SchemaSource>)
    ensures r.Failure? <==> !InstanceChain(entityIdValue) && FirstNonEmptyField(obj, options.schemaIdPropertyNames).Failure?
  {
    if InstanceChain(entityIdValue) then
      LastIndexOfAbsent(entityIdValue.value, '~');
      Success(SchemaSource(ThroughLastTilde(entityIdValue.value), selectedEntityField))
    else
      var schema :- FirstNonEmptyField(obj, options.schemaIdPropertyNames);
      var schemaValue := FieldValue(schema);
      Success(SchemaSource(schemaValue.GetOr(""), if NullOrEmpty(schemaValue) then None else FieldName(schema)))
  }

  function SchemaSourceFor(
    obj: seq<Member>, options: Options, isSchema: bool, entityIdValue: Option<string>, selectedEntityField: Option<string>)
    : Result<SchemaSource>
  {
    if isSchema then SchemaSourceOfSchema(obj, entityIdValue, selectedEntityField)
    else SchemaSourceOfInstance(obj, options, entityIdValue, selectedEntityField)
  }

  /**
   * `ExtractEntityInternal`: choose the entity field, then the schema
   * identifier, then build the entity. It throws only on a value that is
   * not a string: one of the properties it reads holding a number, a
   * boolean, an object or an array, or a number or a boolean anywhere in
   * the document.
   */
  function ExtractEntityInternal(obj: seq<Member>, options: Options): (r: Result<GtsJsonEntity>)
    ensures r.Success? ==> r.value.isSchema == (HasMember(obj, "$schema") || HasMember(obj, "$$schema"))
    ensures r.Success? ==> FirstNonEmptyField(obj, options.entityIdPropertyNames).Success?
    ensures r.Success? ==> r.value.selectedEntityField == FieldName(FirstNonEmptyField(obj, options.entityIdPropertyNames).value)
    ensures r.Success? ==> r.value.gtsId == ParsedId(FieldValue(FirstNonEmptyField(obj, options.entityIdPropertyNames).value))
    ensures r.Success? ==> StringsOnly(JObject(obj))
    ensures r.Success? ==> r.value.content == obj && r.value.gtsRefs == ExtractReferences(Some(JObject(obj))).value
    ensures r.Failure? ==>
      || !StringsOnly(JObject(obj))
      || FirstNonEmptyField(obj, options.entityIdPropertyNames).Failure?
      || ((HasMember(obj, "$schema") || HasMember(obj, "$$schema")) && GetFieldValue(obj, "$schema").Failure?)
      || (!(HasMember(obj, "$schema") || HasMember(obj, "$$schema"))
          && FirstNonEmptyField(obj, options.schemaIdPropertyNames).Failure?)
  {
    var isSchema := IsJsonSchema(obj);
    var entity :- FirstNonEmptyField(obj, options.entityIdPropertyNames);
    var source :- SchemaSourceFor(obj, options, isSchema, FieldValue(entity), FieldName(entity));
    BuildEntity(obj, isSchema, FieldValue(entity), FieldName(entity), source.schemaId, source.field)
  }

  /** `ExtractEntity`. */
  function ExtractEntity(obj: seq<Member>, options: Option<Options>): Result<GtsJsonEntity> {
    ExtractEntityInternal(obj, options.GetOr(DefaultOptions))
  }

  /**
   * `ExtractEntityInternal` with the references of the corrected walk: the
   * same entity, except that every distinct (identifier, path) occurrence
   * is listed exactly once.
   */
  function ExtractEntityCorrected(obj: seq<Member>, options: Options): (r: Result<GtsJsonEntity>)
    ensures r.Success? <==> ExtractEntityInternal(obj, options).Success?
    ensures r.Success? ==> r.value == ExtractEntityInternal(obj, options).value.(gtsRefs := r.value.gtsRefs)
    ensures r.Success? ==>
      && (forall x :: x in r.value.gtsRefs <==> x in Occurrences(IsValidGtsId, JObject(obj), ""))
      && forall i, j | 0 <= i < j < |r.value.gtsRefs| :: r.value.gtsRefs[i] != r.value.gtsRefs[j]
  {
    var entity :- ExtractEntityInternal(obj, options);
    match ExtractReferencesCorrected(Some(JObject(obj)))
    case Success(refs) => Success(entity.(gtsRefs := refs))
    case Failure(e) => Failure(e)
  }

  /**
   * As written, the entity of `CollidingDocument` lists one reference where
   * the document holds two; the corrected entity lists both.
   */
  lemma EntityKeyCollision(segs: seq<Parsers.SegmentInfo>)
    requires |segs| >= 1 && Parsers.AllFit(Parsers.Strict, segs)
    ensures var t := ParserProperties.InstanceIdText(segs);
            var obj := CollidingDocument(t).members;
            && ExtractEntity(obj, None).Success?
            && ExtractEntity(obj, None).value.gtsRefs == [GtsReference(t, "x|y")]
            && ExtractEntityCorrected(obj, DefaultOptions).Success?
            && ExtractEntityCorrected(obj, DefaultOptions).value.gtsRefs == [GtsReference(t, "x|y"), GtsReference(t + "|x", "y")]
  {
    var t := ParserProperties.InstanceIdText(segs);
    var obj := CollidingDocument(t).members;
    KeyCollisionDropsReference(segs);
    UnnamedEntity(obj, DefaultOptions);
  }

  /**
   * A document holding none of the properties the options name, and no
   * `$schema` or `$$schema`, gives an instance entity with no identifier and
   * no schema identifier, carrying only the document and its references.
   */
  lemma UnnamedEntity(obj: seq<Member>, options: Options)
    requires forall i | 0 <= i < |obj| ::
      && obj[i].key !in options.entityIdPropertyNames && obj[i].key !in options.schemaIdPropertyNames
      && obj[i].key != "$schema" && obj[i].key != "$$schema"
    requires StringsOnly(JObject(obj))
    ensures ExtractEntityInternal(obj, options) ==
      Success(GtsJsonEntity(None, "", None, None, false, obj, ExtractReferences(Some(JObject(obj))).value, ""))
  {
    NoNamedField(obj, options.entityIdPropertyNames);
    NoNamedField(obj, options.schemaIdPropertyNames);
  }

  /** Reading names the object does not hold finds no field. */
  lemma NoNamedField(obj: seq<Member>, names: seq<string>)
    requires forall i | 0 <= i < |obj| :: obj[i].key !in names
    ensures FirstNonEmptyField(obj, names) == Success(None)
  {
    var results := ReadAll(obj, names);
    forall j | 0 <= j < |names|
      ensures results[j] == Success(None)
    {
      assert names[j] in names;
    }
  }

  /**
   * A schema whose entity value is a valid chain of two links or more,
   * ending with `~`, takes the first link as its schema identifier, read
   * from the entity field.
   */
  lemma SchemaIdOfDerivedSchema(obj: seq<Member>, options: Options, f: Field)
    requires HasMember(obj, "$schema") || HasMember(obj, "$$schema")
    requires FirstNonEmptyField(obj, options.entityIdPropertyNames) == Success(Some(f))
    requires IsValidGtsId(f.value) && EndsWith(f.value, '~') && CountChar(f.value, '~') >= 2
    requires StringsOnly(JObject(obj))
    ensures var r := ExtractEntityInternal(obj, options);
            && r.Success?
            && r.value.schemaId <= f.value && EndsWith(r.value.schemaId, '~') && CountChar(r.value.schemaId, '~') == 1
            && r.value.selectedSchemaIdField == Some(f.name)
  {
    DerivedSchemaChainMeans(f.value);
  }

  /** Any other schema takes a non-empty `$schema` value, read from `$schema`; else no schema identifier. */
  lemma SchemaIdOfPlainSchema(obj: seq<Member>, options: Options)
    requires HasMember(obj, "$schema") || HasMember(obj, "$$schema")
    requires FirstNonEmptyField(obj, options.entityIdPropertyNames).Success?
    requires !DerivedSchemaChain(FieldValue(FirstNonEmptyField(obj, options.entityIdPropertyNames).value))
    requires GetFieldValue(obj, "$schema").Success? && StringsOnly(JObject(obj))
    ensures var r := ExtractEntityInternal(obj, options);
            var s := GetFieldValue(obj, "$schema").value;
            && r.Success?
            && (NullOrEmpty(s) ==> r.value.schemaId == [] && r.value.selectedSchemaIdField.None?)
            && (!NullOrEmpty(s) ==> r.value.schemaId == s.value && r.value.selectedSchemaIdField == Some("$schema"))
  {
  }

  /**
   * An instance whose entity value is a valid identifier with a `~` before
   * its end takes everything through the last `~` as its schema
   * identifier, read from the entity field.
   */
  lemma SchemaIdOfChainedInstance(obj: seq<Member>, options: Options, f: Field)
    requires !HasMember(obj, "$schema") && !HasMember(obj, "$$schema")
    requires FirstNonEmptyField(obj, options.entityIdPropertyNames) == Success(Some(f))
    requires IsValidGtsId(f.value) && !EndsWith(f.value, '~') && '~' in f.value
    requires StringsOnly(JObject(obj))
    ensures var r := ExtractEntityInternal(obj, options);
            && r.Success?
            && r.value.schemaId <= f.value && EndsWith(r.value.schemaId, '~') && '~' !in f.value[|r.value.schemaId|..]
            && r.value.selectedSchemaIdField == Some(f.name)
  {
    InstanceChainMeans(f.value);
  }

  /** Any other instance takes its schema identifier from the schema property names, or has none. */
  lemma SchemaIdOfPlainInstance(obj: seq<Member>, options: Options)
    requires !HasMember(obj, "$schema") && !HasMember(obj, "$$schema")
    requires FirstNonEmptyField(obj, options.entityIdPropertyNames).Success?
    requires !InstanceChain(FieldValue(FirstNonEmptyField(obj, options.entityIdPropertyNames).value))
    requires FirstNonEmptyField(obj, options.schemaIdPropertyNames).Success? && StringsOnly(JObject(obj))
    ensures var r := ExtractEntityInternal(obj, options);
            var s := FirstNonEmptyField(obj, options.schemaIdPropertyNames).value;
            && r.Success?
            && (s.None? ==> r.value.schemaId == [] && r.value.selectedSchemaIdField.None?)
            && (s.Some? ==> r.value.schemaId == s.value.value && r.value.selectedSchemaIdField == Some(s.value.name))
  {
    var entity := FirstNonEmptyField(obj, options.entityIdPropertyNames).value;
    assert !InstanceChain(FieldValue(entity));
  }

  // ---------------------------------------------------------------------------
  // The result
  // ---------------------------------------------------------------------------

  /**
   * `ExtractId`: the parsed identifier's text for a schema or a parsed
   * entity value, else the entity field's value read again, else the empty
   * string; an empty schema identifier is reported as `None`.
   */
  function ExtractId(obj: seq<Member>, options: Option<Options>): (r: Result<ExtractResult>)
    ensures r.Success? <==> ExtractEntity(obj, options).Success?
    ensures r.Success? ==>
      var e := ExtractEntity(obj, options).value;
      && r.value.isSchema == e.isSchema
      && r.value.selectedEntityField == e.selectedEntityField
      && r.value.selectedSchemaIdField == e.selectedSchemaIdField
      && (r.value.schemaId.None? <==> |e.schemaId| == 0)
      && (r.value.schemaId.Some? ==> r.value.schemaId.value == e.schemaId)
  {
    var entity :- ExtractEntity(obj, options);
    var schemaId := if |entity.schemaId| == 0 then None else Some(entity.schemaId);
    var result := ExtractResult(
      [], schemaId, entity.selectedEntityField, entity.selectedSchemaIdField, entity.isSchema);
    if entity.isSchema || entity.gtsId.Some? then
      Success(result.(id := if entity.gtsId.Some? then entity.gtsId.value.id else ""))
    else if entity.selectedEntityField.Some? then
      match GetFieldValue(obj, entity.selectedEntityField.value)
      case Failure(e) => Failure(e)
      case Success(v) => Success(result.(id := v.GetOr("")))
    else Success(result)
  }

  /**
   * The `Id` of the result: the chosen entity value whenever one was chosen
   * and the document is not a schema with an unparsable value; the empty
   * string otherwise.
   */
  lemma ExtractIdId(obj: seq<Member>, options: Option<Options>)
    requires ExtractId(obj, options).Success?
    ensures var opts := options.GetOr(DefaultOptions);
            var f := FirstNonEmptyField(obj, opts.entityIdPropertyNames).value;
            var e := ExtractEntity(obj, options).value;
            && (f.None? ==> ExtractId(obj, options).value.id == [])
            && (f.Some? && (!e.isSchema || e.gtsId.Some?) ==> ExtractId(obj, options).value.id == f.value.value)
            && (e.isSchema && e.gtsId.None? ==> ExtractId(obj, options).value.id == [])
  {
    var names := options.GetOr(DefaultOptions).entityIdPropertyNames;
    var f := FirstNonEmptyField(obj, names).value;
    if f.Some? {
      FirstNonEmptyFieldIsRead(obj, names, f.value);
    }
  }

  /**
   * A schema document whose `$id` is `gts://` and a type identifier gets
   * that identifier back, parsed, as its `Id`, read from `$id`.
   */
  lemma SchemaDocumentId(obj: seq<Member>, t: string)
    requires Lookup(obj, "$id") == Some(JString(GtsUriPrefix + t))
    requires TryParse(t).Some? && EndsWith(t, '~')
    requires HasMember(obj, "$schema") && GetFieldValue(obj, "$schema").Success?
    requires StringsOnly(JObject(obj))
    ensures var r := ExtractId(obj, None);
            && r.Success? && r.value.id == t && r.value.isSchema
            && r.value.selectedEntityField == Some("$id")
  {
    assert IsValidGtsId(t);
    SchemaDocumentField(obj, t);
    var e := ExtractEntity(obj, None);
    assert e.Success?;
    assert e.value.gtsId == TryParse(t);
  }

  /** A `$id` of `gts://` and an identifier is the entity field the default names choose. */
  lemma SchemaDocumentField(obj: seq<Member>, t: string)
    requires Lookup(obj, "$id") == Some(JString(GtsUriPrefix + t))
    requires IsValidGtsId(t) && EndsWith(t, '~')
    ensures FirstNonEmptyField(obj, DefaultOptions.entityIdPropertyNames) == Success(Some(Field("$id", t)))
  {
    var names := DefaultOptions.entityIdPropertyNames;
    assert names[0] == "$id";
    GetFieldValueStripsUri(obj, t);
    var results := ReadAll(obj, names);
    assert results[0] == Success(Some(t));
    assert ValidAt(IsValidGtsId, results, 0);
    FirstFieldPrefersValid(IsValidGtsId, names, results, 0);
  }

  /** Every canonical type identifier is such an `$id`. */
  lemma TypeDocumentId(obj: seq<Member>, segs: seq<SegmentInfo>)
    requires |segs| >= 1 && AllFit(Strict, segs)
    requires Lookup(obj, "$id") == Some(JString(GtsUriPrefix + TypeIdText(segs)))
    requires HasMember(obj, "$schema") && GetFieldValue(obj, "$schema").Success?
    requires StringsOnly(JObject(obj))
    ensures var r := ExtractId(obj, None);
            r.Success? && r.value.id == TypeIdText(segs) && r.value.isSchema
  {
    var t := TypeIdText(segs);
    TryParseTypeText(segs, []);
    assert t + [] == t;
    TypeIdTextEndsWithTilde(segs);
    SchemaDocumentId(obj, t);
  }

  /** `ExtractId(JsonNode?)`: a root that is not an object gives an empty result. */
  function ExtractIdFromNode(node: Option<Json>, options: Option<Options>): (r: Result<ExtractResult>)
    ensures !(node.Some? && node.value.JObject?) ==> r == Success(ExtractResult([], None, None, None, false))
    ensures node.Some? && node.value.JObject? ==> r == ExtractId(node.value.members, options)
  {
    if node.Some? && node.value.JObject? then ExtractId(node.value.members, options)
    else Success(ExtractResult("", None, None, None, false))
  }
}

=== FILE: gts_id.dfy ===
/**
 * Identifiers as the library hands them out (`GtsId`, `GtsIdSegment`):
 * parsing with the type/instance dispatch, pattern parsing, pattern matching,
 * and the UUID of an identifier.
 *
 * The C# methods that return a `ParseResult` and an `out` value become
 * functions returning `Option<GtsId>`: `None` is the unsuccessful result with
 * a null value.
 */
module GtsIds {
  import opened Wrappers
  import opened Text
  import opened Parsers
  import opened ParserProperties
  import GuidUtils

  // ---------------------------------------------------------------------------
  // The identifier model
  // ---------------------------------------------------------------------------

  /** `GtsIdSegment`: the names (null when absent), the version numbers, and two flags. */
  datatype GtsIdSegment = GtsIdSegment(
    vendor: Option<string>,
    package: Option<string>,
    namespace: Option<string>,
    typeName: Option<string>,
    versionMajor: Option<nat>,
    versionMinor: Option<nat>,
    isType: bool,
    isWildcard: bool)

  /** `GtsId`: the text it was parsed from, its segments and what kind of identifier it is. */
  datatype GtsId = GtsId(id: string, segments: seq<GtsIdSegment>, isType: bool, isInstance: bool, isPattern: bool)

  /** `MapSegment`: a parsed segment as the library exposes it, always stamped as a type and not a wildcard. */
  function MapSegment(s: SegmentInfo): (seg: GtsIdSegment)
    ensures seg.isType && !seg.isWildcard
  {
    GtsIdSegment(
      s.vendor, s.package, s.namespace, s.typeName,
      if s.version.Some? then Some(s.version.value.major) else None,
      if s.version.Some? then s.version.value.minor else None,
      true, false)
  }

  /** The parsed segment a library segment came from: the version is there exactly when its major number is. */
  function SegmentInfoOf(seg: GtsIdSegment): SegmentInfo {
    SegmentInfo(
      seg.vendor, seg.package, seg.namespace, seg.typeName,
      if seg.versionMajor.Some? then Some(VersionInfo(seg.versionMajor.value, seg.versionMinor)) else None)
  }

  /** `MapSegment` loses nothing of what the parser read. */
  lemma MapSegmentRoundTrip(s: SegmentInfo)
    ensures SegmentInfoOf(MapSegment(s)) == s
  {
  }

  /** Every segment came through `MapSegment`: none is a wildcard, all are types. */
  predicate Stamped(segs: seq<GtsIdSegment>) {
    forall i | 0 <= i < |segs| :: segs[i].isType && !segs[i].isWildcard
  }

  /** A segment of a type or instance identifier: all four names and a major version. */
  predicate Complete(seg: GtsIdSegment) {
    seg.vendor.Some? && seg.package.Some? && seg.namespace.Some? && seg.typeName.Some? && seg.versionMajor.Some?
  }

  /** `segments.Select(MapSegment)`. */
  function MapSegments(infos: seq<SegmentInfo>): (segs: seq<GtsIdSegment>)
    ensures |segs| == |infos| && Stamped(segs)
    ensures AllFit(Strict, infos) ==> forall i | 0 <= i < |segs| :: Complete(segs[i])
    ensures forall i | 0 <= i < |segs| :: segs[i].vendor == infos[i].vendor
  {
    seq(|infos|, i requires 0 <= i < |infos| => MapSegment(infos[i]))
  }

  /** The parsed segments can be read back from the library's segments, one by one. */
  lemma MapSegmentsRoundTrip(infos: seq<SegmentInfo>)
    ensures forall i | 0 <= i < |infos| :: SegmentInfoOf(MapSegments(infos)[i]) == infos[i]
  {
    forall i | 0 <= i < |infos|
      ensures SegmentInfoOf(MapSegments(infos)[i]) == infos[i]
    {
      MapSegmentRoundTrip(infos[i]);
    }
  }

  // ---------------------------------------------------------------------------
  // Parsing
  // ---------------------------------------------------------------------------

  /**
   * `TryParse`: a string ending with `~` is read with the type grammar, any
   * other with the instance grammar. The identifier keeps the input
   * unchanged as its `Id`.
   */
  function TryParse(id: string): (r: Option<GtsId>)
    ensures r.Some? <==> (if EndsWith(id, '~') then GtsTypeId(id).Ok? else GtsInstanceId(id).Ok?)
    ensures r.Some? ==> r.value.id == id && !r.value.isPattern
    ensures r.Some? ==> r.value.isType == EndsWith(id, '~') && r.value.isInstance == !EndsWith(id, '~')
    ensures r.Some? ==> |r.value.segments| >= 1 && Stamped(r.value.segments)
    ensures r.Some? ==> forall i | 0 <= i < |r.value.segments| :: Complete(r.value.segments[i])
  {
    var isType := EndsWith(id, '~');
    match if isType then GtsTypeId(id) else GtsInstanceId(id)
    case Fail(_) => None
    case Ok(info, _, _) => Some(GtsId(id, MapSegments(info.segments), isType, !isType, false))
  }

  /** `TryParsePattern`: the pattern grammar; only `IsPattern` is set. */
  function TryParsePattern(pattern: string): (r: Option<GtsId>)
    ensures r.Some? <==> GtsPattern(pattern).Ok?
    ensures r.Some? ==> r.value.id == pattern && r.value.isPattern && !r.value.isType && !r.value.isInstance
    ensures r.Some? ==> |r.value.segments| >= 1 && Stamped(r.value.segments)
  {
    match GtsPattern(pattern)
    case Fail(_) => None
    case Ok(info, _, _) => Some(GtsId(pattern, MapSegments(info.segments), false, false, true))
  }

  /** `Parse`: `TryParse`, throwing `ParseException` where it gives nothing. */
  function Parse(id: string): (r: Result<GtsId>)
    ensures r.Success? <==> TryParse(id).Some?
    ensures r.Failure? ==> r.error == ParseError
    ensures r.Success? ==> r.value.id == id && r.value.isType == EndsWith(id, '~') && !r.value.isPattern
  {
    match TryParse(id)
    case Some(x) => Success(x)
    case None => Failure(ParseError)
  }

  /** `ParsePattern`: `TryParsePattern`, throwing `ParseException` where it gives nothing. */
  function ParsePattern(pattern: string): (r: Result<GtsId>)
    ensures r.Success? <==> TryParsePattern(pattern).Some?
    ensures r.Failure? ==> r.error == ParseError
    ensures r.Success? ==> r.value.id == pattern && r.value.isPattern
  {
    match TryParsePattern(pattern)
    case Some(x) => Success(x)
    case None => Failure(ParseError)
  }

  /** The text of a strict segment ends with a digit of its version. */
  lemma SegmentTextEndsWithDigit(seg: SegmentInfo)
    requires StrictSegment(seg)
    ensures var t := SegmentText(seg); |t| > 0 && IsDigit(t[|t| - 1])
  {
    var v := seg.version.value;
    var major := NatToString(v.major);
    var vt := VersionText(v);
    match v.minor
    case None =>
      assert vt == "v" + major;
    case Some(m) =>
      assert vt == "v" + major + ("." + NatToString(m));
  }

  /** The canonical text of a type identifier ends with `~`. */
  lemma TypeIdTextEndsWithTilde(segs: seq<SegmentInfo>)
    requires |segs| >= 1 && AllFit(Strict, segs)
    ensures EndsWith(TypeIdText(segs), '~')
  {
    var pieces := TypePieces(segs);
    ConcatLast(pieces);
  }

  /** The canonical text of an instance identifier ends with a digit, never with `~`. */
  lemma InstanceIdTextEndsWithDigit(segs: seq<SegmentInfo>)
    requires |segs| >= 1 && AllFit(Strict, segs)
    ensures var t := InstanceIdText(segs); |t| > 0 && IsDigit(t[|t| - 1])
  {
    var pieces := ListPieces(Strict, segs, NoStars(|segs|));
    var last := segs[|segs| - 1];
    SegmentTextEndsWithDigit(last);
    assert |pieces[|pieces| - 1]| > 0;
    ConcatLast(pieces);
  }

  /** What follows an identifier's text cannot continue its `~`-separated list. */
  predicate EndsList(rest: string) {
    |rest| == 0 || (!IsSegmentChar(rest[0]) && rest[0] != '~')
  }

  lemma TextThenRest(text: string, rest: string)
    ensures TextAt(text + rest, 0, text)
    ensures |rest| > 0 ==> (text + rest)[|text|] == rest[0]
    ensures EndsWith(text + rest, '~') <==> (if |rest| == 0 then EndsWith(text, '~') else EndsWith(rest, '~'))
  {
    TextAtStart(text, rest);
    if |rest| > 0 {
      assert (text + rest)[|text| + 0] == rest[0];
      assert (text + rest)[|text + rest| - 1] == rest[|rest| - 1];
    } else {
      assert text + rest == text;
    }
  }

  /**
   * The canonical text of a type identifier is read back by `TryParse` as a
   * type with the same segments. Anything may follow that cannot start a
   * segment, as long as the whole still ends with `~`: only a prefix has to parse.
   */
  lemma TryParseTypeText(segs: seq<SegmentInfo>, rest: string)
    requires |segs| >= 1 && AllFit(Strict, segs)
    requires |rest| == 0 || (!IsIdentifierStart(rest[0]) && EndsWith(rest, '~'))
    ensures var s := TypeIdText(segs) + rest;
            TryParse(s) == Some(GtsId(s, MapSegments(segs), true, false, false))
  {
    var text := TypeIdText(segs);
    var s := text + rest;
    TextThenRest(text, rest);
    TypeIdTextEndsWithTilde(segs);
    TypeIdReads(s, segs, |text|);
  }

  /**
   * The canonical text of an instance identifier is read back by `TryParse`
   * as an instance with the same segments, whatever follows that cannot
   * continue the list and does not end with `~`.
   */
  lemma TryParseInstanceText(segs: seq<SegmentInfo>, rest: string)
    requires |segs| >= 1 && AllFit(Strict, segs)
    requires EndsList(rest) && !EndsWith(rest, '~')
    ensures var s := InstanceIdText(segs) + rest;
            TryParse(s) == Some(GtsId(s, MapSegments(segs), false, true, false))
  {
    var text := InstanceIdText(segs);
    var s := text + rest;
    TextThenRest(text, rest);
    InstanceIdTextEndsWithDigit(segs);
    InstanceIdReads(s, segs, |text|);
  }

  /** The canonical text of a pattern is read back by `TryParsePattern` with the same segments. */
  lemma TryParsePatternText(segs: seq<SegmentInfo>, stars: seq<bool>, rest: string)
    requires |segs| >= 1 && AllPrintable(Open, segs, stars)
    requires EndsList(rest)
    ensures var s := PatternIdText(segs, stars) + rest;
            TryParsePattern(s) == Some(GtsId(s, MapSegments(segs), false, false, true))
  {
    var text := PatternIdText(segs, stars);
    var s := text + rest;
    TextThenRest(text, rest);
    PatternIdReads(s, segs, stars, |text|);
  }

  // ---------------------------------------------------------------------------
  // Matching
  // ---------------------------------------------------------------------------

  /** `string.IsNullOrEmpty`. */
  predicate IsNullOrEmpty(s: Option<string>) {
    s.None? || |s.value| == 0
  }

  /** A minor version in the pattern must be matched by an equal one; none in the pattern accepts any. */
  predicate MinorFits(p: GtsIdSegment, c: GtsIdSegment) {
    p.versionMinor.Some? ==> c.versionMinor == p.versionMinor
  }

  /** A wildcard pattern segment: only the names and the major version the pattern sets must agree. */
  predicate WildcardFits(p: GtsIdSegment, c: GtsIdSegment) {
    && (!IsNullOrEmpty(p.vendor) ==> p.vendor == c.vendor)
    && (!IsNullOrEmpty(p.package) ==> p.package == c.package)
    && (!IsNullOrEmpty(p.namespace) ==> p.namespace == c.namespace)
    && (!IsNullOrEmpty(p.typeName) ==> p.typeName == c.typeName)
    && (p.versionMajor.Some? ==> p.versionMajor == c.versionMajor)
    && MinorFits(p, c)
    && (p.isType ==> c.isType)
  }

  /** Any other pattern segment: names, major version and kind equal, absent counting as a value of its own. */
  predicate SegmentFits(p: GtsIdSegment, c: GtsIdSegment) {
    && p.vendor == c.vendor && p.package == c.package
    && p.namespace == c.namespace && p.typeName == c.typeName
    && p.versionMajor == c.versionMajor
    && MinorFits(p, c)
    && p.isType == c.isType
  }

  /** The loop of `MatchSegments` from segment `i` on: the first wildcard segment decides the rest. */
  function MatchFrom(p: seq<GtsIdSegment>, c: seq<GtsIdSegment>, i: nat): bool
    requires i <= |p| <= |c|
    decreases |p| - i
  {
    if i == |p| then true
    else if p[i].isWildcard then WildcardFits(p[i], c[i])
    else SegmentFits(p[i], c[i]) && MatchFrom(p, c, i + 1)
  }

  /** `MatchSegments`: a pattern longer than the candidate fails; otherwise the candidate's first segments are compared. */
  function MatchSegments(p: seq<GtsIdSegment>, c: seq<GtsIdSegment>): bool {
    if |p| > |c| then false else MatchFrom(p, c, 0)
  }

  /** The position of the first wildcard segment, or the length when there is none. */
  function FirstWildcard(p: seq<GtsIdSegment>): (w: nat)
    ensures w <= |p|
    ensures forall i | 0 <= i < w :: !p[i].isWildcard
    ensures w < |p| ==> p[w].isWildcard
  {
    if |p| == 0 then 0
    else if p[0].isWildcard then 0
    else 1 + FirstWildcard(p[1..])
  }

  /**
   * What the loop decides: the segments before the first wildcard match
   * field by field, and the wildcard segment, if any, matches on the fields
   * it sets; nothing after it is looked at.
   */
  predicate SegmentsMatch(p: seq<GtsIdSegment>, c: seq<GtsIdSegment>) {
    var w := FirstWildcard(p);
    && |p| <= |c|
    && (forall i | 0 <= i < w :: SegmentFits(p[i], c[i]))
    && (w < |p| ==> WildcardFits(p[w], c[w]))
  }

  lemma {:induction false} MatchFromMeans(p: seq<GtsIdSegment>, c: seq<GtsIdSegment>, i: nat)
    requires i <= FirstWildcard(p) && |p| <= |c|
    ensures MatchFrom(p, c, i) <==>
      (forall k | i <= k < FirstWildcard(p) :: SegmentFits(p[k], c[k]))
      && (FirstWildcard(p) < |p| ==> WildcardFits(p[FirstWildcard(p)], c[FirstWildcard(p)]))
    decreases |p| - i
  {
    if i < |p| && !p[i].isWildcard {
      MatchFromMeans(p, c, i + 1);
    }
  }

  /** `MatchSegments` decides `SegmentsMatch`. */
  lemma MatchSegmentsMeans(p: seq<GtsIdSegment>, c: seq<GtsIdSegment>)
    ensures MatchSegments(p, c) <==> SegmentsMatch(p, c)
  {
    if |p| <= |c| {
      MatchFromMeans(p, c, 0);
    }
  }

  /**
   * When no pattern segment is a wildcard, as with every parsed pattern,
   * matching is field-by-field equality on the candidate's first segments.
   */
  lemma StampedMatchIsFieldwise(p: seq<GtsIdSegment>, c: seq<GtsIdSegment>)
    requires Stamped(p)
    ensures MatchSegments(p, c) <==> |p| <= |c| && forall i | 0 <= i < |p| :: SegmentFits(p[i], c[i])
  {
    MatchSegmentsMeans(p, c);
    assert FirstWildcard(p) == |p|;
  }

  /** Only the candidate's first `|p|` segments take part: any segments after them may be added. */
  lemma MatchSegmentsPrefix(p: seq<GtsIdSegment>, c: seq<GtsIdSegment>, more: seq<GtsIdSegment>)
    requires |p| <= |c|
    ensures MatchSegments(p, c + more) == MatchSegments(p, c)
  {
    MatchSegmentsMeans(p, c);
    MatchSegmentsMeans(p, c + more);
    var w := FirstWildcard(p);
    assert forall i | 0 <= i < |c| :: (c + more)[i] == c[i];
  }

  /** The star rule of `Matches`: a pattern with a `*` must have exactly one, as its last character. */
  predicate StarRuleHolds(patternId: string) {
    '*' in patternId ==> CountChar(patternId, '*') <= 1 && EndsWith(patternId, '*')
  }

  /** `Matches(GtsId)`: a null pattern matches nothing; then the star rule; then the segments. */
  function Matches(candidate: GtsId, pattern: Option<GtsId>): (b: bool)
    ensures b ==> pattern.Some? && StarRuleHolds(pattern.value.id)
    ensures b ==> |pattern.value.segments| <= |candidate.segments|
  {
    match pattern
    case None => false
    case Some(p) =>
      if '*' !in p.id then MatchSegments(p.segments, candidate.segments)
      else if CountChar(p.id, '*') > 1 || !EndsWith(p.id, '*') then false
      else MatchSegments(p.segments, candidate.segments)
  }

  /** `Matches(string)`: null, empty or unparsable pattern text matches nothing; otherwise the parsed pattern decides. */
  function MatchesText(candidate: GtsId, pattern: Option<string>): (b: bool)
    ensures IsNullOrEmpty(pattern) ==> !b
    ensures pattern.Some? && TryParsePattern(pattern.value).None? ==> !b
    ensures b ==> StarRuleHolds(pattern.value)
  {
    if IsNullOrEmpty(pattern) then false
    else
      match TryParsePattern(pattern.value)
      case None => false
      case Some(p) => Matches(candidate, Some(p))
  }

  /** A pattern with a `*` placed anywhere but last, or with two of them, matches nothing. */
  lemma MisplacedStarNeverMatches(candidate: GtsId, pattern: GtsId)
    requires '*' in pattern.id && (CountChar(pattern.id, '*') > 1 || !EndsWith(pattern.id, '*'))
    ensures !Matches(candidate, Some(pattern))
  {
  }

  /** A pattern matches what differs from it only in segments after its own. */
  lemma MatchesIgnoresLaterSegments(candidate: GtsId, pattern: GtsId, more: seq<GtsIdSegment>)
    requires |pattern.segments| <= |candidate.segments|
    ensures Matches(candidate.(segments := candidate.segments + more), Some(pattern)) == Matches(candidate, Some(pattern))
  {
    MatchSegmentsPrefix(pattern.segments, candidate.segments, more);
  }

  /** Every segment fits itself when it is not a wildcard. */
  lemma SegmentFitsItself(seg: GtsIdSegment)
    ensures SegmentFits(seg, seg)
  {
  }

  /** An identifier without `*`, whose segments are not wildcards, matches itself. */
  lemma MatchesItself(x: GtsId)
    requires Stamped(x.segments) && '*' !in x.id
    ensures Matches(x, Some(x))
  {
    StampedMatchIsFieldwise(x.segments, x.segments);
  }

  /** Every identifier `TryParse` accepts matches itself: its text cannot contain `*` and its segments are stamped. */
  lemma ParsedMatchesItself(s: string)
    requires TryParse(s).Some? && '*' !in s
    ensures Matches(TryParse(s).value, Some(TryParse(s).value))
  {
    MatchesItself(TryParse(s).value);
  }

  /**
   * Minor versions: a pattern segment without one accepts any candidate
   * minor (none included), one with a minor accepts only that minor.
   */
  lemma MinorVersionLeniency(p: GtsIdSegment, c: GtsIdSegment)
    requires p.vendor == c.vendor && p.package == c.package && p.namespace == c.namespace
    requires p.typeName == c.typeName && p.versionMajor == c.versionMajor && p.isType == c.isType
    ensures p.versionMinor.None? ==> SegmentFits(p, c)
    ensures p.versionMinor.Some? ==> (SegmentFits(p, c) <==> c.versionMinor == p.versionMinor)
  {
  }

  // ---------------------------------------------------------------------------
  // UUIDs
  // ---------------------------------------------------------------------------

  /** `ToGuid`: the version-5 UUID of the identifier's text in the GTS namespace. */
  function ToGuid(x: GtsId, utf8: string -> seq<GuidUtils.Byte>, sha1: seq<GuidUtils.Byte> -> GuidUtils.Digest): (r: Result<GuidUtils.Guid>)
    ensures r.Success? <==> |x.id| > 0
  {
    GuidUtils.Create(GuidUtils.GtsNamespace(utf8, sha1), x.id, utf8, sha1)
  }

  /** Every parsed identifier has a UUID, stamped as version 5 with the RFC 4122 variant, that depends on its text alone. */
  lemma ParsedToGuid(s: string, utf8: string -> seq<GuidUtils.Byte>, sha1: seq<GuidUtils.Byte> -> GuidUtils.Digest)
    requires TryParse(s).Some? || TryParsePattern(s).Some?
    ensures var x := if TryParse(s).Some? then TryParse(s).value else TryParsePattern(s).value;
            && ToGuid(x, utf8, sha1).Success?
            && ToGuid(x, utf8, sha1) == GuidUtils.Create(GuidUtils.GtsNamespace(utf8, sha1), s, utf8, sha1)
            && ToGuid(x, utf8, sha1).value[7] >> 4 == 5
            && ToGuid(x, utf8, sha1).value[8] >> 6 == 2
  {
    TextAtBounds(s, 0, "gts.");
    GuidUtils.CreateLayout(GuidUtils.GtsNamespace(utf8, sha1), s, utf8, sha1);
  }

  // ---------------------------------------------------------------------------
  // Open pattern segments
  // ---------------------------------------------------------------------------

  /** The segment of the pattern `gts.<vendor>.*`: a vendor and nothing else. */
  function VendorOnly(vendor: string): SegmentInfo {
    SegmentInfo(Some(vendor), None, None, None, None)
  }

  /** The text of the pattern `gts.<vendor>.*` is what the pattern grammar prints for `VendorOnly`. */
  lemma VendorPatternText(vendor: string)
    requires IsIdentifierToken(vendor)
    ensures AllPrintable(Open, [VendorOnly(vendor)], [true])
    ensures PatternIdText([VendorOnly(vendor)], [true]) == "gts." + vendor + ".*"
  {
    var seg := VendorOnly(vendor);
    var pieces := ListPieces(Open, [seg], [true]);
    assert pieces == [vendor + ".*"] by {
      assert PresentNames(seg) == [] && DottedText([]) == [];
      assert VersionPartText(seg, true) == ".*";
      assert ElementText(Open, seg, true) == vendor + [] + ".*";
      assert pieces[0] == vendor + ".*";
    }
    assert Concat(pieces) == vendor + ".*" + [];
  }

  /** `gts.<vendor>.*` is a pattern: it parses, into the single segment `VendorOnly(vendor)`. */
  lemma VendorPatternParses(vendor: string)
    requires IsIdentifierToken(vendor)
    ensures var text := "gts." + vendor + ".*";
            TryParsePattern(text) == Some(GtsId(text, MapSegments([VendorOnly(vendor)]), false, false, true))
  {
    VendorPatternText(vendor);
    TryParsePatternText([VendorOnly(vendor)], [true], []);
    assert PatternIdText([VendorOnly(vendor)], [true]) + [] == "gts." + vendor + ".*";
  }

  /** A pattern segment that leaves out any name or the major version fits no complete segment. */
  lemma OpenSegmentFitsNothing(p: GtsIdSegment, c: GtsIdSegment)
    requires p.package.None? || p.namespace.None? || p.typeName.None? || p.versionMajor.None?
    requires Complete(c)
    ensures !SegmentFits(p, c)
  {
  }

  /**
   * As written, a pattern whose first segment leaves anything out matches
   * no identifier `TryParse` accepts: `MapSegment` never marks a segment as
   * a wildcard, so the exact branch compares the missing fields against
   * present ones. `gts.<vendor>.*` is such a pattern.
   */
  lemma OpenPatternMatchesNothing(candidateText: string, patternText: string)
    requires TryParse(candidateText).Some? && TryParsePattern(patternText).Some?
    requires var p := TryParsePattern(patternText).value.segments[0];
             p.package.None? || p.namespace.None? || p.typeName.None? || p.versionMajor.None?
    ensures !MatchesText(TryParse(candidateText).value, Some(patternText))
  {
    var c := TryParse(candidateText).value;
    var p := TryParsePattern(patternText).value;
    if |p.segments| <= |c.segments| {
      OpenSegmentFitsNothing(p.segments[0], c.segments[0]);
    }
  }

  /** In particular `gts.<vendor>.*` matches nothing, not even identifiers of that vendor. */
  lemma VendorPatternMatchesNothing(candidateText: string, vendor: string)
    requires TryParse(candidateText).Some? && IsIdentifierToken(vendor)
    ensures !MatchesText(TryParse(candidateText).value, Some("gts." + vendor + ".*"))
  {
    VendorPatternParses(vendor);
    OpenPatternMatchesNothing(candidateText, "gts." + vendor + ".*");
  }

  /** A pattern segment is open when it ends before a version: it left out trailing parts or ended in `*`. */
  function MapPatternSegment(s: SegmentInfo): (seg: GtsIdSegment)
    ensures seg.isType && (seg.isWildcard <==> s.version.None?)
    ensures SegmentInfoOf(seg) == s
  {
    MapSegment(s).(isWildcard := s.version.None?)
  }

  function MapPatternSegments(infos: seq<SegmentInfo>): (segs: seq<GtsIdSegment>)
    ensures |segs| == |infos|
    ensures forall i | 0 <= i < |segs| :: segs[i] == MapPatternSegment(infos[i])
  {
    seq(|infos|, i requires 0 <= i < |infos| => MapPatternSegment(infos[i]))
  }

  /** Pattern parsing that marks open segments as wildcards, so the wildcard branch of matching is reached. */
  function TryParsePatternCorrected(pattern: string): (r: Option<GtsId>)
    ensures r.Some? <==> TryParsePattern(pattern).Some?
    ensures r.Some? ==> r.value.(segments := []) == TryParsePattern(pattern).value.(segments := [])
    ensures r.Some? ==> |r.value.segments| == |TryParsePattern(pattern).value.segments|
    ensures r.Some? ==> forall i | 0 <= i < |r.value.segments| ::
      r.value.segments[i] == TryParsePattern(pattern).value.segments[i].(isWildcard := r.value.segments[i].isWildcard)
  {
    match GtsPattern(pattern)
    case Fail(_) => None
    case Ok(info, _, _) => Some(GtsId(pattern, MapPatternSegments(info.segments), false, false, true))
  }

  /** `Matches(string)` over the corrected pattern parsing. */
  function MatchesTextCorrected(candidate: GtsId, pattern: Option<string>): (b: bool)
    ensures IsNullOrEmpty(pattern) ==> !b
    ensures b ==> StarRuleHolds(pattern.value) && TryParsePatternCorrected(pattern.value).Some?
  {
    if IsNullOrEmpty(pattern) then false
    else
      match TryParsePatternCorrected(pattern.value)
      case None => false
      case Some(p) => Matches(candidate, Some(p))
  }

  /** The text of the pattern `gts.<vendor>.*` has one `*`, at its end. */
  lemma VendorPatternStar(vendor: string)
    requires IsIdentifierToken(vendor)
    ensures StarRuleHolds("gts." + vendor + ".*") && '*' in "gts." + vendor + ".*"
  {
    var text := "gts." + vendor + ".*";
    assert '*' !in "gts.";
    assert '*' !in vendor by {
      forall i | 0 <= i < |vendor| ensures vendor[i] != '*' {
        if i > 0 { assert IsIdentifierRest(vendor[i]); }
      }
    }
    assert text == "gts." + vendor + "." + "*";
    CountCharAppend("gts.", vendor, '*');
    CountCharAppend("gts." + vendor, ".", '*');
    CountCharAppend("gts." + vendor + ".", "*", '*');
    assert CountChar("*", '*') == 1;
  }

  /**
   * Corrected: `gts.<vendor>.*` matches exactly the identifiers whose first
   * segment has that vendor, whatever their package, namespace, type,
   * version and later segments.
   */
  lemma VendorPatternMatchesVendor(candidateText: string, vendor: string)
    requires TryParse(candidateText).Some? && IsIdentifierToken(vendor)
    ensures MatchesTextCorrected(TryParse(candidateText).value, Some("gts." + vendor + ".*"))
        <==> TryParse(candidateText).value.segments[0].vendor == Some(vendor)
  {
    var text := "gts." + vendor + ".*";
    VendorPatternParses(vendor);
    VendorPatternStar(vendor);
    var p := TryParsePatternCorrected(text).value;
    var c := TryParse(candidateText).value;
    assert p.segments == [MapPatternSegment(VendorOnly(vendor))];
    MatchSegmentsMeans(p.segments, c.segments);
    assert FirstWildcard(p.segments) == 0;
  }
}

=== FILE: guid_utils.dfy ===
/**
 * Name-based UUIDs, version 5 (section 4.3 of RFC 4122), in the byte layout
 * .NET uses.
 *
 * A `Guid` is held as the 16 bytes `Guid.ToByteArray` returns: the first
 * three fields (4, 2 and 2 bytes) are little-endian, the last 8 bytes are in
 * order. RFC 4122 writes every field big-endian ("network order", section
 * 4.1.2); `SwapByteOrder` converts between the two, in either direction.
 *
 * SHA-1 and UTF-8 encoding are library calls and enter as parameters.
 */
module GuidUtils {
  import opened Wrappers

  type Byte = bv8

  /** A SHA-1 digest: 20 bytes. */
  type Digest = d: seq<Byte> | |d| == 20 witness seq(20, _ => 0)

  /** A GUID as `Guid.ToByteArray` lays it out. */
  type Guid = g: seq<Byte> | |g| == 16 witness seq(16, _ => 0)

  /** `Swap(arr, i, j)`: the bytes at `i` and `j` exchanged. */
  function Swap(arr: seq<Byte>, i: nat, j: nat): (r: seq<Byte>)
    requires i < |arr| && j < |arr|
    ensures |r| == |arr|
    ensures r[i] == arr[j] && r[j] == arr[i]
    ensures forall k | 0 <= k < |arr| && k != i && k != j :: r[k] == arr[k]
  {
    arr[i := arr[j]][j := arr[i]]
  }

  /** Swapping two bytes keeps the same bytes. */
  lemma SwapPermutes(arr: seq<Byte>, i: nat, j: nat)
    requires i < |arr| && j < |arr|
    ensures multiset(Swap(arr, i, j)) == multiset(arr)
  {
  }

  /**
   * `SwapByteOrder`: between .NET's layout and RFC 4122's network order.
   * An array that is not 16 bytes long is left as it is.
   */
  function SwapByteOrder(guid: seq<Byte>): (r: seq<Byte>)
    ensures |r| == |guid|
    ensures |guid| != 16 ==> r == guid
  {
    if |guid| != 16 then guid
    else Swap(Swap(Swap(Swap(guid, 0, 3), 1, 2), 4, 5), 6, 7)
  }

  /** Where each byte goes: the first three fields reversed, the last eight in place. */
  function SwappedIndex(k: nat): (m: nat)
    requires k < 16
    ensures m < 16
  {
    if k < 4 then 3 - k
    else if k < 6 then 9 - k
    else if k < 8 then 13 - k
    else k
  }

  /** On 16 bytes, `SwapByteOrder` reverses the first three fields and keeps the last eight bytes. */
  lemma SwapByteOrderMoves(guid: seq<Byte>)
    requires |guid| == 16
    ensures forall k | 0 <= k < 16 :: SwapByteOrder(guid)[k] == guid[SwappedIndex(k)]
  {
    var a := Swap(guid, 0, 3);
    var b := Swap(a, 1, 2);
    var c := Swap(b, 4, 5);
    var d := Swap(c, 6, 7);
    assert SwapByteOrder(guid) == d;
    forall k | 0 <= k < 16
      ensures d[k] == guid[SwappedIndex(k)]
    {
    }
  }

  /** `SwapByteOrder` only reorders: the same bytes come out. */
  lemma SwapByteOrderPermutes(guid: seq<Byte>)
    ensures multiset(SwapByteOrder(guid)) == multiset(guid)
  {
    if |guid| == 16 {
      var a := Swap(guid, 0, 3);
      var b := Swap(a, 1, 2);
      var c := Swap(b, 4, 5);
      SwapPermutes(guid, 0, 3);
      SwapPermutes(a, 1, 2);
      SwapPermutes(b, 4, 5);
      SwapPermutes(c, 6, 7);
    }
  }

  /** Swapping twice gives back the bytes swapped: the conversion is its own inverse. */
  lemma SwapByteOrderInvolution(guid: seq<Byte>)
    ensures SwapByteOrder(SwapByteOrder(guid)) == guid
  {
    if |guid| == 16 {
      var once := SwapByteOrder(guid);
      var twice := SwapByteOrder(once);
      SwapByteOrderMoves(guid);
      SwapByteOrderMoves(once);
      forall k | 0 <= k < 16
        ensures twice[k] == guid[k]
      {
        assert SwappedIndex(SwappedIndex(k)) == k;
      }
    }
  }

  /** The bytes in the order RFC 4122 writes them. */
  function NetworkOrder(g: Guid): (r: seq<Byte>)
    ensures |r| == 16
  {
    SwapByteOrder(g)
  }

  /** The GUID whose bytes, in the order RFC 4122 writes them, are `octets`. */
  function FromNetworkOrder(octets: seq<Byte>): (g: Guid)
    requires |octets| == 16
    ensures NetworkOrder(g) == octets
  {
    SwapByteOrderInvolution(octets);
    SwapByteOrder(octets)
  }

  /** The version bits (section 4.1.3 of RFC 4122) and variant bits (section 4.1.1 of RFC 4122) stamped on the first 16 bytes of a hash. */
  function StampVersion(hash: seq<Byte>): (octets: seq<Byte>)
    requires |hash| >= 16
    ensures |octets| == 16
  {
    var result := hash[..16];
    result[6 := (result[6] & 0x0F) | 0x50][8 := (result[8] & 0x3F) | 0x80]
  }

  /** Octet 6 gets version 5 in its high nibble, octet 8 the variant `10` in its top bits; every other bit is the hash's. */
  lemma StampVersionBits(hash: seq<Byte>)
    requires |hash| >= 16
    ensures var octets := StampVersion(hash);
            && octets[6] >> 4 == 5 && octets[6] & 0x0F == hash[6] & 0x0F
            && octets[8] >> 6 == 2 && octets[8] & 0x3F == hash[8] & 0x3F
            && forall k | 0 <= k < 16 && k != 6 && k != 8 :: octets[k] == hash[k]
  {
    var b6 := hash[6];
    var b8 := hash[8];
    assert ((b6 & 0x0F) | 0x50) >> 4 == 5 && ((b6 & 0x0F) | 0x50) & 0x0F == b6 & 0x0F;
    assert ((b8 & 0x3F) | 0x80) >> 6 == 2 && ((b8 & 0x3F) | 0x80) & 0x3F == b8 & 0x3F;
  }

  /** What `Create` hashes: the namespace in network order, then the name's UTF-8 bytes. */
  function HashInput(namespaceId: Guid, nameBytes: seq<Byte>): (input: seq<Byte>)
    ensures |input| == 16 + |nameBytes|
    ensures input[..16] == NetworkOrder(namespaceId) && input[16..] == nameBytes
  {
    NetworkOrder(namespaceId) + nameBytes
  }

  /**
   * `Create(namespaceId, name)`: the version-5 UUID of `name` in the namespace.
   * An empty name is refused (`ArgumentNullException`).
   */
  function Create(namespaceId: Guid, name: string, utf8: string -> seq<Byte>, sha1: seq<Byte> -> Digest): (r: Result<Guid>)
    ensures r.Failure? <==> |name| == 0
    ensures r.Failure? ==> r.error == ArgumentNull
  {
    if |name| == 0 then Failure(ArgumentNull)
    else
      var hash := sha1(HashInput(namespaceId, utf8(name)));
      Success(SwapByteOrder(StampVersion(hash)))
  }

  /**
   * The UUID `Create` returns, read in network order, is the first 16 bytes
   * of the SHA-1 of namespace and name, with version 5 in the high nibble of
   * octet 6 and the variant bits `10` at the top of octet 8; every other bit
   * is the hash's.
   */
  lemma CreateIsVersion5(namespaceId: Guid, name: string, utf8: string -> seq<Byte>, sha1: seq<Byte> -> Digest)
    requires |name| > 0
    ensures var hash := sha1(NetworkOrder(namespaceId) + utf8(name));
            var octets := NetworkOrder(Create(namespaceId, name, utf8, sha1).value);
            && octets[6] >> 4 == 5
            && octets[8] >> 6 == 2
            && octets[6] & 0x0F == hash[6] & 0x0F
            && octets[8] & 0x3F == hash[8] & 0x3F
            && forall k | 0 <= k < 16 && k != 6 && k != 8 :: octets[k] == hash[k]
  {
    var hash := sha1(NetworkOrder(namespaceId) + utf8(name));
    var stamped := StampVersion(hash);
    assert Create(namespaceId, name, utf8, sha1).value == SwapByteOrder(stamped);
    SwapByteOrderInvolution(stamped);
    StampVersionBits(hash);
  }

  /**
   * In .NET's layout the version byte sits at index 7 (the swap moves octet 6
   * there), and byte 8, which the swap leaves alone, carries the variant.
   */
  lemma CreateLayout(namespaceId: Guid, name: string, utf8: string -> seq<Byte>, sha1: seq<Byte> -> Digest)
    requires |name| > 0
    ensures var g := Create(namespaceId, name, utf8, sha1).value;
            g[7] >> 4 == 5 && g[8] >> 6 == 2
  {
    var g := Create(namespaceId, name, utf8, sha1).value;
    CreateIsVersion5(namespaceId, name, utf8, sha1);
    SwapByteOrderMoves(g);
    assert NetworkOrder(g)[6] == g[7] && NetworkOrder(g)[8] == g[8];
  }

  /** The namespace RFC 4122 reserves for URLs (appendix C), `6ba7b811-9dad-11d1-80b4-00c04fd430c8`, in .NET's layout. */
  const UrlNamespace: Guid :=
    [0x11, 0xb8, 0xa7, 0x6b, 0xad, 0x9d, 0xd1, 0x11, 0x80, 0xb4, 0x00, 0xc0, 0x4f, 0xd4, 0x30, 0xc8]

  /** In network order the URL namespace reads as its text does, two hex digits per byte. */
  lemma UrlNamespaceNetworkOrder()
    ensures NetworkOrder(UrlNamespace) ==
      [0x6b, 0xa7, 0xb8, 0x11, 0x9d, 0xad, 0x11, 0xd1, 0x80, 0xb4, 0x00, 0xc0, 0x4f, 0xd4, 0x30, 0xc8]
  {
    var text: seq<Byte> := [0x6b, 0xa7, 0xb8, 0x11, 0x9d, 0xad, 0x11, 0xd1, 0x80, 0xb4, 0x00, 0xc0, 0x4f, 0xd4, 0x30, 0xc8];
    var octets := NetworkOrder(UrlNamespace);
    SwapByteOrderMoves(UrlNamespace);
    assert octets[..8] == text[..8] by {
      assert octets[0] == text[0] && octets[1] == text[1] && octets[2] == text[2] && octets[3] == text[3];
      assert octets[4] == text[4] && octets[5] == text[5] && octets[6] == text[6] && octets[7] == text[7];
    }
    assert octets[8..] == text[8..] by {
      assert forall k | 8 <= k < 16 :: octets[k] == UrlNamespace[k];
    }
    assert octets == octets[..8] + octets[8..];
    assert text == text[..8] + text[8..];
  }

  /** `GtsNamespace`: the version-5 UUID of `gts` in the URL namespace. */
  function GtsNamespace(utf8: string -> seq<Byte>, sha1: seq<Byte> -> Digest): (g: Guid)
    ensures Create(UrlNamespace, "gts", utf8, sha1) == Success(g)
  {
    Create(UrlNamespace, "gts", utf8, sha1).value
  }
}

=== FILE: json.dfy ===
/**
 * The part of `System.Text.Json.Nodes` the extraction layer relies on: a
 * tree of objects (members in insertion order), arrays and values, where a
 * JSON `null` is a null node reference.
 */
module Json {
  import opened Wrappers

  datatype Json =
    /** A JSON `null`: C# holds a null `JsonNode` reference. */
    | JNull
    | JString(str: string)
    /** A number, kept as its source text. */
    | JNumber(text: string)
    | JBool(b: bool)
    | JObject(members: seq<Member>)
    | JArray(items: seq<Json>)

  /** One `key: value` member of an object. */
  datatype Member = Member(key: string, value: Json)

  /** `JsonObject.TryGetPropertyValue`: the value of the first member named `key`, compared ordinally. */
  function Lookup(members: seq<Member>, key: string): (r: Option<Json>)
    ensures r.None? <==> forall i | 0 <= i < |members| :: members[i].key != key
    ensures r.Some? ==> exists i | 0 <= i < |members| :: members[i].key == key && members[i].value == r.value
  {
    if |members| == 0 then None
    else if members[0].key == key then Some(members[0].value)
    else Lookup(members[1..], key)
  }

  /** `node?.GetValue<string>()`: a null node gives null, a string its text, any other node throws. */
  function AsString(node: Json): (r: Result<Option<string>>)
    ensures r.Failure? <==> !(node.JNull? || node.JString?)
    ensures r == Success(None) <==> node.JNull?
    ensures node.JString? ==> r == Success(Some(node.str))
  {
    match node
    case JNull => Success(None)
    case JString(s) => Success(Some(s))
    case _ => Failure(InvalidOperation)
  }

  /** The number of nodes in a tree: what the depth-first walks decrease. */
  function Size(node: Json): (n: nat)
    ensures n >= 1
  {
    match node
    case JObject(members) => 1 + MembersSize(members)
    case JArray(items) => 1 + ItemsSize(items)
    case _ => 1
  }

  function MembersSize(members: seq<Member>): nat
  {
    if |members| == 0 then 0 else Size(members[0].value) + MembersSize(members[1..])
  }

  function ItemsSize(items: seq<Json>): nat
  {
    if |items| == 0 then 0 else Size(items[0]) + ItemsSize(items[1..])
  }
}

=== FILE: parser_properties.dfy ===
/**
 * What the identifier grammar accepts and produces.
 *
 * Completeness: the canonical text of a version, a segment, a pattern segment
 * or a whole identifier parses back to the value it was printed from, and the
 * parser stops right after it, provided the next character cannot continue it.
 * Since no parser demands the end of the input, those lemmas are also the
 * statement that a string is accepted as soon as a prefix of it is an
 * identifier, whatever follows.
 *
 * The proofs name every position they pass around (`end`, `n1`, ...): each
 * lemma either splits text into pieces or puts parser replies together, never
 * both at once.
 */
module ParserProperties {
  import opened Wrappers
  import opened Text
  import opened Parsers

  // ---------------------------------------------------------------------------
  // What may follow a piece of text without being read as part of it
  // ---------------------------------------------------------------------------

  /** The character at `k`, if any, cannot continue an identifier token. */
  predicate StopsToken(s: string, k: nat) {
    k < |s| ==> !IsIdentifierRest(s[k])
  }

  /** The character at `k`, if any, cannot continue a segment. */
  predicate StopsSegment(s: string, k: nat) {
    k < |s| ==> !IsSegmentChar(s[k])
  }

  /** The character at `k`, if any, continues neither a segment nor a `~`-separated list. */
  predicate StopsList(s: string, k: nat) {
    StopsSegment(s, k) && (k < |s| ==> s[k] != '~')
  }

  /** The character at `k`, if any, cannot start another segment. */
  predicate StopsTypeList(s: string, k: nat) {
    k < |s| ==> !IsIdentifierStart(s[k])
  }

  // ---------------------------------------------------------------------------
  // Identifier tokens
  // ---------------------------------------------------------------------------

  /** `Many` stops exactly at the first character outside the class. */
  lemma {:induction false} RunEndIs(cls: CharClass, s: string, from: nat, k: nat)
    requires from <= k <= |s|
    requires forall i | from <= i < k :: InClass(cls, s[i])
    requires k < |s| ==> !InClass(cls, s[k])
    ensures RunEnd(cls, s, from) == k
    decreases k - from
  {
    if from < k {
      RunEndIs(cls, s, from + 1, k);
    }
  }

  /** An identifier token is read whole, and nothing after it is. */
  lemma IdentifierReads(s: string, pos: nat, t: string, end: nat)
    requires TextAt(s, pos, t) && IsIdentifierToken(t)
    requires end == pos + |t| && StopsToken(s, end)
    ensures Identifier(s, pos) == Ok(t, end, true)
  {
    TextAtSlice(s, pos, t);
    TextAtIndex(s, pos, t, 0);
    forall i | pos + 1 <= i < end
      ensures InClass(IdentifierChars, s[i])
    {
      TextAtIndex(s, pos, t, i - pos);
    }
    RunEndIs(IdentifierChars, s, pos + 1, end);
  }

  /** `Identifier` reads the whole of a string exactly when it is a `[_a-z][_a-z0-9]*` token. */
  lemma IdentifierAcceptsExactlyTokens(t: string)
    ensures (Identifier(t, 0).Ok? && Identifier(t, 0).next == |t|) <==> IsIdentifierToken(t)
  {
    if IsIdentifierToken(t) {
      TextAtOwnSlice(t, 0, |t|);
      assert t[0..|t|] == t;
      IdentifierReads(t, 0, t, |t|);
    }
    if Identifier(t, 0).Ok? && Identifier(t, 0).next == |t| {
      assert t[0..|t|] == t;
    }
  }

  lemma DotIdentifierStep(s: string, pos: nat, t: string, end: nat)
    requires pos < |s| && s[pos] == '.' && Identifier(s, pos + 1) == Ok(t, end, true)
    ensures DotIdentifier(s, pos) == Ok(t, end, true)
  {
  }

  lemma DotIdentifierReads(s: string, pos: nat, t: string, end: nat)
    requires TextAt(s, pos, "." + t) && IsIdentifierToken(t)
    requires end == pos + 1 + |t| && StopsToken(s, end)
    ensures DotIdentifier(s, pos) == Ok(t, end, true)
  {
    TextAtCons(s, pos, '.', t);
    IdentifierReads(s, pos + 1, t, end);
    DotIdentifierStep(s, pos, t, end);
  }

  /** The text `.n1.n2...` of a list of names. */
  function DottedText(names: seq<string>): (t: string)
    ensures |names| > 0 ==> |t| > 0 && t[0] == '.'
  {
    if |names| == 0 then [] else "." + names[0] + DottedText(names[1..])
  }

  /** Where the first name and the rest lie in the text of a list of names. */
  lemma DottedTextParts(s: string, pos: nat, names: seq<string>, k: nat, end: nat)
    requires |names| > 0 && AllTokens(names)
    requires TextAt(s, pos, DottedText(names)) && end == pos + |DottedText(names)| && StopsToken(s, end)
    requires k == pos + 1 + |names[0]|
    ensures TextAt(s, pos, "." + names[0]) && IsIdentifierToken(names[0]) && StopsToken(s, k)
    ensures AllTokens(names[1..]) && TextAt(s, k, DottedText(names[1..])) && end == k + |DottedText(names[1..])|
  {
    var tail := names[1..];
    var rest := DottedText(tail);
    assert DottedText(names) == ("." + names[0]) + rest;
    TextAtConcat(s, pos, "." + names[0], rest);
    if |tail| > 0 {
      assert s[k + 0] == rest[0];
    }
    forall i | 0 <= i < |tail|
      ensures IsIdentifierToken(tail[i])
    {
      assert tail[i] == names[i + 1];
    }
  }

  /** One step of `DotNames`: a `.name`, then the remaining names. */
  lemma DotNamesStep(count: nat, s: string, pos: nat, name: string, n1: nat, names: seq<string>, n2: nat)
    requires count > 0 && pos <= |s|
    requires DotIdentifier(s, pos) == Ok(name, n1, true)
    requires n1 <= |s| && DotNames(count - 1, s, n1) == Ok(names, n2, count > 1)
    ensures DotNames(count, s, pos) == Ok([name] + names, n2, true)
  {
  }

  /** The text of a list of names is read back name by name. */
  lemma {:induction false} DotNamesReads(s: string, pos: nat, names: seq<string>, end: nat)
    requires AllTokens(names) && TextAt(s, pos, DottedText(names))
    requires end == pos + |DottedText(names)| && StopsToken(s, end)
    ensures DotNames(|names|, s, pos) == Ok(names, end, |names| > 0)
    decreases |names|
  {
    if |names| > 0 {
      var k := pos + 1 + |names[0]|;
      DottedTextParts(s, pos, names, k, end);
      DotIdentifierReads(s, pos, names[0], k);
      DotNamesReads(s, k, names[1..], end);
      DotNamesStep(|names|, s, pos, names[0], k, names[1..], end);
      HeadTail(names);
    }
  }

  // ---------------------------------------------------------------------------
  // Versions
  // ---------------------------------------------------------------------------

  /** A run of digits is read whole as its decimal value. */
  lemma VersionNumberReads(s: string, pos: nat, d: string, end: nat)
    requires |d| > 0 && AllDigits(d) && TextAt(s, pos, d)
    requires end == pos + |d| && (end < |s| ==> !IsDigit(s[end]))
    ensures VersionNumber(s, pos) == Ok(DigitsValue(d), end, true)
  {
    TextAtSlice(s, pos, d);
    forall i | pos <= i < end
      ensures InClass(DigitChars, s[i])
    {
      TextAtIndex(s, pos, d, i - pos);
    }
    RunEndIs(DigitChars, s, pos, end);
  }

  lemma VersionMajorReads(s: string, pos: nat, d: string, end: nat)
    requires pos < |s| && s[pos] == 'v'
    requires |d| > 0 && AllDigits(d) && TextAt(s, pos + 1, d)
    requires end == pos + 1 + |d| && (end < |s| ==> !IsDigit(s[end]))
    ensures VersionMajor(s, pos) == Ok(DigitsValue(d), end, true)
  {
    VersionNumberReads(s, pos + 1, d, end);
  }

  lemma DotMinorReads(s: string, pos: nat, d: string, end: nat)
    requires pos < |s| && s[pos] == '.'
    requires |d| > 0 && AllDigits(d) && TextAt(s, pos + 1, d)
    requires end == pos + 1 + |d| && (end < |s| ==> !IsDigit(s[end]))
    ensures DotMinor(s, pos) == Ok(DigitsValue(d), end, true)
  {
    VersionNumberReads(s, pos + 1, d, end);
  }

  /** One step of `VersionFull`: the major version, then what the optional `.minor` replied. */
  lemma VersionFullStep(s: string, pos: nat, major: nat, n1: nat, minor: Option<nat>, n2: nat, c2: bool)
    requires pos <= |s| && VersionMajor(s, pos) == Ok(major, n1, true)
    requires n1 <= |s| && Optional(n1, DotMinor(s, n1)) == Ok(minor, n2, c2)
    ensures VersionFull(s, pos) == Ok(VersionInfo(major, minor), n2, true)
  {
  }

  lemma VersionFullReadsMajor(s: string, pos: nat, major: nat, end: nat)
    requires TextAt(s, pos, "v" + NatToString(major))
    requires end == pos + 1 + |NatToString(major)| && (end < |s| ==> !IsDigit(s[end]) && s[end] != '.')
    ensures VersionFull(s, pos) == Ok(VersionInfo(major, None), end, true)
  {
    var digits := NatToString(major);
    ParseNatToString(major);
    TextAtCons(s, pos, 'v', digits);
    VersionMajorReads(s, pos, digits, end);
    VersionFullStep(s, pos, major, end, None, end, false);
  }

  lemma VersionWithMinorText(s: string, pos: nat, d1: string, d2: string, n1: nat)
    requires TextAt(s, pos, "v" + d1 + ("." + d2)) && n1 == pos + 1 + |d1|
    ensures n1 < |s| && s[pos] == 'v' && TextAt(s, pos + 1, d1) && s[n1] == '.' && TextAt(s, n1 + 1, d2)
  {
    TextAtSplit(s, pos, "v" + d1, "." + d2, n1);
    TextAtHead(s, pos, 'v', d1);
    TextAtHead(s, n1, '.', d2);
  }

  lemma VersionFullReadsMinor(s: string, pos: nat, major: nat, minor: nat, n1: nat, end: nat)
    requires pos < |s| && s[pos] == 'v' && TextAt(s, pos + 1, NatToString(major))
    requires n1 == pos + 1 + |NatToString(major)|
    requires n1 < |s| && s[n1] == '.' && TextAt(s, n1 + 1, NatToString(minor))
    requires end == n1 + 1 + |NatToString(minor)| && (end < |s| ==> !IsDigit(s[end]))
    ensures VersionFull(s, pos) == Ok(VersionInfo(major, Some(minor)), end, true)
  {
    ParseNatToString(major);
    ParseNatToString(minor);
    VersionMajorReads(s, pos, NatToString(major), n1);
    DotMinorReads(s, n1, NatToString(minor), end);
    VersionFullStep(s, pos, major, n1, Some(minor), end, true);
  }

  /**
   * The text of a version parses back to the same version. Without a minor
   * version the next character must not be `.`: a dot would commit
   * `VersionFull` to reading a minor version.
   */
  lemma VersionFullReads(s: string, pos: nat, v: VersionInfo, end: nat)
    requires TextAt(s, pos, VersionText(v)) && end == pos + |VersionText(v)|
    requires end < |s| ==> !IsDigit(s[end]) && (v.minor.None? ==> s[end] != '.')
    ensures VersionFull(s, pos) == Ok(v, end, true)
  {
    match v.minor
    case None =>
      assert VersionText(v) == "v" + NatToString(v.major);
      VersionFullReadsMajor(s, pos, v.major, end);
    case Some(m) =>
      var n1 := pos + 1 + |NatToString(v.major)|;
      assert VersionText(v) == "v" + NatToString(v.major) + ("." + NatToString(m));
      VersionWithMinorText(s, pos, NatToString(v.major), NatToString(m), n1);
      VersionFullReadsMinor(s, pos, v.major, m, n1, end);
  }

  /** A dot after the major version that is not followed by a digit makes `VersionFull` fail, having consumed input. */
  lemma VersionFullDotWithoutMinor(s: string, pos: nat, major: nat, n1: nat)
    requires TextAt(s, pos, "v" + NatToString(major) + ".") && n1 == pos + 1 + |NatToString(major)|
    requires n1 + 1 < |s| ==> !IsDigit(s[n1 + 1])
    ensures VersionFull(s, pos) == Fail(true)
  {
    var digits := NatToString(major);
    assert s[pos] == 'v' && TextAt(s, pos + 1, digits) && s[n1] == '.' by {
      assert "v" + digits + "." == ['v'] + (digits + ['.']);
      TextAtCons(s, pos, 'v', digits + ['.']);
      TextAtConcat(s, pos + 1, digits, ['.']);
      TextAtSingle(s, n1, '.');
    }
    VersionMajorReads(s, pos, digits, n1);
    assert DotMinor(s, n1) == Fail(true);
  }

  /** `FromString` reads back what `ToString` wrote. */
  lemma VersionTextRoundTrip(v: VersionInfo)
    ensures FromString(VersionText(v)) == Some(v)
  {
    var t := VersionText(v);
    var major := NatToString(v.major);
    ParseNatToString(v.major);
    assert '.' !in major by {
      assert forall i | 0 <= i < |major| :: major[i] != '.';
    }
    match v.minor
    case None =>
      assert t[1..] == Join([major], '.');
      SplitJoin([major], '.');
    case Some(m) =>
      var minor := NatToString(m);
      ParseNatToString(m);
      assert '.' !in minor by {
        assert forall i | 0 <= i < |minor| :: minor[i] != '.';
      }
      assert t[1..] == Join([major, minor], '.');
      SplitJoin([major, minor], '.');
  }

  /** Every version `VersionFull` produces survives the trip through its text. */
  lemma VersionFullStringRoundTrip(s: string, pos: nat)
    requires pos <= |s| && VersionFull(s, pos).Ok?
    ensures VersionFullString(s, pos).Ok?
    ensures FromString(VersionFullString(s, pos).value) == Some(VersionFull(s, pos).value)
  {
    VersionTextRoundTrip(VersionFull(s, pos).value);
  }

  // ---------------------------------------------------------------------------
  // Segments
  // ---------------------------------------------------------------------------

  /** The names of a strict segment after its vendor. */
  function StrictNames(seg: SegmentInfo): (names: seq<string>)
    requires StrictSegment(seg)
    ensures |names| == 3 && AllTokens(names)
  {
    [seg.package.value, seg.namespace.value, seg.typeName.value]
  }

  /** The canonical text `vendor.package.namespace.type.vX[.Y]` of a segment. */
  function SegmentText(seg: SegmentInfo): string
    requires StrictSegment(seg)
  {
    seg.vendor.value + DottedText(StrictNames(seg)) + ("." + VersionText(seg.version.value))
  }

  /** Where the vendor, the names and the version of a segment's text lie, and what follows each. */
  lemma SegmentTextParts(s: string, pos: nat, seg: SegmentInfo, n1: nat, n2: nat, end: nat)
    requires StrictSegment(seg) && TextAt(s, pos, SegmentText(seg))
    requires end == pos + |SegmentText(seg)| && StopsSegment(s, end)
    requires n1 == pos + |seg.vendor.value| && n2 == n1 + |DottedText(StrictNames(seg))|
    ensures TextAt(s, pos, seg.vendor.value) && IsIdentifierToken(seg.vendor.value) && StopsToken(s, n1)
    ensures TextAt(s, n1, DottedText(StrictNames(seg))) && StopsToken(s, n2)
    ensures n2 < |s| && s[n2] == '.' && TextAt(s, n2 + 1, VersionText(seg.version.value))
    ensures end == n2 + 1 + |VersionText(seg.version.value)|
  {
    var vendor := seg.vendor.value;
    var dotted := DottedText(StrictNames(seg));
    var v := VersionText(seg.version.value);
    TextAtConcat(s, pos, vendor + dotted, "." + v);
    TextAtConcat(s, pos, vendor, dotted);
    TextAtCons(s, n2, '.', v);
    assert s[n1 + 0] == dotted[0];
  }

  lemma DotVersionFullStep(s: string, pos: nat, v: VersionInfo, end: nat)
    requires pos < |s| && s[pos] == '.' && VersionFull(s, pos + 1) == Ok(v, end, true)
    ensures DotVersionFull(s, pos) == Ok(v, end, true)
  {
  }

  lemma DotVersionFullReads(s: string, pos: nat, v: VersionInfo, end: nat)
    requires pos < |s| && s[pos] == '.' && TextAt(s, pos + 1, VersionText(v))
    requires end == pos + 1 + |VersionText(v)| && StopsSegment(s, end)
    ensures DotVersionFull(s, pos) == Ok(v, end, true)
  {
    VersionFullReads(s, pos + 1, v, end);
    DotVersionFullStep(s, pos, v, end);
  }

  /** `Segment` from its three parts. */
  lemma SegmentStep(s: string, pos: nat, seg: SegmentInfo, n1: nat, n2: nat, n3: nat)
    requires StrictSegment(seg)
    requires pos <= |s| && Identifier(s, pos) == Ok(seg.vendor.value, n1, true)
    requires n1 <= |s| && DotNames(NamesAfterVendor, s, n1) == Ok(StrictNames(seg), n2, true)
    requires n2 <= |s| && DotVersionFull(s, n2) == Ok(seg.version.value, n3, true)
    ensures Segment(s, pos) == Ok(seg, n3, true)
  {
  }

  /** A segment's text parses back to the segment, and the parser stops right after it. */
  lemma SegmentReads(s: string, pos: nat, seg: SegmentInfo, end: nat)
    requires StrictSegment(seg) && TextAt(s, pos, SegmentText(seg))
    requires end == pos + |SegmentText(seg)| && StopsSegment(s, end)
    ensures Segment(s, pos) == Ok(seg, end, true)
  {
    var n1 := pos + |seg.vendor.value|;
    var n2 := n1 + |DottedText(StrictNames(seg))|;
    SegmentTextParts(s, pos, seg, n1, n2, end);
    IdentifierReads(s, pos, seg.vendor.value, n1);
    DotNamesReads(s, n1, StrictNames(seg), n2);
    DotVersionFullReads(s, n2, seg.version.value, end);
    SegmentStep(s, pos, seg, n1, n2, end);
  }

  // ---------------------------------------------------------------------------
  // Pattern segments
  // ---------------------------------------------------------------------------

  /** The package, namespace and type a pattern segment has, in order. */
  function PresentNames(seg: SegmentInfo): seq<string> {
    if seg.package.None? then []
    else if seg.namespace.None? then [seg.package.value]
    else if seg.typeName.None? then [seg.package.value, seg.namespace.value]
    else [seg.package.value, seg.namespace.value, seg.typeName.value]
  }

  function Head(names: seq<string>): Option<string> {
    if |names| == 0 then None else Some(names[0])
  }

  function Tail(names: seq<string>): seq<string> {
    if |names| == 0 then [] else names[1..]
  }

  /** The names present, read back in order, are the segment's package, namespace and type. */
  lemma PresentNamesHeads(seg: SegmentInfo)
    requires PatternSegment(seg)
    ensures var names := PresentNames(seg);
            && AllTokens(names) && |names| <= 3
            && Head(names) == seg.package
            && Head(Tail(names)) == seg.namespace
            && Head(Tail(Tail(names))) == seg.typeName
            && (|names| < 3 <==> seg.typeName.None?)
  {
  }

  /** What a pattern segment may be printed with: `star` adds `.*`, which only a segment without a version can carry. */
  predicate PrintablePattern(seg: SegmentInfo, star: bool) {
    PatternSegment(seg) && (star ==> seg.version.None?)
  }

  /** The text of the version part of a pattern segment: `.vX[.Y]`, `.*` or nothing. */
  function VersionPartText(seg: SegmentInfo, star: bool): string {
    if seg.version.Some? then "." + VersionText(seg.version.value)
    else if star then ".*"
    else []
  }

  /** The canonical text of a pattern segment. */
  function PatternText(seg: SegmentInfo, star: bool): string
    requires PrintablePattern(seg, star)
  {
    seg.vendor.value + DottedText(PresentNames(seg)) + VersionPartText(seg, star)
  }

  /** A `.` followed by the start of a name is not at `k`. */
  predicate NoNameAt(s: string, k: nat) {
    !(k + 1 < |s| && s[k] == '.' && IsIdentifierStart(s[k + 1]))
  }

  lemma OptionalNameStep(s: string, pos: nat, name: string, end: nat)
    requires pos <= |s| && DotIdentifier(s, pos) == Ok(name, end, true)
    ensures OptionalName(s, pos) == Ok(Some(name), end, true)
  {
  }

  lemma OptionalNameAbsent(s: string, pos: nat)
    requires pos <= |s| && NoNameAt(s, pos)
    ensures OptionalName(s, pos) == Ok(None, pos, false)
  {
  }

  /** `OptionalName` on the text of a list of names reads the first of them, or nothing when there is none. */
  lemma OptionalNameSplits(s: string, pos: nat, names: seq<string>, next: nat, end: nat)
    requires AllTokens(names) && TextAt(s, pos, DottedText(names)) && end == pos + |DottedText(names)|
    requires StopsToken(s, end) && (|names| == 0 ==> NoNameAt(s, pos))
    requires next == end - |DottedText(Tail(names))|
    ensures pos <= next
    ensures OptionalName(s, pos) == Ok(Head(names), next, |names| > 0)
    ensures AllTokens(Tail(names)) && TextAt(s, next, DottedText(Tail(names)))
  {
    if |names| > 0 {
      DottedTextParts(s, pos, names, next, end);
      DotIdentifierReads(s, pos, names[0], next);
      OptionalNameStep(s, pos, names[0], next);
    } else {
      OptionalNameAbsent(s, pos);
    }
  }

  /** `PatternNames` from its three optional names. */
  lemma PatternNamesStep(s: string, pos: nat, a: Option<string>, n1: nat, c1: bool,
                         b: Option<string>, n2: nat, c2: bool, t: Option<string>, n3: nat, c3: bool)
    requires pos <= |s| && OptionalName(s, pos) == Ok(a, n1, c1)
    requires n1 <= |s| && OptionalName(s, n1) == Ok(b, n2, c2)
    requires n2 <= |s| && OptionalName(s, n2) == Ok(t, n3, c3)
    ensures PatternNames(s, pos) == Ok((a, b, t), n3, c1 || c2 || c3)
  {
  }

  /** Up to three names read back in order; the missing ones read nothing. */
  lemma PatternNamesReads(s: string, pos: nat, names: seq<string>, end: nat)
    requires AllTokens(names) && |names| <= 3
    requires TextAt(s, pos, DottedText(names)) && end == pos + |DottedText(names)|
    requires StopsToken(s, end) && (|names| < 3 ==> NoNameAt(s, end))
    ensures PatternNames(s, pos) == Ok((Head(names), Head(Tail(names)), Head(Tail(Tail(names)))), end, |names| > 0)
  {
    var t1 := Tail(names);
    var t2 := Tail(t1);
    var p1 := end - |DottedText(t1)|;
    var p2 := end - |DottedText(t2)|;
    OptionalNameSplits(s, pos, names, p1, end);
    OptionalNameSplits(s, p1, t1, p2, end);
    assert |Tail(t2)| == 0;
    OptionalNameSplits(s, p2, t2, end, end);
    PatternNamesStep(s, pos, Head(names), p1, |names| > 0, Head(t1), p2, |t1| > 0, Head(t2), end, |t2| > 0);
  }

  lemma PatternVersionPartAbsent(s: string, pos: nat)
    requires pos <= |s| && (pos < |s| ==> s[pos] != '.')
    ensures PatternVersionPart(s, pos) == Ok(None, pos, false)
  {
  }

  lemma PatternVersionPartStar(s: string, pos: nat)
    requires pos + 1 < |s| && s[pos] == '.' && s[pos + 1] == '*'
    ensures PatternVersionPart(s, pos) == Ok(None, pos + 2, true)
  {
  }

  lemma VersionFullStringStep(s: string, pos: nat, v: VersionInfo, end: nat)
    requires pos <= |s| && VersionFull(s, pos) == Ok(v, end, true)
    ensures VersionFullString(s, pos) == Ok(VersionText(v), end, true)
  {
  }

  lemma PatternVersionPartStep(s: string, pos: nat, v: VersionInfo, end: nat)
    requires pos + 1 < |s| && s[pos] == '.' && s[pos + 1] == 'v'
    requires VersionFullString(s, pos + 1) == Ok(VersionText(v), end, true)
    requires FromString(VersionText(v)) == Some(v)
    ensures PatternVersionPart(s, pos) == Ok(Some(v), end, true)
  {
  }

  lemma PatternVersionPartVersion(s: string, pos: nat, v: VersionInfo, end: nat)
    requires pos < |s| && s[pos] == '.' && TextAt(s, pos + 1, VersionText(v))
    requires end == pos + 1 + |VersionText(v)| && StopsSegment(s, end)
    ensures PatternVersionPart(s, pos) == Ok(Some(v), end, true)
  {
    VersionFullReads(s, pos + 1, v, end);
    VersionFullStringStep(s, pos + 1, v, end);
    VersionTextRoundTrip(v);
    assert s[pos + 1 + 0] == VersionText(v)[0];
    PatternVersionPartStep(s, pos, v, end);
  }

  /** The version part of a pattern segment's text parses back to the segment's version; `.*` gives none. */
  lemma VersionPartReads(s: string, pos: nat, seg: SegmentInfo, star: bool, end: nat)
    requires PrintablePattern(seg, star) && TextAt(s, pos, VersionPartText(seg, star))
    requires end == pos + |VersionPartText(seg, star)| && StopsSegment(s, end)
    ensures PatternVersionPart(s, pos) == Ok(seg.version, end, seg.version.Some? || star)
    ensures StopsToken(s, pos)
    ensures seg.typeName.None? ==> NoNameAt(s, pos)
  {
    if seg.version.Some? {
      var v := seg.version.value;
      TextAtCons(s, pos, '.', VersionText(v));
      PatternVersionPartVersion(s, pos, v, end);
    } else if star {
      assert ".*" == ['.'] + ['*'];
      TextAtCons(s, pos, '.', ['*']);
      TextAtSingle(s, pos + 1, '*');
      PatternVersionPartStar(s, pos);
    } else {
      PatternVersionPartAbsent(s, pos);
    }
  }

  /** Where the vendor, the names and the version part of a pattern segment's text lie. */
  lemma PatternTextParts(s: string, pos: nat, seg: SegmentInfo, star: bool, n1: nat, n2: nat, end: nat)
    requires PrintablePattern(seg, star) && TextAt(s, pos, PatternText(seg, star))
    requires end == pos + |PatternText(seg, star)|
    requires n1 == pos + |seg.vendor.value| && n2 == n1 + |DottedText(PresentNames(seg))|
    ensures TextAt(s, pos, seg.vendor.value)
    ensures TextAt(s, n1, DottedText(PresentNames(seg)))
    ensures TextAt(s, n2, VersionPartText(seg, star))
    ensures end == n2 + |VersionPartText(seg, star)|
    ensures n1 < n2 ==> s[n1] == '.'
  {
    var vendor := seg.vendor.value;
    var dotted := DottedText(PresentNames(seg));
    TextAtConcat(s, pos, vendor + dotted, VersionPartText(seg, star));
    TextAtConcat(s, pos, vendor, dotted);
    if |dotted| > 0 {
      assert s[n1 + 0] == dotted[0];
    }
  }

  /** `Pattern` from its three parts. */
  lemma PatternStep(s: string, pos: nat, seg: SegmentInfo, n1: nat, n2: nat, c2: bool, n3: nat, c3: bool)
    requires pos <= |s| && seg.vendor.Some? && Identifier(s, pos) == Ok(seg.vendor.value, n1, true)
    requires n1 <= |s| && PatternNames(s, n1) == Ok((seg.package, seg.namespace, seg.typeName), n2, c2)
    requires n2 <= |s| && PatternVersionPart(s, n2) == Ok(seg.version, n3, c3)
    ensures Pattern(s, pos) == Ok(seg, n3, true)
  {
  }

  /** A pattern segment's text parses back to the pattern segment; `.*` and a missing version both give no version. */
  lemma PatternReads(s: string, pos: nat, seg: SegmentInfo, star: bool, end: nat)
    requires PrintablePattern(seg, star) && TextAt(s, pos, PatternText(seg, star))
    requires end == pos + |PatternText(seg, star)| && StopsSegment(s, end)
    ensures Pattern(s, pos) == Ok(seg, end, true)
  {
    var names := PresentNames(seg);
    var n1 := pos + |seg.vendor.value|;
    var n2 := n1 + |DottedText(names)|;
    PatternTextParts(s, pos, seg, star, n1, n2, end);
    VersionPartReads(s, n2, seg, star, end);
    PresentNamesHeads(seg);
    PatternNamesReads(s, n1, names, n2);
    IdentifierReads(s, pos, seg.vendor.value, n1);
    PatternStep(s, pos, seg, n1, n2, |names| > 0, end, seg.version.Some? || star);
  }

  /**
   * In a pattern, `vendor.vN` is a vendor and a package named `vN`, not a
   * vendor and a version: the package is tried before the version.
   */
  lemma PatternVersionAfterVendorIsPackage(vendor: string, major: nat, rest: string)
    requires IsIdentifierToken(vendor) && (|rest| == 0 || !IsSegmentChar(rest[0]))
    ensures var package := "v" + NatToString(major);
            var s := vendor + "." + package + rest;
            Pattern(s, 0) == Ok(SegmentInfo(Some(vendor), Some(package), None, None, None), |s| - |rest|, true)
  {
    var package := "v" + NatToString(major);
    var seg := SegmentInfo(Some(vendor), Some(package), None, None, None);
    var s := vendor + "." + package + rest;
    var text := PatternText(seg, false);
    assert IsIdentifierToken(package);
    assert PresentNames(seg) == [package];
    assert DottedText([package]) == "." + package + DottedText([]);
    assert text == vendor + "." + package;
    TextAtStart(text, rest);
    if |rest| > 0 {
      assert s[|text| + 0] == rest[0];
    }
    PatternReads(s, 0, seg, false, |text|);
  }

  // ---------------------------------------------------------------------------
  // Repetition
  // ---------------------------------------------------------------------------

  lemma ManyStop<T>(p: Parser<T>, s: string, pos: nat)
    requires pos <= |s| && Progresses(p, s) && p(s, pos) == Fail(false)
    ensures Many(p, s, pos) == Ok([], pos, false)
  {
  }

  lemma ManyStep<T>(p: Parser<T>, s: string, pos: nat, x: T, n1: nat, xs: seq<T>, n2: nat, c: bool)
    requires pos <= |s| && Progresses(p, s) && p(s, pos) == Ok(x, n1, true)
    requires n1 <= |s| && Many(p, s, n1) == Ok(xs, n2, c)
    ensures Many(p, s, pos) == Ok([x] + xs, n2, true)
  {
  }

  /**
   * `Many` collects exactly the values `p` reads one after the other, from
   * `starts[i]` on, and stops where `p` fails without consuming input.
   */
  lemma {:induction false} ManyRun<T>(p: Parser<T>, s: string, xs: seq<T>, starts: seq<nat>, i: nat)
    requires Progresses(p, s) && |starts| == |xs| + 1 && i <= |xs|
    requires forall j | 0 <= j < |starts| :: starts[j] <= |s|
    requires forall j | i <= j < |xs| :: p(s, starts[j]) == Ok(xs[j], starts[j + 1], true)
    requires p(s, starts[|xs|]) == Fail(false)
    ensures Many(p, s, starts[i]) == Ok(xs[i..], starts[|xs|], i < |xs|)
    decreases |xs| - i
  {
    if i == |xs| {
      ManyStop(p, s, starts[i]);
      assert xs[i..] == [];
    } else {
      ManyRun(p, s, xs, starts, i + 1);
      ManyStep(p, s, starts[i], xs[i], starts[i + 1], xs[i + 1..], starts[|xs|], i + 1 < |xs|);
      ConsAt(xs, i);
    }
  }

  lemma ThenManyStep<T>(first: Parser<T>, rest: Parser<T>, s: string, pos: nat, x: T, n1: nat, xs: seq<T>, n2: nat, c: bool)
    requires pos <= |s| && Progresses(first, s) && Progresses(rest, s)
    requires first(s, pos) == Ok(x, n1, true)
    requires n1 <= |s| && Many(rest, s, n1) == Ok(xs, n2, c)
    ensures ThenMany(first, rest, s, pos) == Ok([x] + xs, n2, true)
  {
  }

  /** `first` then `rest` as often as it reads: the values read, one after the other, from `starts[0]`. */
  lemma ThenManyRun<T>(first: Parser<T>, rest: Parser<T>, s: string, xs: seq<T>, starts: seq<nat>)
    requires Progresses(first, s) && Progresses(rest, s)
    requires |xs| >= 1 && |starts| == |xs| + 1
    requires forall j | 0 <= j < |starts| :: starts[j] <= |s|
    requires first(s, starts[0]) == Ok(xs[0], starts[1], true)
    requires forall j | 1 <= j < |xs| :: rest(s, starts[j]) == Ok(xs[j], starts[j + 1], true)
    requires rest(s, starts[|xs|]) == Fail(false)
    ensures ThenMany(first, rest, s, starts[0]) == Ok(xs, starts[|xs|], true)
  {
    ManyRun(rest, s, xs, starts, 1);
    ThenManyStep(first, rest, s, starts[0], xs[0], starts[1], xs[1..], starts[|xs|], 1 < |xs|);
    HeadTail(xs);
  }

  // ---------------------------------------------------------------------------
  // Segment lists
  // ---------------------------------------------------------------------------

  /** The pieces of a type identifier's text after `gts.`: each segment followed by its `~`. */
  function TypePieces(segs: seq<SegmentInfo>): (pieces: seq<string>)
    requires AllFit(Strict, segs)
    ensures |pieces| == |segs|
  {
    seq(|segs|, j requires 0 <= j < |segs| => SegmentText(segs[j]) + "~")
  }

  /** The canonical text of a type identifier: `gts.`, then every segment and a `~` after each. */
  function TypeIdText(segs: seq<SegmentInfo>): string
    requires AllFit(Strict, segs)
  {
    "gts." + Concat(TypePieces(segs))
  }

  /** The element grammar of `form` reads back what this prints; only pattern segments use `star`. */
  predicate Printable(form: Form, seg: SegmentInfo, star: bool) {
    if form == Strict then StrictSegment(seg) else PrintablePattern(seg, star)
  }

  predicate AllPrintable(form: Form, segs: seq<SegmentInfo>, stars: seq<bool>) {
    |stars| == |segs| && forall j | 0 <= j < |segs| :: Printable(form, segs[j], stars[j])
  }

  /** The canonical text of one element of a `~`-separated list. */
  function ElementText(form: Form, seg: SegmentInfo, star: bool): string
    requires Printable(form, seg, star)
  {
    if form == Strict then SegmentText(seg) else PatternText(seg, star)
  }

  /** The pieces of a separated list: the first element, then each later one after its `~`. */
  function ListPieces(form: Form, segs: seq<SegmentInfo>, stars: seq<bool>): (pieces: seq<string>)
    requires AllPrintable(form, segs, stars)
    ensures |pieces| == |segs|
  {
    seq(|segs|, j requires 0 <= j < |segs| =>
      if j == 0 then ElementText(form, segs[j], stars[j]) else "~" + ElementText(form, segs[j], stars[j]))
  }

  /** No `.*` anywhere: what an instance identifier's segments are printed with. */
  function NoStars(n: nat): (stars: seq<bool>)
    ensures |stars| == n && forall j | 0 <= j < n :: !stars[j]
  {
    seq(n, j => false)
  }

  /** The canonical text of an instance identifier: `gts.` and the segments separated by `~`. */
  function InstanceIdText(segs: seq<SegmentInfo>): string
    requires AllFit(Strict, segs)
  {
    "gts." + Concat(ListPieces(Strict, segs, NoStars(|segs|)))
  }

  /** The canonical text of a pattern: `gts.` and the pattern segments separated by `~`, with `.*` where `stars` says. */
  function PatternIdText(segs: seq<SegmentInfo>, stars: seq<bool>): string
    requires AllPrintable(Open, segs, stars)
  {
    "gts." + Concat(ListPieces(Open, segs, stars))
  }

  lemma SegmentBeforeTildeStep(s: string, pos: nat, seg: SegmentInfo, k: nat, end: nat)
    requires pos <= |s| && Segment(s, pos) == Ok(seg, k, true)
    requires k < |s| && s[k] == '~' && end == k + 1
    ensures SegmentBeforeTilde(s, pos) == Ok(seg, end, true)
  {
  }

  /** A segment's text and its `~` are read back as the segment. */
  lemma SegmentBeforeTildeReads(s: string, pos: nat, seg: SegmentInfo, end: nat)
    requires StrictSegment(seg) && TextAt(s, pos, SegmentText(seg) + "~")
    requires end == pos + |SegmentText(seg)| + 1
    ensures SegmentBeforeTilde(s, pos) == Ok(seg, end, true)
  {
    var k := pos + |SegmentText(seg)|;
    TextAtSplit(s, pos, SegmentText(seg), "~", k);
    TextAtSingle(s, k, '~');
    SegmentReads(s, pos, seg, k);
    SegmentBeforeTildeStep(s, pos, seg, k, end);
  }

  /** Where nothing can start a segment, `SegmentBeforeTilde` fails without consuming input. */
  lemma SegmentBeforeTildeStops(s: string, pos: nat)
    requires pos <= |s| && StopsTypeList(s, pos)
    ensures SegmentBeforeTilde(s, pos) == Fail(false)
  {
  }

  /** The `j`-th piece of a type identifier's text is read back as the `j`-th segment. */
  lemma TypePieceReads(s: string, segs: seq<SegmentInfo>, starts: seq<nat>, j: nat)
    requires AllFit(Strict, segs) && TextAt(s, 4, Concat(TypePieces(segs)))
    requires starts == Offsets(TypePieces(segs), 4) && j < |segs|
    ensures starts[j] <= |s| && SegmentBeforeTilde(s, starts[j]) == Ok(segs[j], starts[j + 1], true)
  {
    var pieces := TypePieces(segs);
    PieceAt(s, 4, pieces, j);
    OffsetsStep(pieces, 4, j);
    TextAtBounds(s, starts[j], pieces[j]);
    SegmentBeforeTildeReads(s, starts[j], segs[j], starts[j + 1]);
  }

  /** The list of a type identifier's text after `gts.` is read back segment by segment. */
  lemma TypeListReads(s: string, segs: seq<SegmentInfo>, starts: seq<nat>, end: nat)
    requires |segs| >= 1 && AllFit(Strict, segs) && TextAt(s, 4, Concat(TypePieces(segs)))
    requires starts == Offsets(TypePieces(segs), 4)
    requires end == 4 + |Concat(TypePieces(segs))| && StopsTypeList(s, end)
    requires Progresses(SegmentBeforeTilde, s)
    ensures ThenMany(SegmentBeforeTilde, SegmentBeforeTilde, s, 4) == Ok(segs, end, true)
  {
    OffsetsEnds(TypePieces(segs), 4);
    OffsetsWithin(s, 4, TypePieces(segs));
    forall j | 0 <= j < |segs|
      ensures starts[j] <= |s| && SegmentBeforeTilde(s, starts[j]) == Ok(segs[j], starts[j + 1], true)
    {
      TypePieceReads(s, segs, starts, j);
    }
    SegmentBeforeTildeStops(s, end);
    assert starts[|segs|] == end;
    assert SegmentBeforeTilde(s, starts[|segs|]) == Fail(false);
    ThenManyRun(SegmentBeforeTilde, SegmentBeforeTilde, s, segs, starts);
  }

  /** `GtsTypeId` from the `gts.` and the list after it. */
  lemma TypeIdStep(s: string, segs: seq<SegmentInfo>, end: nat)
    requires GtsDot(s).Ok? && 4 <= |s|
    requires Progresses(SegmentBeforeTilde, s)
    requires ThenMany(SegmentBeforeTilde, SegmentBeforeTilde, s, 4) == Ok(segs, end, true)
    ensures GtsTypeId(s) == Ok(IdentifierInfo(TypeKind, segs), end, true)
  {
  }

  /**
   * The text of a type identifier parses back to its segments, and the parser
   * stops right after the last `~`, provided no segment can start there.
   */
  lemma TypeIdReads(s: string, segs: seq<SegmentInfo>, end: nat)
    requires |segs| >= 1 && AllFit(Strict, segs) && TextAt(s, 0, TypeIdText(segs))
    requires end == |TypeIdText(segs)| && StopsTypeList(s, end)
    ensures GtsTypeId(s) == Ok(IdentifierInfo(TypeKind, segs), end, true)
  {
    var pieces := TypePieces(segs);
    TextAtSplit(s, 0, "gts.", Concat(pieces), 4);
    TextAtBounds(s, 4, Concat(pieces));
    ElementsProgress(Strict, s);
    TypeListReads(s, segs, Offsets(pieces, 4), end);
    TypeIdStep(s, segs, end);
  }

  /** The text of an element is read back as the element. */
  lemma ElementReads(form: Form, s: string, pos: nat, seg: SegmentInfo, star: bool, end: nat)
    requires Printable(form, seg, star) && TextAt(s, pos, ElementText(form, seg, star))
    requires end == pos + |ElementText(form, seg, star)| && StopsSegment(s, end)
    ensures Element(form)(s, pos) == Ok(seg, end, true)
  {
    if form == Strict {
      SegmentReads(s, pos, seg, end);
    } else {
      PatternReads(s, pos, seg, star, end);
    }
  }

  lemma TildeElementStep(form: Form, s: string, pos: nat, seg: SegmentInfo, end: nat)
    requires pos < |s| && s[pos] == '~' && Element(form)(s, pos + 1) == Ok(seg, end, true)
    ensures TildeElement(form)(s, pos) == Ok(seg, end, true)
  {
  }

  /** A `~` and the text of an element are read back as the element. */
  lemma TildeElementReads(form: Form, s: string, pos: nat, seg: SegmentInfo, star: bool, end: nat)
    requires Printable(form, seg, star) && TextAt(s, pos, "~" + ElementText(form, seg, star))
    requires end == pos + 1 + |ElementText(form, seg, star)| && StopsSegment(s, end)
    ensures TildeElement(form)(s, pos) == Ok(seg, end, true)
  {
    TextAtHead(s, pos, '~', ElementText(form, seg, star));
    ElementReads(form, s, pos + 1, seg, star, end);
    TildeElementStep(form, s, pos, seg, end);
  }

  /** Where no `~` follows, `TildeElement` fails without consuming input. */
  lemma TildeElementStops(form: Form, s: string, pos: nat)
    requires pos <= |s| && (pos < |s| ==> s[pos] != '~')
    ensures TildeElement(form)(s, pos) == Fail(false)
  {
  }

  /** Every piece of a separated list after the first starts with its `~`. */
  predicate TildeLed(pieces: seq<string>) {
    forall k | 0 < k < |pieces| :: |pieces[k]| > 0 && pieces[k][0] == '~'
  }

  lemma ListPiecesTildeLed(form: Form, segs: seq<SegmentInfo>, stars: seq<bool>)
    requires AllPrintable(form, segs, stars)
    ensures TildeLed(ListPieces(form, segs, stars))
  {
  }

  /** Each piece of a separated list ends where a segment cannot go on. */
  lemma ListPieceEnds(s: string, pieces: seq<string>, starts: seq<nat>, j: nat, end: nat)
    requires TextAt(s, 4, Concat(pieces)) && TildeLed(pieces)
    requires starts == Offsets(pieces, 4) && j < |pieces|
    requires end == 4 + |Concat(pieces)| && StopsList(s, end)
    ensures StopsSegment(s, starts[j + 1])
  {
    OffsetsEnds(pieces, 4);
    if j + 1 < |pieces| {
      PieceAt(s, 4, pieces, j + 1);
      TextAtIndex(s, starts[j + 1], pieces[j + 1], 0);
    }
  }

  /** Where a piece of a separated list lies, and what follows it. */
  lemma ListPieceAt(s: string, pieces: seq<string>, starts: seq<nat>, j: nat, end: nat)
    requires TextAt(s, 4, Concat(pieces)) && TildeLed(pieces)
    requires starts == Offsets(pieces, 4) && j < |pieces|
    requires end == 4 + |Concat(pieces)| && StopsList(s, end)
    ensures TextAt(s, starts[j], pieces[j]) && starts[j + 1] == starts[j] + |pieces[j]| <= |s|
    ensures StopsSegment(s, starts[j + 1])
  {
    PieceAt(s, 4, pieces, j);
    OffsetsStep(pieces, 4, j);
    TextAtBounds(s, starts[j], pieces[j]);
    ListPieceEnds(s, pieces, starts, j, end);
  }

  /** The `j`-th piece of a separated list, after the first, is read back as the `j`-th segment. */
  lemma ListPieceReads(form: Form, s: string, seg: SegmentInfo, star: bool, pieces: seq<string>, starts: seq<nat>, j: nat, end: nat)
    requires Printable(form, seg, star) && 0 < j < |pieces| && pieces[j] == "~" + ElementText(form, seg, star)
    requires TextAt(s, 4, Concat(pieces)) && TildeLed(pieces)
    requires starts == Offsets(pieces, 4)
    requires end == 4 + |Concat(pieces)| && StopsList(s, end)
    ensures starts[j] <= |s| && TildeElement(form)(s, starts[j]) == Ok(seg, starts[j + 1], true)
  {
    ListPieceAt(s, pieces, starts, j, end);
    TildeElementReads(form, s, starts[j], seg, star, starts[j + 1]);
  }

  /** The first piece of a separated list is read back as the first segment. */
  lemma ListHeadReads(form: Form, s: string, seg: SegmentInfo, star: bool, pieces: seq<string>, starts: seq<nat>, end: nat)
    requires Printable(form, seg, star) && 0 < |pieces| && pieces[0] == ElementText(form, seg, star)
    requires TextAt(s, 4, Concat(pieces)) && TildeLed(pieces)
    requires starts == Offsets(pieces, 4)
    requires end == 4 + |Concat(pieces)| && StopsList(s, end)
    ensures starts[0] <= |s| && Element(form)(s, starts[0]) == Ok(seg, starts[1], true)
  {
    ListPieceAt(s, pieces, starts, 0, end);
    ElementReads(form, s, starts[0], seg, star, starts[1]);
  }

  /** The list of a separated list's text after `gts.` is read back segment by segment. */
  lemma ListReads(form: Form, s: string, segs: seq<SegmentInfo>, stars: seq<bool>, starts: seq<nat>, end: nat)
    requires |segs| >= 1 && AllPrintable(form, segs, stars) && TextAt(s, 4, Concat(ListPieces(form, segs, stars)))
    requires starts == Offsets(ListPieces(form, segs, stars), 4)
    requires end == 4 + |Concat(ListPieces(form, segs, stars))| && StopsList(s, end)
    requires Progresses(Element(form), s) && Progresses(TildeElement(form), s)
    ensures ThenMany(Element(form), TildeElement(form), s, 4) == Ok(segs, end, true)
  {
    var pieces := ListPieces(form, segs, stars);
    OffsetsEnds(pieces, 4);
    OffsetsWithin(s, 4, pieces);
    ListPiecesTildeLed(form, segs, stars);
    ListHeadReads(form, s, segs[0], stars[0], pieces, starts, end);
    forall j | 1 <= j < |segs|
      ensures starts[j] <= |s| && TildeElement(form)(s, starts[j]) == Ok(segs[j], starts[j + 1], true)
    {
      ListPieceReads(form, s, segs[j], stars[j], pieces, starts, j, end);
    }
    TildeElementStops(form, s, end);
    assert starts[|segs|] == end;
    assert TildeElement(form)(s, starts[|segs|]) == Fail(false);
    ThenManyRun(Element(form), TildeElement(form), s, segs, starts);
  }

  /** `SeparatedList` from the `gts.` and the list after it. */
  lemma SeparatedListStep(form: Form, s: string, segs: seq<SegmentInfo>, end: nat)
    requires GtsDot(s).Ok? && 4 <= |s|
    requires Progresses(Element(form), s) && Progresses(TildeElement(form), s)
    requires ThenMany(Element(form), TildeElement(form), s, 4) == Ok(segs, end, true)
    ensures SeparatedList(form, s) == Ok(segs, end, true)
  {
  }

  /**
   * The text of a `~`-separated list parses back to its segments, and the
   * parser stops right after the last one, provided the list cannot go on there.
   */
  lemma SeparatedListReads(form: Form, s: string, segs: seq<SegmentInfo>, stars: seq<bool>, end: nat)
    requires |segs| >= 1 && AllPrintable(form, segs, stars)
    requires TextAt(s, 0, "gts." + Concat(ListPieces(form, segs, stars)))
    requires end == 4 + |Concat(ListPieces(form, segs, stars))| && StopsList(s, end)
    ensures SeparatedList(form, s) == Ok(segs, end, true)
  {
    var pieces := ListPieces(form, segs, stars);
    TextAtSplit(s, 0, "gts.", Concat(pieces), 4);
    TextAtBounds(s, 4, Concat(pieces));
    ElementsProgress(form, s);
    ListReads(form, s, segs, stars, Offsets(pieces, 4), end);
    SeparatedListStep(form, s, segs, end);
  }

  /**
   * The text of an instance identifier parses back to its segments, and the
   * parser stops right after the last one, provided the list cannot go on there.
   */
  lemma InstanceIdReads(s: string, segs: seq<SegmentInfo>, end: nat)
    requires |segs| >= 1 && AllFit(Strict, segs) && TextAt(s, 0, InstanceIdText(segs))
    requires end == |InstanceIdText(segs)| && StopsList(s, end)
    ensures GtsInstanceId(s) == Ok(IdentifierInfo(InstanceKind, segs), end, true)
  {
    SeparatedListReads(Strict, s, segs, NoStars(|segs|), end);
  }

  /**
   * The text of a pattern parses back to its segments; a segment printed
   * with `.*` comes back without a version, like one printed without it.
   */
  lemma PatternIdReads(s: string, segs: seq<SegmentInfo>, stars: seq<bool>, end: nat)
    requires |segs| >= 1 && AllPrintable(Open, segs, stars) && TextAt(s, 0, PatternIdText(segs, stars))
    requires end == |PatternIdText(segs, stars)| && StopsList(s, end)
    ensures GtsPattern(s) == Ok(IdentifierInfo(PatternKind, segs), end, true)
  {
    SeparatedListReads(Open, s, segs, stars, end);
  }

}

=== FILE: parsers.dfy ===
/**
 * The GTS identifier grammar as a recursive-descent parser.
 *
 * Every parser looks at the input `s` from position `pos` and returns a
 * `Reply`: a value, the position after what it read and whether it read
 * anything, or a failure that also says whether it read anything first. The
 * parser-combinator library the grammar is written in commits to a branch once
 * that branch has consumed input: `Optional`, `Or` and `Many` fall through only
 * on a failure that consumed nothing, and `Try` turns every failure into one
 * that consumed nothing. The generic `Try`, `Optional` and `Or` below reproduce
 * that rule; sequencing (`Then`, `Before`) is written out as nested matches
 * whose failure reports whether any part consumed input.
 *
 * None of the three top-level parsers requires the end of the input: a string
 * is accepted as soon as a prefix of it is an identifier.
 */
module Parsers {
  import opened Wrappers
  import opened Text

  // ---------------------------------------------------------------------------
  // Replies and the combinator rules
  // ---------------------------------------------------------------------------

  datatype Reply<+T> = Ok(value: T, next: nat, consumed: bool) | Fail(consumed: bool)

  /** What every parser guarantees: it only reads forward, and `consumed` is honest. */
  predicate WellFormed<T>(s: string, pos: nat, r: Reply<T>) {
    r.Ok? ==> pos <= r.next <= |s| && (r.consumed <==> pos < r.next)
  }

  /** Sequencing: the reply of a step that follows one which consumed `c`. */
  function After<T>(c: bool, r: Reply<T>): Reply<T> {
    match r
    case Ok(v, next, c2) => Ok(v, next, c || c2)
    case Fail(c2) => Fail(c || c2)
  }

  /** `Try(p)`: a failure rewinds, so it no longer counts as having consumed input. */
  function Try<T>(r: Reply<T>): (t: Reply<T>)
    ensures t.Fail? ==> !t.consumed
    ensures t.Ok? <==> r.Ok?
  {
    if r.Fail? then Fail(false) else r
  }

  /** `p.Optional()` at position `pos`, where `r` is what `p` replied there. */
  function Optional<T>(pos: nat, r: Reply<T>): (o: Reply<Option<T>>)
    ensures o.Fail? <==> r.Fail? && r.consumed
    ensures o.Ok? && o.value.None? ==> o.next == pos && !o.consumed
  {
    match r
    case Ok(v, next, c) => Ok(Some(v), next, c)
    case Fail(c) => if c then Fail(true) else Ok(None, pos, false)
  }

  /** `p.Or(q)`: `q` is tried only when `p` failed without consuming input. */
  function Or<T>(first: Reply<T>, second: Reply<T>): Reply<T> {
    if first.Fail? && !first.consumed then second else first
  }

  // ---------------------------------------------------------------------------
  // Data produced by the grammar
  // ---------------------------------------------------------------------------

  /** `VersionInfo`: a major version and an optional minor version. */
  datatype VersionInfo = VersionInfo(major: nat, minor: Option<nat>)

  /** `SegmentInfo`: one `vendor.package.namespace.type.version` unit; pattern segments may omit parts. */
  datatype SegmentInfo = SegmentInfo(
    vendor: Option<string>,
    package: Option<string>,
    namespace: Option<string>,
    typeName: Option<string>,
    version: Option<VersionInfo>)

  datatype IdentifierKind = TypeKind | InstanceKind | PatternKind

  /** `IdentifierInfo`: the kind of identifier and its segments in order. */
  datatype IdentifierInfo = IdentifierInfo(kind: IdentifierKind, segments: seq<SegmentInfo>) {
    predicate IsType() { kind == TypeKind }
    predicate IsInstance() { kind == InstanceKind }
    predicate IsPattern() { kind == PatternKind }
  }

  predicate IsTokenOrAbsent(name: Option<string>) {
    name.Some? ==> IsIdentifierToken(name.value)
  }

  /** A segment of a type or instance identifier: four names and a version. */
  predicate StrictSegment(seg: SegmentInfo) {
    && seg.vendor.Some? && seg.package.Some? && seg.namespace.Some? && seg.typeName.Some?
    && seg.version.Some?
    && IsIdentifierToken(seg.vendor.value) && IsIdentifierToken(seg.package.value)
    && IsIdentifierToken(seg.namespace.value) && IsIdentifierToken(seg.typeName.value)
  }

  /**
   * A segment of a pattern: a vendor, then package, namespace, type and version,
   * of which only a trailing run may be missing.
   */
  predicate PatternSegment(seg: SegmentInfo) {
    && seg.vendor.Some? && IsIdentifierToken(seg.vendor.value)
    && IsTokenOrAbsent(seg.package) && IsTokenOrAbsent(seg.namespace) && IsTokenOrAbsent(seg.typeName)
    && (seg.package.None? ==> seg.namespace.None?)
    && (seg.namespace.None? ==> seg.typeName.None?)
    && (seg.typeName.None? ==> seg.version.None?)
  }

  /** The characters a single segment is written with: never `~`. */
  predicate IsSegmentChar(c: char) {
    IsIdentifierRest(c) || c == '.' || c == '*'
  }

  // ---------------------------------------------------------------------------
  // Single characters and literals
  // ---------------------------------------------------------------------------

  /** `Char(c)`. */
  function Char(c: char, s: string, pos: nat): (r: Reply<char>)
    requires pos <= |s|
    ensures WellFormed(s, pos, r)
    ensures r.Ok? <==> pos < |s| && s[pos] == c
    ensures r.Ok? ==> r.next == pos + 1 && r.value == c
    ensures r.Fail? ==> !r.consumed
  {
    if pos < |s| && s[pos] == c then Ok(c, pos + 1, true) else Fail(false)
  }

  function Dot(s: string, pos: nat): (r: Reply<char>)
    requires pos <= |s|
    ensures WellFormed(s, pos, r)
  {
    Char('.', s, pos)
  }

  function Tilde(s: string, pos: nat): (r: Reply<char>)
    requires pos <= |s|
    ensures WellFormed(s, pos, r)
  {
    Char('~', s, pos)
  }

  function V(s: string, pos: nat): (r: Reply<char>)
    requires pos <= |s|
    ensures WellFormed(s, pos, r)
  {
    Char('v', s, pos)
  }

  /** `String(lit)`: on a mismatch the characters that did match stay consumed. */
  function Literal(lit: string, s: string, pos: nat): (r: Reply<string>)
    requires pos <= |s|
    ensures WellFormed(s, pos, r)
    ensures r.Ok? <==> TextAt(s, pos, lit)
    ensures r.Ok? ==> r.value == lit && r.next == pos + |lit|
  {
    if TextAt(s, pos, lit) then
      TextAtBounds(s, pos, lit);
      Ok(lit, pos + |lit|, |lit| > 0)
    else Fail(pos < |s| && |lit| > 0 && s[pos] == lit[0])
  }

  /** `Wildcard`: the literal `*`. */
  function Wildcard(s: string, pos: nat): (r: Reply<string>)
    requires pos <= |s|
    ensures WellFormed(s, pos, r)
    ensures r.Ok? <==> pos < |s| && s[pos] == '*'
    ensures r.Ok? ==> r.value == "*" && r.next == pos + 1
    ensures r.Fail? ==> !r.consumed
  {
    TextAtSingle(s, pos, '*');
    Literal("*", s, pos)
  }

  /** `GtsPrefix`: the literal `gts`, in lower case only. */
  function GtsPrefix(s: string, pos: nat): (r: Reply<string>)
    requires pos <= |s|
    ensures WellFormed(s, pos, r)
    ensures r.Ok? <==> pos + 3 <= |s| && s[pos] == 'g' && s[pos + 1] == 't' && s[pos + 2] == 's'
    ensures r.Ok? ==> r.next == pos + 3
  {
    assert "gts" == ['g'] + "ts" && "ts" == ['t'] + "s" && "s" == ['s'] + [];
    TextAtCons(s, pos, 'g', "ts");
    TextAtCons(s, pos + 1, 't', "s");
    TextAtCons(s, pos + 2, 's', []);
    Literal("gts", s, pos)
  }

  // ---------------------------------------------------------------------------
  // Runs of characters
  // ---------------------------------------------------------------------------

  datatype CharClass = DigitChars | IdentifierChars

  predicate InClass(cls: CharClass, c: char) {
    if cls == DigitChars then IsDigit(c) else IsIdentifierRest(c)
  }

  /**
   * Where `Many` of a one-character parser of class `cls` stops when started at
   * `pos`: the end of the longest run of such characters.
   */
  function RunEnd(cls: CharClass, s: string, pos: nat): (n: nat)
    requires pos <= |s|
    ensures pos <= n <= |s|
    ensures forall i | pos <= i < n :: InClass(cls, s[i])
    ensures n < |s| ==> !InClass(cls, s[n])
    decreases |s| - pos
  {
    if pos < |s| && InClass(cls, s[pos]) then RunEnd(cls, s, pos + 1) else pos
  }

  // ---------------------------------------------------------------------------
  // Versions
  // ---------------------------------------------------------------------------

  /** `VersionNumber`: an unsigned run of decimal digits and its value. */
  function VersionNumber(s: string, pos: nat): (r: Reply<nat>)
    requires pos <= |s|
    ensures WellFormed(s, pos, r)
    ensures r.Ok? <==> pos < |s| && IsDigit(s[pos])
    ensures r.Ok? ==> AllDigits(s[pos..r.next]) && r.value == DigitsValue(s[pos..r.next])
    ensures r.Ok? ==> r.next == |s| || !IsDigit(s[r.next])
    ensures r.Fail? ==> !r.consumed
  {
    if pos < |s| && IsDigit(s[pos]) then
      var n := RunEnd(DigitChars, s, pos);
      Ok(DigitsValue(s[pos..n]), n, true)
    else
      Fail(false)
  }

  /** `VersionMajor`: `v` then a number. */
  function VersionMajor(s: string, pos: nat): (r: Reply<nat>)
    requires pos <= |s|
    ensures WellFormed(s, pos, r)
    ensures r.Ok? <==> pos + 1 < |s| && s[pos] == 'v' && IsDigit(s[pos + 1])
    ensures r.Ok? ==> r.next == |s| || !IsDigit(s[r.next])
    ensures r.Fail? ==> (r.consumed <==> pos < |s| && s[pos] == 'v')
  {
    match V(s, pos)
    case Fail(c) => Fail(c)
    case Ok(_, next, c) => After(c, VersionNumber(s, next))
  }

  /** `VersionMinor`: a number, without a `v`. */
  function VersionMinor(s: string, pos: nat): (r: Reply<nat>)
    requires pos <= |s|
    ensures WellFormed(s, pos, r)
    ensures r.Ok? <==> pos < |s| && IsDigit(s[pos])
    ensures r.Ok? ==> r.next == |s| || !IsDigit(s[r.next])
    ensures r.Fail? ==> !r.consumed
  {
    VersionNumber(s, pos)
  }

  /** `Dot.Then(VersionMinor)`. */
  function DotMinor(s: string, pos: nat): (r: Reply<nat>)
    requires pos <= |s|
    ensures WellFormed(s, pos, r)
    ensures r.Ok? <==> pos + 1 < |s| && s[pos] == '.' && IsDigit(s[pos + 1])
    ensures r.Ok? ==> r.next == |s| || !IsDigit(s[r.next])
    ensures r.Fail? ==> (r.consumed <==> pos < |s| && s[pos] == '.')
  {
    match Dot(s, pos)
    case Fail(c) => Fail(c)
    case Ok(_, next, c) => After(c, VersionMinor(s, next))
  }

  /** `VersionFull`: a major version, then `.minor` if a dot follows. */
  function VersionFull(s: string, pos: nat): (r: Reply<VersionInfo>)
    requires pos <= |s|
    ensures WellFormed(s, pos, r)
    ensures r.Ok? ==> pos + 1 < |s| && s[pos] == 'v' && IsDigit(s[pos + 1])
    ensures r.Ok? ==> r.consumed
    ensures r.Ok? ==> r.next == |s| || !IsDigit(s[r.next])
    ensures r.Ok? && r.value.minor.None? ==> r.next == |s| || s[r.next] != '.'
    ensures r.Fail? ==> (r.consumed <==> pos < |s| && s[pos] == 'v')
  {
    match VersionMajor(s, pos)
    case Fail(c) => Fail(c)
    case Ok(major, n1, c1) =>
      match Optional(n1, DotMinor(s, n1))
      case Fail(_) => Fail(true)
      case Ok(minor, n2, c2) => Ok(VersionInfo(major, minor), n2, c1 || c2)
  }

  /** `VersionInfo.ToString()`: `v<major>` or `v<major>.<minor>`. */
  function VersionText(v: VersionInfo): (t: string)
    ensures |t| >= 2 && t[0] == 'v' && IsDigit(t[1])
  {
    "v" + NatToString(v.major)
      + (match v.minor case Some(m) => "." + NatToString(m) case None => "")
  }

  /**
   * `VersionInfo.FromString`: drop the first character, split on `.`, read the
   * first part as the major version and the second, when there is one, as the
   * minor version. `None` stands for the exception `Substring` or `int.Parse`
   * throws.
   */
  function FromString(str: string): Option<VersionInfo> {
    if |str| == 0 then None
    else
      var parts := Split(str[1..], '.');
      match ParseNat(parts[0])
      case None => None
      case Some(major) =>
        if |parts| == 1 then Some(VersionInfo(major, None))
        else
          match ParseNat(parts[1])
          case None => None
          case Some(minor) => Some(VersionInfo(major, Some(minor)))
  }

  /** `VersionFullString`: `VersionFull` with its value rendered by `ToString`. */
  function VersionFullString(s: string, pos: nat): (r: Reply<string>)
    requires pos <= |s|
    ensures WellFormed(s, pos, r)
    ensures r.Ok? ==> pos + 1 < |s| && s[pos] == 'v' && IsDigit(s[pos + 1])
    ensures r.Fail? ==> (r.consumed <==> pos < |s| && s[pos] == 'v')
  {
    match VersionFull(s, pos)
    case Fail(c) => Fail(c)
    case Ok(v, next, c) => Ok(VersionText(v), next, c)
  }

  // ---------------------------------------------------------------------------
  // Identifier tokens
  // ---------------------------------------------------------------------------

  /** `Identifier`: `IdentifierStart` then `IdentifierRest.Many()`, so the longest token there is. */
  function Identifier(s: string, pos: nat): (r: Reply<string>)
    requires pos <= |s|
    ensures WellFormed(s, pos, r)
    ensures r.Ok? <==> pos < |s| && IsIdentifierStart(s[pos])
    ensures r.Ok? ==> r.value == s[pos..r.next] && IsIdentifierToken(r.value) && r.consumed
    ensures r.Ok? ==> r.next == |s| || !IsIdentifierRest(s[r.next])
    ensures r.Fail? ==> !r.consumed
  {
    if pos < |s| && IsIdentifierStart(s[pos]) then
      var n := RunEnd(IdentifierChars, s, pos + 1);
      Ok(s[pos..n], n, true)
    else
      Fail(false)
  }

  /** `IdentifierOrWildcard`: `*` or an identifier. */
  function IdentifierOrWildcard(s: string, pos: nat): (r: Reply<string>)
    requires pos <= |s|
    ensures WellFormed(s, pos, r)
    ensures r.Ok? <==> pos < |s| && (s[pos] == '*' || IsIdentifierStart(s[pos]))
  {
    Or(Wildcard(s, pos), Identifier(s, pos))
  }

  /** `Dot.Then(name)` for a package, namespace or type name. */
  function DotIdentifier(s: string, pos: nat): (r: Reply<string>)
    requires pos <= |s|
    ensures WellFormed(s, pos, r)
    ensures r.Ok? <==> pos + 1 < |s| && s[pos] == '.' && IsIdentifierStart(s[pos + 1])
    ensures r.Ok? ==> IsIdentifierToken(r.value)
    ensures r.Ok? ==> r.next == |s| || !IsIdentifierRest(s[r.next])
    ensures r.Fail? ==> (r.consumed <==> pos < |s| && s[pos] == '.')
  {
    match Dot(s, pos)
    case Fail(c) => Fail(c)
    case Ok(_, next, c) => After(c, Identifier(s, next))
  }

  // ---------------------------------------------------------------------------
  // Segments
  // ---------------------------------------------------------------------------

  predicate AllTokens(names: seq<string>) {
    forall i | 0 <= i < |names| :: IsIdentifierToken(names[i])
  }

  lemma PrependToken(name: string, names: seq<string>)
    requires IsIdentifierToken(name) && AllTokens(names)
    ensures AllTokens([name] + names)
  {
    var all := [name] + names;
    forall i | 0 <= i < |all|
      ensures IsIdentifierToken(all[i])
    {
      if i > 0 {
        assert all[i] == names[i - 1];
      }
    }
  }

  /** The names a segment holds after its vendor: package, namespace and type. */
  const NamesAfterVendor: nat := 3

  /** `count` repetitions of `Dot.Then(name)`, in sequence. */
  function DotNames(count: nat, s: string, pos: nat): (r: Reply<seq<string>>)
    requires pos <= |s|
    ensures WellFormed(s, pos, r)
    ensures r.Ok? ==> |r.value| == count && (r.consumed <==> count > 0)
    ensures r.Ok? ==> AllTokens(r.value)
    ensures r.Fail? ==> count > 0
    decreases count
  {
    if count == 0 then Ok([], pos, false)
    else
      match DotIdentifier(s, pos)
      case Fail(c) => Fail(c)
      case Ok(name, n1, _) =>
        match DotNames(count - 1, s, n1)
        case Fail(_) => Fail(true)
        case Ok(names, n2, _) =>
          PrependToken(name, names);
          Ok([name] + names, n2, true)
  }

  /** `Dot.Then(VersionFull)`. */
  function DotVersionFull(s: string, pos: nat): (r: Reply<VersionInfo>)
    requires pos <= |s|
    ensures WellFormed(s, pos, r)
    ensures r.Ok? ==> r.consumed
  {
    match Dot(s, pos)
    case Fail(c) => Fail(c)
    case Ok(_, next, c) => After(c, VersionFull(s, next))
  }

  /** `Segment`: `vendor.package.namespace.type.version`, nothing optional but the minor version. */
  function Segment(s: string, pos: nat): (r: Reply<SegmentInfo>)
    requires pos <= |s|
    ensures WellFormed(s, pos, r)
    ensures r.Ok? ==> pos < |s| && IsIdentifierStart(s[pos])
    ensures r.Ok? ==> r.consumed && StrictSegment(r.value)
    ensures r.Fail? ==> (r.consumed <==> pos < |s| && IsIdentifierStart(s[pos]))
  {
    match Identifier(s, pos)
    case Fail(c) => Fail(c)
    case Ok(vendor, n1, _) =>
      // Every later failure follows the vendor, which has been consumed.
      match DotNames(NamesAfterVendor, s, n1)
      case Fail(_) => Fail(true)
      case Ok(names, n2, _) =>
        match DotVersionFull(s, n2)
        case Fail(_) => Fail(true)
        case Ok(version, n3, _) =>
          Ok(SegmentInfo(Some(vendor), Some(names[0]), Some(names[1]), Some(names[2]), Some(version)), n3, true)
  }

  /** `Dot.Then(Wildcard.Or(VersionFullString))`. */
  function DotWildcardOrVersion(s: string, pos: nat): (r: Reply<string>)
    requires pos <= |s|
    ensures WellFormed(s, pos, r)
    ensures r.Ok? ==> pos + 1 < |s| && s[pos] == '.' && (s[pos + 1] == '*' || s[pos + 1] == 'v')
    ensures r.Ok? && s[pos + 1] == '*' ==> r.value == "*"
    ensures r.Ok? ==> r.consumed
    ensures r.Fail? ==> (r.consumed <==> pos < |s| && s[pos] == '.')
  {
    match Dot(s, pos)
    case Fail(c) => Fail(c)
    case Ok(_, next, c) => After(c, Or(Wildcard(s, next), VersionFullString(s, next)))
  }

  /** The version a pattern segment keeps: none for `*` or a missing version, else the text read back. */
  function PatternVersion(version: Option<string>): Option<VersionInfo> {
    match version
    case None => None
    case Some(text) => if text == "*" then None else FromString(text)
  }

  /** `Dot.Then(Wildcard.Or(VersionFullString)).Optional()`, kept as a version the way a pattern keeps it. */
  function PatternVersionPart(s: string, pos: nat): (r: Reply<Option<VersionInfo>>)
    requires pos <= |s|
    ensures WellFormed(s, pos, r)
    ensures r.Ok? && r.value.Some? ==> pos + 1 < |s| && s[pos] == '.' && IsIdentifierStart(s[pos + 1])
  {
    match Optional(pos, DotWildcardOrVersion(s, pos))
    case Fail(c) => Fail(c)
    case Ok(version, next, c) => Ok(PatternVersion(version), next, c)
  }

  /** `Try(Dot.Then(name)).Optional()`: a `.name` if one follows, otherwise nothing is read. */
  function OptionalName(s: string, pos: nat): (r: Reply<Option<string>>)
    requires pos <= |s|
    ensures r.Ok? && WellFormed(s, pos, r)
    ensures r.value.Some? <==> pos + 1 < |s| && s[pos] == '.' && IsIdentifierStart(s[pos + 1])
    ensures r.value.Some? ==> IsIdentifierToken(r.value.value)
  {
    Optional(pos, Try(DotIdentifier(s, pos)))
  }

  /**
   * The package, namespace and type of a pattern segment. A name that is
   * missing leaves the position where it was, so every later name is missing too.
   */
  function PatternNames(s: string, pos: nat): (r: Reply<(Option<string>, Option<string>, Option<string>)>)
    requires pos <= |s|
    ensures r.Ok? && WellFormed(s, pos, r)
    ensures IsTokenOrAbsent(r.value.0) && IsTokenOrAbsent(r.value.1) && IsTokenOrAbsent(r.value.2)
    ensures r.value.0.None? ==> r.value.1.None?
    ensures r.value.1.None? ==> r.value.2.None?
    ensures r.value.2.None? ==> !(r.next + 1 < |s| && s[r.next] == '.' && IsIdentifierStart(s[r.next + 1]))
  {
    var Ok(package, n1, c1) := OptionalName(s, pos);
    var Ok(namespace, n2, c2) := OptionalName(s, n1);
    var Ok(typeName, n3, c3) := OptionalName(s, n2);
    Ok((package, namespace, typeName), n3, c1 || c2 || c3)
  }

  /**
   * `Pattern`: a vendor, then package, namespace and type each tried with
   * `Try(...).Optional()`, then an optional `.` followed by `*` or a version.
   */
  function Pattern(s: string, pos: nat): (r: Reply<SegmentInfo>)
    requires pos <= |s|
    ensures WellFormed(s, pos, r)
    ensures r.Ok? ==> pos < |s| && IsIdentifierStart(s[pos])
    ensures r.Ok? ==> r.consumed && PatternSegment(r.value)
    ensures r.Fail? ==> (r.consumed <==> pos < |s| && IsIdentifierStart(s[pos]))
  {
    match Identifier(s, pos)
    case Fail(c) => Fail(c)
    case Ok(vendor, n1, _) =>
      var Ok((package, namespace, typeName), n2, _) := PatternNames(s, n1);
      match PatternVersionPart(s, n2)
      case Fail(_) => Fail(true)
      case Ok(version, n3, _) =>
        Ok(SegmentInfo(Some(vendor), package, namespace, typeName, version), n3, true)
  }

  // ---------------------------------------------------------------------------
  // Repetition
  // ---------------------------------------------------------------------------

  /** A parser as a value: its reply at each position of the input. */
  type Parser<T> = (string, nat) --> Reply<T>

  /**
   * What `Many` demands of the parser it repeats: over `s` it replies at every
   * position, its replies are well-formed, and it never succeeds without
   * consuming input (the library throws when it does).
   */
  ghost predicate Progresses<T>(p: Parser<T>, s: string) {
    forall pos: nat | pos <= |s| ::
      p.requires(s, pos) && WellFormed(s, pos, p(s, pos)) && (p(s, pos).Ok? ==> p(s, pos).consumed)
  }

  /** Every value `p` produces over `s` satisfies `P`. */
  ghost predicate Yields<T>(p: Parser<T>, s: string, P: T -> bool) {
    forall pos: nat | pos <= |s| && p.requires(s, pos) :: p(s, pos).Ok? ==> P(p(s, pos).value)
  }

  /** `p.Many()`: `p` as often as it succeeds; a failure that consumed input fails the whole. */
  function Many<T>(p: Parser<T>, s: string, pos: nat): (r: Reply<seq<T>>)
    requires pos <= |s| && Progresses(p, s)
    ensures WellFormed(s, pos, r)
    ensures r.Ok? ==> (r.consumed <==> |r.value| > 0)
    decreases |s| - pos
  {
    match p(s, pos)
    case Fail(c) => if c then Fail(true) else Ok([], pos, false)
    case Ok(x, n1, _) =>
      match Many(p, s, n1)
      case Fail(_) => Fail(true)
      case Ok(xs, n2, _) => Ok([x] + xs, n2, true)
  }

  /** `first.Then(rest.Many(), ...)`: one `first`, then as many `rest` as follow, in one list. */
  function ThenMany<T>(first: Parser<T>, rest: Parser<T>, s: string, pos: nat): (r: Reply<seq<T>>)
    requires pos <= |s| && Progresses(first, s) && Progresses(rest, s)
    ensures WellFormed(s, pos, r)
    ensures r.Ok? ==> |r.value| >= 1 && r.consumed
    ensures r.Fail? && !r.consumed ==> first(s, pos) == Fail(false)
  {
    match first(s, pos)
    case Fail(c) => Fail(c)
    case Ok(x, n1, c1) =>
      match Many(rest, s, n1)
      case Fail(c2) => Fail(c1 || c2)
      case Ok(xs, n2, c2) => Ok([x] + xs, n2, c1 || c2)
  }

  /** Whatever `Many` collects, `p` produced, so it satisfies what `p` yields. */
  lemma {:induction false} ManyYields<T>(p: Parser<T>, s: string, pos: nat, P: T -> bool)
    requires pos <= |s| && Progresses(p, s) && Yields(p, s, P)
    ensures Many(p, s, pos).Ok? ==> forall i | 0 <= i < |Many(p, s, pos).value| :: P(Many(p, s, pos).value[i])
    decreases |s| - pos
  {
    match p(s, pos)
    case Fail(_) =>
    case Ok(x, n1, _) =>
      ManyYields(p, s, n1, P);
      var r := Many(p, s, pos);
      if r.Ok? {
        var xs := Many(p, s, n1).value;
        assert r.value == [x] + xs;
        forall i | 0 <= i < |r.value|
          ensures P(r.value[i])
        {
          if i > 0 {
            assert r.value[i] == xs[i - 1];
          }
        }
      }
  }

  lemma ThenManyYields<T>(first: Parser<T>, rest: Parser<T>, s: string, pos: nat, P: T -> bool)
    requires pos <= |s| && Progresses(first, s) && Progresses(rest, s)
    requires Yields(first, s, P) && Yields(rest, s, P)
    ensures ThenMany(first, rest, s, pos).Ok? ==>
      forall i | 0 <= i < |ThenMany(first, rest, s, pos).value| :: P(ThenMany(first, rest, s, pos).value[i])
  {
    match first(s, pos)
    case Fail(_) =>
    case Ok(x, n1, _) =>
      ManyYields(rest, s, n1, P);
      var r := ThenMany(first, rest, s, pos);
      if r.Ok? {
        var xs := Many(rest, s, n1).value;
        assert r.value == [x] + xs;
        forall i | 0 <= i < |r.value|
          ensures P(r.value[i])
        {
          if i > 0 {
            assert r.value[i] == xs[i - 1];
          }
        }
      }
  }

  // ---------------------------------------------------------------------------
  // Segment lists and the three identifier forms
  // ---------------------------------------------------------------------------

  /** Which segment grammar a `~`-separated list uses. */
  datatype Form = Strict | Open

  /** The segment has the shape the grammar `form` produces. */
  predicate Fits(form: Form, seg: SegmentInfo) {
    if form == Strict then StrictSegment(seg) else PatternSegment(seg)
  }

  predicate AllFit(form: Form, segs: seq<SegmentInfo>) {
    forall i | 0 <= i < |segs| :: Fits(form, segs[i])
  }

  /** `Segment.Before(Tilde)`: a segment and the `~` right after it. */
  function SegmentBeforeTilde(s: string, pos: nat): (r: Reply<SegmentInfo>)
    requires pos <= |s|
    ensures WellFormed(s, pos, r)
    ensures r.Ok? ==> r.consumed && pos < r.next && StrictSegment(r.value) && s[r.next - 1] == '~'
    ensures r.Fail? ==> (r.consumed <==> pos < |s| && IsIdentifierStart(s[pos]))
  {
    match Segment(s, pos)
    case Fail(c) => Fail(c)
    case Ok(seg, n1, c1) =>
      match Tilde(s, n1)
      case Fail(c2) => Fail(c1 || c2)
      case Ok(_, n2, c2) => assert n2 == n1 + 1; Ok(seg, n2, c1 || c2)
  }

  /** `Tilde.Then(Segment)`: a `~` and the segment after it. */
  function TildeSegment(s: string, pos: nat): (r: Reply<SegmentInfo>)
    requires pos <= |s|
    ensures WellFormed(s, pos, r)
    ensures r.Ok? ==> r.consumed && StrictSegment(r.value) && s[pos] == '~'
    ensures r.Fail? ==> (r.consumed <==> pos < |s| && s[pos] == '~')
  {
    match Tilde(s, pos)
    case Fail(c) => Fail(c)
    case Ok(_, n1, c) => After(c, Segment(s, n1))
  }

  /** `Tilde.Then(Pattern)`: a `~` and the pattern segment after it. */
  function TildePattern(s: string, pos: nat): (r: Reply<SegmentInfo>)
    requires pos <= |s|
    ensures WellFormed(s, pos, r)
    ensures r.Ok? ==> r.consumed && PatternSegment(r.value) && s[pos] == '~'
    ensures r.Fail? ==> (r.consumed <==> pos < |s| && s[pos] == '~')
  {
    match Tilde(s, pos)
    case Fail(c) => Fail(c)
    case Ok(_, n1, c) => After(c, Pattern(s, n1))
  }

  /** The segment grammar of `form`. */
  function Element(form: Form): Parser<SegmentInfo> {
    if form == Strict then Segment else Pattern
  }

  /** A `~` and then the segment grammar of `form`. */
  function TildeElement(form: Form): Parser<SegmentInfo> {
    if form == Strict then TildeSegment else TildePattern
  }

  /** The segment parsers can be repeated, and produce segments of their form. */
  lemma ElementsProgress(form: Form, s: string)
    ensures Progresses(Element(form), s) && Progresses(TildeElement(form), s)
    ensures Yields(Element(form), s, seg => Fits(form, seg))
    ensures Yields(TildeElement(form), s, seg => Fits(form, seg))
    ensures Progresses(SegmentBeforeTilde, s) && Yields(SegmentBeforeTilde, s, seg => Fits(Strict, seg))
  {
  }

  /** `GtsPrefix.Then(Dot)`: the `gts.` every identifier starts with. */
  function GtsDot(s: string): (r: Reply<string>)
    ensures WellFormed(s, 0, r)
    ensures r.Ok? <==> TextAt(s, 0, "gts.")
    ensures r.Ok? ==> r.next == 4
  {
    assert "gts." == "gts" + ['.'];
    TextAtConcat(s, 0, "gts", ['.']);
    TextAtSingle(s, 3, '.');
    assert "gts" == ['g'] + (['t'] + (['s'] + []));
    TextAtCons(s, 0, 'g', "ts");
    TextAtCons(s, 1, 't', "s");
    TextAtCons(s, 2, 's', []);
    match GtsPrefix(s, 0)
    case Fail(c) => Fail(c)
    case Ok(prefix, n1, _) =>
      match Dot(s, n1)
      case Fail(_) => Fail(true)
      case Ok(_, n2, _) => Ok(prefix, n2, true)
  }

  /**
   * `element.SeparatedAtLeastOnce(Tilde)` after `gts.`, as `GtsInstanceId`
   * (strict segments) and `GtsPattern` (pattern segments) read it.
   */
  function SeparatedList(form: Form, s: string): (r: Reply<seq<SegmentInfo>>)
    ensures WellFormed(s, 0, r)
    ensures r.Ok? ==> TextAt(s, 0, "gts.") && |r.value| >= 1 && AllFit(form, r.value)
  {
    match GtsDot(s)
    case Fail(c) => Fail(c)
    case Ok(_, n1, _) =>
      ElementsProgress(form, s);
      match ThenMany(Element(form), TildeElement(form), s, n1)
      case Fail(_) => Fail(true)
      case Ok(segs, n2, _) =>
        ThenManyYields(Element(form), TildeElement(form), s, n1, seg => Fits(form, seg));
        Ok(segs, n2, true)
  }

  /**
   * `GtsTypeId`, parsed from the start of `s`: `gts.` and one or more strict
   * segments, each terminated by `~`.
   */
  function GtsTypeId(s: string): (r: Reply<IdentifierInfo>)
    ensures WellFormed(s, 0, r)
    ensures r.Ok? ==> TextAt(s, 0, "gts.") && r.value.IsType()
    ensures r.Ok? ==> |r.value.segments| >= 1 && AllFit(Strict, r.value.segments)
  {
    match GtsDot(s)
    case Fail(c) => Fail(c)
    case Ok(_, n1, _) =>
      ElementsProgress(Strict, s);
      match ThenMany(SegmentBeforeTilde, SegmentBeforeTilde, s, n1)
      case Fail(_) => Fail(true)
      case Ok(segs, n2, _) =>
        ThenManyYields(SegmentBeforeTilde, SegmentBeforeTilde, s, n1, seg => Fits(Strict, seg));
        Ok(IdentifierInfo(TypeKind, segs), n2, true)
  }

  /** `GtsInstanceId`, parsed from the start of `s`: `gts.` and one or more strict segments separated by `~`. */
  function GtsInstanceId(s: string): (r: Reply<IdentifierInfo>)
    ensures WellFormed(s, 0, r)
    ensures r.Ok? ==> TextAt(s, 0, "gts.") && r.value.IsInstance()
    ensures r.Ok? ==> |r.value.segments| >= 1 && AllFit(Strict, r.value.segments)
  {
    match SeparatedList(Strict, s)
    case Fail(c) => Fail(c)
    case Ok(segs, n, c) => Ok(IdentifierInfo(InstanceKind, segs), n, c)
  }

  /** `GtsPattern`, parsed from the start of `s`: `gts.` and one or more pattern segments separated by `~`. */
  function GtsPattern(s: string): (r: Reply<IdentifierInfo>)
    ensures WellFormed(s, 0, r)
    ensures r.Ok? ==> TextAt(s, 0, "gts.") && r.value.IsPattern()
    ensures r.Ok? ==> |r.value.segments| >= 1 && AllFit(Open, r.value.segments)
  {
    match SeparatedList(Open, s)
    case Fail(c) => Fail(c)
    case Ok(segs, n, c) => Ok(IdentifierInfo(PatternKind, segs), n, c)
  }
}

=== FILE: references.dfy ===
/**
 * `GtsExtract.ExtractReferences`: the depth-first walk that collects every
 * string in a JSON tree that passes as a GTS identifier, with its path, and
 * the set of keys that keeps it from recording a reference twice.
 */
module References {
  import opened Wrappers
  import opened Text
  import opened Json
  import opened GtsIds

  /** `GtsReference`: an identifier found in a document and the path it was found at. */
  datatype GtsReference = GtsReference(id: string, sourcePath: string)

  /** `IsValidGtsId`: the text is read by `TryParse` or by `TryParsePattern`. */
  predicate IsValidGtsId(s: string) {
    TryParse(s).Some? || TryParsePattern(s).Some?
  }

  /** Every valid identifier starts with `gts.`: it is never empty and its first `~`, if any, is not at 0. */
  lemma ValidIdStartsWithGts(s: string)
    requires IsValidGtsId(s)
    ensures |s| >= 4 && s[..4] == "gts."
  {
    TextAtSlice(s, 0, "gts.");
  }

  // ---------------------------------------------------------------------------
  // Paths
  // ---------------------------------------------------------------------------

  /** The path recorded for a reference: `root` for the document itself. */
  function SourcePath(path: string): (p: string)
    ensures |p| > 0
  {
    if |path| == 0 then "root" else path
  }

  /** The path of an object member: its key, after a `.` unless the object is the root. */
  function ChildPath(path: string, key: string): string {
    if |path| == 0 then key else path + "." + key
  }

  /** The path of an array element: its index in brackets. */
  function IndexPath(path: string, i: nat): string {
    var index := "[" + NatToString(i) + "]";
    if |path| == 0 then index else path + index
  }

  // ---------------------------------------------------------------------------
  // The walk
  // ---------------------------------------------------------------------------

  /** The key `WalkAndCollectRefs` records in its seen-set: `str + "|" + sourcePath`. */
  function RefKey(r: GtsReference): string {
    r.id + "|" + r.sourcePath
  }

  /** The references recorded so far and the keys of everything seen. */
  datatype Collected<K> = Collected(refs: seq<GtsReference>, seen: set<K>)

  /** `if (seen.Add(key)) refs.Add(r)`, for a key function `key`. */
  function Record<K(==)>(key: GtsReference -> K, acc: Collected<K>, r: GtsReference): Collected<K> {
    if key(r) in acc.seen then acc else Collected(acc.refs + [r], acc.seen + {key(r)})
  }

  /** A string leaf: recorded when it is a non-empty valid identifier, as it stands (it is not trimmed). */
  function Visit<K(==)>(key: GtsReference -> K, valid: string -> bool, str: string, path: string, acc: Collected<K>): Collected<K> {
    if |str| > 0 && valid(str) then Record(key, acc, GtsReference(str, SourcePath(path))) else acc
  }

  /**
   * `WalkAndCollectRefs`, with the dedupe key as a parameter: null is
   * skipped, a string is visited, members and elements are walked in order.
   * `GetValue<string>()` throws on a number or a boolean.
   */
  function Walk<K(==)>(key: GtsReference -> K, valid: string -> bool, node: Json, path: string, acc: Collected<K>): Result<Collected<K>>
    decreases Size(node), 0
  {
    match node
    case JNull => Success(acc)
    case JString(str) => Success(Visit(key, valid, str, path, acc))
    case JNumber(_) => Failure(InvalidOperation)
    case JBool(_) => Failure(InvalidOperation)
    case JObject(members) => WalkMembers(key, valid, members, path, acc)
    case JArray(items) => WalkItems(key, valid, items, 0, path, acc)
  }

  function WalkMembers<K(==)>(key: GtsReference -> K, valid: string -> bool, members: seq<Member>, path: string, acc: Collected<K>): Result<Collected<K>>
    decreases MembersSize(members), 1
  {
    if |members| == 0 then Success(acc)
    else
      var next :- Walk(key, valid, members[0].value, ChildPath(path, members[0].key), acc);
      WalkMembers(key, valid, members[1..], path, next)
  }

  /** The elements from index `i` on, `items` being what is left of the array. */
  function WalkItems<K(==)>(key: GtsReference -> K, valid: string -> bool, items: seq<Json>, i: nat, path: string, acc: Collected<K>): Result<Collected<K>>
    decreases ItemsSize(items), 1
  {
    if |items| == 0 then Success(acc)
    else
      var next :- Walk(key, valid, items[0], IndexPath(path, i), acc);
      WalkItems(key, valid, items[1..], i + 1, path, next)
  }

  /** The walk from the root with a key function, as `ExtractReferences` starts it. */
  function CollectReferences<K(==)>(key: GtsReference -> K, valid: string -> bool, node: Option<Json>): Result<seq<GtsReference>> {
    match node
    case None => Success([])
    case Some(root) =>
      var collected :- Walk(key, valid, root, "", Collected([], {}));
      Success(collected.refs)
  }

  /**
   * `ExtractReferences` as written: deduplicated on `RefKey`. It keeps one
   * occurrence per key, and has a reference for every key it saw.
   */
  function ExtractReferences(node: Option<Json>): (r: Result<seq<GtsReference>>)
    ensures r.Success? <==> node.None? || StringsOnly(node.value)
    ensures node.None? ==> r == Success([])
    ensures r.Success? && node.Some? ==>
      var occurrences := Occurrences(IsValidGtsId, node.value, "");
      && (forall x | x in r.value :: x in occurrences)
      && Keys(RefKey, r.value) == Keys(RefKey, occurrences)
      && forall i, j | 0 <= i < j < |r.value| :: RefKey(r.value[i]) != RefKey(r.value[j])
  {
    CollectReferencesMeans(RefKey, IsValidGtsId, node);
    FirstKeyedKeeps(RefKey, if node.Some? then Occurrences(IsValidGtsId, node.value, "") else []);
    CollectReferences(RefKey, IsValidGtsId, node)
  }

  /**
   * `ExtractReferences` deduplicated on the reference itself: a reference
   * is dropped only when it was recorded before, so every occurrence is
   * reported exactly once.
   */
  function ExtractReferencesCorrected(node: Option<Json>): (r: Result<seq<GtsReference>>)
    ensures r.Success? <==> node.None? || StringsOnly(node.value)
    ensures node.None? ==> r == Success([])
    ensures r.Success? && node.Some? ==>
      && (forall x :: x in r.value <==> x in Occurrences(IsValidGtsId, node.value, ""))
      && forall i, j | 0 <= i < j < |r.value| :: r.value[i] != r.value[j]
  {
    CollectReferencesMeans(Identity, IsValidGtsId, node);
    FirstOccurrences(if node.Some? then Occurrences(IsValidGtsId, node.value, "") else []);
    CollectReferences(Identity, IsValidGtsId, node)
  }

  function Identity(r: GtsReference): GtsReference {
    r
  }

  // ---------------------------------------------------------------------------
  // What the walk sees
  // ---------------------------------------------------------------------------

  /** The tree holds no number and no boolean: the walk reaches its end. */
  predicate StringsOnly(node: Json)
    decreases Size(node), 0
  {
    match node
    case JNumber(_) => false
    case JBool(_) => false
    case JObject(members) => MembersStringsOnly(members)
    case JArray(items) => ItemsStringsOnly(items)
    case _ => true
  }

  predicate MembersStringsOnly(members: seq<Member>)
    decreases MembersSize(members), 1
  {
    |members| > 0 ==> StringsOnly(members[0].value) && MembersStringsOnly(members[1..])
  }

  predicate ItemsStringsOnly(items: seq<Json>)
    decreases ItemsSize(items), 1
  {
    |items| > 0 ==> StringsOnly(items[0]) && ItemsStringsOnly(items[1..])
  }

  /** Every valid identifier among the string leaves, with its source path, in depth-first order, repeats included. */
  function Occurrences(valid: string -> bool, node: Json, path: string): (occ: seq<GtsReference>)
    decreases Size(node), 0
  {
    match node
    case JString(str) => if |str| > 0 && valid(str) then [GtsReference(str, SourcePath(path))] else []
    case JObject(members) => MemberOccurrences(valid, members, path)
    case JArray(items) => ItemOccurrences(valid, items, 0, path)
    case _ => []
  }

  function MemberOccurrences(valid: string -> bool, members: seq<Member>, path: string): seq<GtsReference>
    decreases MembersSize(members), 1
  {
    if |members| == 0 then []
    else Occurrences(valid, members[0].value, ChildPath(path, members[0].key)) + MemberOccurrences(valid, members[1..], path)
  }

  function ItemOccurrences(valid: string -> bool, items: seq<Json>, i: nat, path: string): seq<GtsReference>
    decreases ItemsSize(items), 1
  {
    if |items| == 0 then []
    else Occurrences(valid, items[0], IndexPath(path, i)) + ItemOccurrences(valid, items[1..], i + 1, path)
  }

  /** Every occurrence names a string the oracle accepts, at a non-empty path. */
  lemma {:induction false} OccurrencesValid(valid: string -> bool, node: Json, path: string)
    ensures forall j | 0 <= j < |Occurrences(valid, node, path)| ::
      valid(Occurrences(valid, node, path)[j].id) && |Occurrences(valid, node, path)[j].sourcePath| > 0
    decreases Size(node), 0
  {
    match node
    case JObject(members) => MemberOccurrencesValid(valid, members, path);
    case JArray(items) => ItemOccurrencesValid(valid, items, 0, path);
    case _ =>
  }

  lemma {:induction false} MemberOccurrencesValid(valid: string -> bool, members: seq<Member>, path: string)
    ensures forall j | 0 <= j < |MemberOccurrences(valid, members, path)| ::
      valid(MemberOccurrences(valid, members, path)[j].id) && |MemberOccurrences(valid, members, path)[j].sourcePath| > 0
    decreases MembersSize(members), 1
  {
    if |members| > 0 {
      OccurrencesValid(valid, members[0].value, ChildPath(path, members[0].key));
      MemberOccurrencesValid(valid, members[1..], path);
    }
  }

  lemma {:induction false} ItemOccurrencesValid(valid: string -> bool, items: seq<Json>, i: nat, path: string)
    ensures forall j | 0 <= j < |ItemOccurrences(valid, items, i, path)| ::
      valid(ItemOccurrences(valid, items, i, path)[j].id) && |ItemOccurrences(valid, items, i, path)[j].sourcePath| > 0
    decreases ItemsSize(items), 1
  {
    if |items| > 0 {
      OccurrencesValid(valid, items[0], IndexPath(path, i));
      ItemOccurrencesValid(valid, items[1..], i + 1, path);
    }
  }

  // ---------------------------------------------------------------------------
  // The walk is a fold over the occurrences
  // ---------------------------------------------------------------------------

  /** `Record` applied to each reference in turn. */
  function RecordAll<K(==)>(key: GtsReference -> K, acc: Collected<K>, refs: seq<GtsReference>): Collected<K>
    decreases |refs|
  {
    if |refs| == 0 then acc else RecordAll(key, Record(key, acc, refs[0]), refs[1..])
  }

  lemma {:induction false} RecordAllAppend<K>(key: GtsReference -> K, acc: Collected<K>, a: seq<GtsReference>, b: seq<GtsReference>)
    ensures RecordAll(key, acc, a + b) == RecordAll(key, RecordAll(key, acc, a), b)
    decreases |a|
  {
    if |a| == 0 {
      assert a + b == b;
    } else {
      assert (a + b)[1..] == a[1..] + b;
      RecordAllAppend(key, Record(key, acc, a[0]), a[1..], b);
    }
  }

  /**
   * The walk fails exactly when the tree holds a number or a boolean;
   * otherwise it records the occurrences in depth-first order, one by one.
   */
  lemma {:induction false} WalkIsRecordAll<K>(key: GtsReference -> K, valid: string -> bool, node: Json, path: string, acc: Collected<K>)
    ensures Walk(key, valid, node, path, acc) ==
      if StringsOnly(node) then Success(RecordAll(key, acc, Occurrences(valid, node, path))) else Failure(InvalidOperation)
    decreases Size(node), 0
  {
    match node
    case JObject(members) => WalkMembersIsRecordAll(key, valid, members, path, acc);
    case JArray(items) => WalkItemsIsRecordAll(key, valid, items, 0, path, acc);
    case JString(str) =>
      var occ := Occurrences(valid, node, path);
      if |occ| > 0 {
        assert occ[1..] == [];
      }
    case _ =>
  }

  lemma {:induction false} WalkMembersIsRecordAll<K>(key: GtsReference -> K, valid: string -> bool, members: seq<Member>, path: string, acc: Collected<K>)
    ensures WalkMembers(key, valid, members, path, acc) ==
      if MembersStringsOnly(members) then Success(RecordAll(key, acc, MemberOccurrences(valid, members, path))) else Failure(InvalidOperation)
    decreases MembersSize(members), 1
  {
    if |members| > 0 {
      var childPath := ChildPath(path, members[0].key);
      WalkIsRecordAll(key, valid, members[0].value, childPath, acc);
      if StringsOnly(members[0].value) {
        var next := RecordAll(key, acc, Occurrences(valid, members[0].value, childPath));
        WalkMembersIsRecordAll(key, valid, members[1..], path, next);
        RecordAllAppend(key, acc, Occurrences(valid, members[0].value, childPath), MemberOccurrences(valid, members[1..], path));
      }
    }
  }

  lemma {:induction false} WalkItemsIsRecordAll<K>(key: GtsReference -> K, valid: string -> bool, items: seq<Json>, i: nat, path: string, acc: Collected<K>)
    ensures WalkItems(key, valid, items, i, path, acc) ==
      if ItemsStringsOnly(items) then Success(RecordAll(key, acc, ItemOccurrences(valid, items, i, path))) else Failure(InvalidOperation)
    decreases ItemsSize(items), 1
  {
    if |items| > 0 {
      var childPath := IndexPath(path, i);
      WalkIsRecordAll(key, valid, items[0], childPath, acc);
      if StringsOnly(items[0]) {
        var next := RecordAll(key, acc, Occurrences(valid, items[0], childPath));
        WalkItemsIsRecordAll(key, valid, items[1..], i + 1, path, next);
        RecordAllAppend(key, acc, Occurrences(valid, items[0], childPath), ItemOccurrences(valid, items[1..], i + 1, path));
      }
    }
  }

  // ---------------------------------------------------------------------------
  // What the fold keeps
  // ---------------------------------------------------------------------------

  /** The keys of a list of references. */
  function Keys<K>(key: GtsReference -> K, refs: seq<GtsReference>): set<K> {
    set r | r in refs :: key(r)
  }

  /** Each reference whose key no earlier reference has, in order: defined from the back of the list. */
  function FirstKeyed<K(==)>(key: GtsReference -> K, refs: seq<GtsReference>): seq<GtsReference>
    decreases |refs|
  {
    if |refs| == 0 then []
    else
      var init := refs[..|refs| - 1];
      var last := refs[|refs| - 1];
      FirstKeyed(key, init) + (if key(last) in Keys(key, init) then [] else [last])
  }

  /** From nothing, the fold keeps `FirstKeyed` and has seen every key. */
  lemma {:induction false} RecordAllFromEmpty<K>(key: GtsReference -> K, refs: seq<GtsReference>)
    ensures RecordAll(key, Collected([], {}), refs) == Collected(FirstKeyed(key, refs), Keys(key, refs))
    decreases |refs|
  {
    if |refs| > 0 {
      var init := refs[..|refs| - 1];
      var last := refs[|refs| - 1];
      RecordAllFromEmpty(key, init);
      assert refs == init + [last];
      RecordAllAppend(key, Collected([], {}), init, [last]);
      assert [last][1..] == [];
      assert Keys(key, refs) == Keys(key, init) + {key(last)};
    }
  }

  /**
   * The walk from the root fails exactly when the tree holds a number or a
   * boolean; otherwise it yields, for each key, the first occurrence with
   * that key, in depth-first order.
   */
  lemma CollectReferencesMeans<K>(key: GtsReference -> K, valid: string -> bool, node: Option<Json>)
    ensures node.None? ==> CollectReferences(key, valid, node) == Success([])
    ensures node.Some? && !StringsOnly(node.value) ==> CollectReferences(key, valid, node) == Failure(InvalidOperation)
    ensures node.Some? && StringsOnly(node.value) ==>
      CollectReferences(key, valid, node) == Success(FirstKeyed(key, Occurrences(valid, node.value, "")))
  {
    if node.Some? {
      WalkIsRecordAll(key, valid, node.value, "", Collected([], {}));
      RecordAllFromEmpty(key, Occurrences(valid, node.value, ""));
    }
  }

  /** `FirstKeyed` keeps only references of the list, one per key, and has a reference for every key. */
  lemma {:induction false} FirstKeyedKeeps<K>(key: GtsReference -> K, refs: seq<GtsReference>)
    ensures forall r | r in FirstKeyed(key, refs) :: r in refs
    ensures Keys(key, FirstKeyed(key, refs)) == Keys(key, refs)
    ensures forall i, j | 0 <= i < j < |FirstKeyed(key, refs)| :: key(FirstKeyed(key, refs)[i]) != key(FirstKeyed(key, refs)[j])
    decreases |refs|
  {
    if |refs| > 0 {
      var init := refs[..|refs| - 1];
      var last := refs[|refs| - 1];
      FirstKeyedKeeps(key, init);
      assert refs == init + [last];
      var kept := FirstKeyed(key, init);
      var out := FirstKeyed(key, refs);
      assert Keys(key, refs) == Keys(key, init) + {key(last)};
      if key(last) !in Keys(key, init) {
        assert out == kept + [last];
        assert Keys(key, out) == Keys(key, kept) + {key(last)};
        forall i, j | 0 <= i < j < |out| ensures key(out[i]) != key(out[j]) {
          if j == |kept| {
            assert out[i] == kept[i];
            assert key(kept[i]) in Keys(key, kept);
          }
        }
      }
    }
  }

  /** With the reference itself as the key: no reference twice, and every occurrence kept. */
  lemma FirstOccurrences(refs: seq<GtsReference>)
    ensures forall r :: r in FirstKeyed(Identity, refs) <==> r in refs
    ensures forall i, j | 0 <= i < j < |FirstKeyed(Identity, refs)| :: FirstKeyed(Identity, refs)[i] != FirstKeyed(Identity, refs)[j]
  {
    FirstKeyedKeeps(Identity, refs);
    forall r | r in refs ensures r in FirstKeyed(Identity, refs) {
      assert Identity(r) in Keys(Identity, refs);
    }
  }

  /** Where the key tells references apart, deduplicating on the key is deduplicating on the reference. */
  lemma {:induction false} FirstKeyedInjective<K>(key: GtsReference -> K, refs: seq<GtsReference>)
    requires forall a, b | a in refs && b in refs :: key(a) == key(b) ==> a == b
    ensures FirstKeyed(key, refs) == FirstKeyed(Identity, refs)
    decreases |refs|
  {
    if |refs| > 0 {
      var init := refs[..|refs| - 1];
      var last := refs[|refs| - 1];
      FirstKeyedInjective(key, init);
      assert key(last) in Keys(key, init) <==> Identity(last) in Keys(Identity, init);
    }
  }

  /** `RefKey` tells apart any two references whose identifiers hold no `|`. */
  lemma RefKeyInjective(a: GtsReference, b: GtsReference)
    requires '|' !in a.id && '|' !in b.id && RefKey(a) == RefKey(b)
    ensures a == b
  {
    var ka := RefKey(a);
    assert ka[|a.id|] == '|' && ka[..|a.id|] == a.id;
    IndexOfIs(ka, '|', |a.id|);
    var kb := RefKey(b);
    assert kb[|b.id|] == '|' && kb[..|b.id|] == b.id;
    IndexOfIs(kb, '|', |b.id|);
    assert a.id == b.id;
    assert a.sourcePath == ka[|a.id| + 1..];
    assert b.sourcePath == kb[|b.id| + 1..];
  }

  /** When no identifier in the tree holds a `|`, the walk as written records what the corrected one records. */
  lemma ExtractReferencesAgree(node: Json)
    requires forall r | r in Occurrences(IsValidGtsId, node, "") :: '|' !in r.id
    ensures ExtractReferences(Some(node)) == ExtractReferencesCorrected(Some(node))
  {
    CollectReferencesMeans(RefKey, IsValidGtsId, Some(node));
    CollectReferencesMeans(Identity, IsValidGtsId, Some(node));
    var occ := Occurrences(IsValidGtsId, node, "");
    forall a, b | a in occ && b in occ && RefKey(a) == RefKey(b) ensures a == b {
      RefKeyInjective(a, b);
    }
    FirstKeyedInjective(RefKey, occ);
  }

  // ---------------------------------------------------------------------------
  // Two references with one key
  // ---------------------------------------------------------------------------

  /** A document with an identifier `t` under the key `x|y` and `t + "|x"` under the key `y`. */
  function CollidingDocument(t: string): Json {
    JObject([Member("x|y", JString(t)), Member("y", JString(t + "|x"))])
  }

  lemma CollidingOccurrences(valid: string -> bool, t: string)
    requires |t| > 0 && valid(t) && valid(t + "|x")
    ensures StringsOnly(CollidingDocument(t))
    ensures Occurrences(valid, CollidingDocument(t), "") == [GtsReference(t, "x|y"), GtsReference(t + "|x", "y")]
  {
    var members := [Member("x|y", JString(t)), Member("y", JString(t + "|x"))];
    var rest := members[1..];
    assert rest[1..] == [];
    assert MembersStringsOnly(rest[1..]) && MemberOccurrences(valid, rest[1..], "") == [];
    assert ChildPath("", "y") == "y" && ChildPath("", "x|y") == "x|y";
    assert Occurrences(valid, rest[0].value, "y") == [GtsReference(t + "|x", "y")];
    assert MemberOccurrences(valid, rest, "") == [GtsReference(t + "|x", "y")];
    assert Occurrences(valid, members[0].value, "x|y") == [GtsReference(t, "x|y")];
    assert MembersStringsOnly(rest);
  }

  /** Two references: the second is kept exactly when its key differs from the first's. */
  lemma FirstKeyedPair<K>(key: GtsReference -> K, a: GtsReference, b: GtsReference)
    ensures FirstKeyed(key, [a, b]) == if key(a) == key(b) then [a] else [a, b]
  {
    assert [a, b][..1] == [a] && [a][..0] == [];
    assert Keys(key, []) == {};
    assert FirstKeyed(key, [a]) == [a];
    assert Keys(key, [a]) == {key(a)};
    assert key(b) in Keys(key, [a]) <==> key(b) == key(a);
  }

  /** Whatever the oracle, the key `t|x|y` is shared, so the walk as written keeps one reference where there are two. */
  lemma KeyCollision(valid: string -> bool, t: string)
    requires |t| > 0 && valid(t) && valid(t + "|x")
    ensures CollectReferences(RefKey, valid, Some(CollidingDocument(t))) == Success([GtsReference(t, "x|y")])
    ensures CollectReferences(Identity, valid, Some(CollidingDocument(t))) ==
      Success([GtsReference(t, "x|y"), GtsReference(t + "|x", "y")])
  {
    var a := GtsReference(t, "x|y");
    var b := GtsReference(t + "|x", "y");
    CollidingOccurrences(valid, t);
    CollectReferencesMeans(RefKey, valid, Some(CollidingDocument(t)));
    CollectReferencesMeans(Identity, valid, Some(CollidingDocument(t)));
    assert RefKey(a) == RefKey(b);
    FirstKeyedPair(RefKey, a, b);
    assert a != b by {
      assert |a.id| != |b.id|;
    }
    FirstKeyedPair(Identity, a, b);
  }

  /** The text of an instance identifier is valid, and so is that text followed by `|x`. */
  lemma InstanceIdsValid(segs: seq<Parsers.SegmentInfo>)
    requires |segs| >= 1 && Parsers.AllFit(Parsers.Strict, segs)
    ensures var t := ParserProperties.InstanceIdText(segs);
            |t| > 0 && IsValidGtsId(t) && IsValidGtsId(t + "|x")
  {
    var t := ParserProperties.InstanceIdText(segs);
    InstanceTextParses(segs, []);
    EmptyRest(t);
    ParsedIsValid(t);
    BarEndsList();
    InstanceTextParses(segs, "|x");
    ParsedIsValid(t + "|x");
  }

  lemma InstanceTextParses(segs: seq<Parsers.SegmentInfo>, rest: string)
    requires |segs| >= 1 && Parsers.AllFit(Parsers.Strict, segs)
    requires EndsList(rest) && !EndsWith(rest, '~')
    ensures TryParse(ParserProperties.InstanceIdText(segs) + rest).Some?
  {
    TryParseInstanceText(segs, rest);
  }

  /** `|` cannot continue an identifier's list. */
  lemma BarEndsList()
    ensures EndsList("|x") && !EndsWith("|x", '~')
  {
  }

  lemma EmptyRest(t: string)
    ensures t + [] == t
  {
  }

  lemma ParsedIsValid(s: string)
    requires TryParse(s).Some?
    ensures IsValidGtsId(s)
  {
  }

  /**
   * As written, the second reference of `CollidingDocument` is dropped when
   * `t` is the text of an instance identifier: `t` and `t|x` are both valid,
   * since the instance grammar reads `t` and stops at the `|`.
   */
  lemma KeyCollisionDropsReference(segs: seq<Parsers.SegmentInfo>)
    requires |segs| >= 1 && Parsers.AllFit(Parsers.Strict, segs)
    ensures var t := ParserProperties.InstanceIdText(segs);
            && ExtractReferences(Some(CollidingDocument(t))) == Success([GtsReference(t, "x|y")])
            && ExtractReferencesCorrected(Some(CollidingDocument(t))) == Success([GtsReference(t, "x|y"), GtsReference(t + "|x", "y")])
  {
    InstanceIdsValid(segs);
    KeyCollision(IsValidGtsId, ParserProperties.InstanceIdText(segs));
  }
}

=== FILE: text.dfy ===
/**
 * The handful of .NET string and character operations the GTS code relies on
 * (`char.IsWhiteSpace`, `Trim`, `IndexOf`, `LastIndexOf`, `Split`, `Count`,
 * `Int32.ToString`, `int.Parse`), each given a definition and a contract that
 * says what it computes. Comparisons are ordinal.
 */
module Text {
  import opened Wrappers

  // ---------------------------------------------------------------------------
  // Character classes
  // ---------------------------------------------------------------------------

  predicate IsDigit(c: char) {
    '0' <= c <= '9'
  }

  predicate IsLowerAscii(c: char) {
    'a' <= c <= 'z'
  }

  /** First character of a GTS identifier token: `_` or `a`..`z`. */
  predicate IsIdentifierStart(c: char) {
    c == '_' || IsLowerAscii(c)
  }

  /** Later characters of a GTS identifier token: `_`, `a`..`z` or `0`..`9`. */
  predicate IsIdentifierRest(c: char) {
    IsIdentifierStart(c) || IsDigit(c)
  }

  /** The regular language `[_a-z][_a-z0-9]*`. */
  predicate IsIdentifierToken(t: string) {
    && |t| >= 1
    && IsIdentifierStart(t[0])
    && forall i | 1 <= i < |t| :: IsIdentifierRest(t[i])
  }

  /**
   * `char.IsWhiteSpace`: the Unicode space, line and paragraph separators,
   * U+0009..U+000D and U+0085.
   */
  predicate IsWhiteSpace(c: char) {
    var n := c as int;
    || 0x09 <= n <= 0x0D
    || n == 0x20 || n == 0x85 || n == 0xA0 || n == 0x1680
    || 0x2000 <= n <= 0x200A
    || n == 0x2028 || n == 0x2029 || n == 0x202F || n == 0x205F || n == 0x3000
  }

  /** `string.IsNullOrWhiteSpace` on a non-null string (the empty string included). */
  predicate AllWhiteSpace(s: string) {
    forall i | 0 <= i < |s| :: IsWhiteSpace(s[i])
  }

  predicate AllDigits(s: string) {
    forall i | 0 <= i < |s| :: IsDigit(s[i])
  }

  // ---------------------------------------------------------------------------
  // Sequences
  // ---------------------------------------------------------------------------

  /** A sequence is its element at `i` followed by what comes after it. */
  lemma ConsAt<T>(xs: seq<T>, i: nat)
    requires i < |xs|
    ensures [xs[i]] + xs[i + 1..] == xs[i..]
  {
  }

  /** A non-empty sequence is its first element followed by the rest. */
  lemma HeadTail<T>(xs: seq<T>)
    requires |xs| > 0
    ensures [xs[0]] + xs[1..] == xs
  {
  }

  // ---------------------------------------------------------------------------
  // Prefixes, suffixes, searching and counting
  // ---------------------------------------------------------------------------

  /** Ordinal `s.StartsWith(prefix)`. */
  predicate StartsWith(s: string, prefix: string) {
    prefix <= s
  }

  /** Ordinal `s.EndsWith(c)`. */
  predicate EndsWith(s: string, c: char) {
    |s| > 0 && s[|s| - 1] == c
  }

  /** `s.Count(x => x == c)`. */
  function CountChar(s: string, c: char): (n: nat)
    ensures n <= |s|
    ensures n == 0 <==> c !in s
  {
    if |s| == 0 then 0
    else (if s[0] == c then 1 else 0) + CountChar(s[1..], c)
  }

  lemma {:induction false} CountCharAppend(a: string, b: string, c: char)
    ensures CountChar(a + b, c) == CountChar(a, c) + CountChar(b, c)
    decreases |a|
  {
    if |a| == 0 {
      assert a + b == b;
    } else {
      assert (a + b)[1..] == a[1..] + b;
      CountCharAppend(a[1..], b, c);
    }
  }

  /** `s.IndexOf(c)`: the first position of `c`, or -1. */
  function IndexOf(s: string, c: char): (r: int)
    ensures -1 <= r < |s|
    ensures r == -1 <==> c !in s
    ensures r >= 0 ==> s[r] == c && c !in s[..r]
  {
    if |s| == 0 then -1
    else if s[0] == c then 0
    else
      var k := IndexOf(s[1..], c);
      if k < 0 then -1
      else
        assert s[..k + 1] == [s[0]] + s[1..][..k];
        k + 1
  }

  /** `s.LastIndexOf(c)`: the last position of `c`, or -1. */
  function LastIndexOf(s: string, c: char): (r: int)
    ensures -1 <= r < |s|
    ensures r >= 0 ==> s[r] == c
    ensures forall i | r < i < |s| :: s[i] != c
  {
    if |s| == 0 then -1
    else if s[|s| - 1] == c then |s| - 1
    else LastIndexOf(s[..|s| - 1], c)
  }

  /** `LastIndexOf` reports -1 exactly when the character does not occur. */
  lemma LastIndexOfAbsent(s: string, c: char)
    ensures LastIndexOf(s, c) == -1 <==> c !in s
  {
  }

  /** The position where `c` first occurs is the one `IndexOf` reports. */
  lemma IndexOfIs(s: string, c: char, j: nat)
    requires j < |s| && s[j] == c && c !in s[..j]
    ensures IndexOf(s, c) == j
  {
    var k := IndexOf(s, c);
    forall i | 0 <= i < j
      ensures s[i] != c
    {
      assert s[..j][i] == s[i];
    }
    forall i | 0 <= i < k
      ensures s[i] != c
    {
      assert s[..k][i] == s[i];
    }
  }

  /**
   * `IndexOf` finds a second occurrence after the first exactly when the
   * character occurs at least twice.
   */
  lemma {:induction false} SecondOccurrence(s: string, c: char)
    requires c in s
    ensures IndexOf(s[IndexOf(s, c) + 1..], c) >= 0 <==> CountChar(s, c) >= 2
  {
    var k := IndexOf(s, c);
    assert s == s[..k] + [c] + s[k + 1..];
    CountCharAppend(s[..k] + [c], s[k + 1..], c);
    CountCharAppend(s[..k], [c], c);
    assert CountChar([c], c) == 1 by {
      assert [c][1..] == [];
    }
  }

  /**
   * `t` occurs in `s` starting at position `pos`. Stated one character at a
   * time, so that the solver looks only as deep as a proof asks it to.
   */
  predicate TextAt(s: string, pos: nat, t: string)
    decreases |t|
  {
    if |t| == 0 then pos <= |s|
    else pos < |s| && s[pos] == t[0] && TextAt(s, pos + 1, t[1..])
  }

  lemma {:induction false} TextAtBounds(s: string, pos: nat, t: string)
    requires TextAt(s, pos, t)
    ensures pos + |t| <= |s|
    decreases |t|
  {
    if |t| > 0 {
      TextAtBounds(s, pos + 1, t[1..]);
    }
  }

  lemma {:induction false} TextAtIndex(s: string, pos: nat, t: string, i: nat)
    requires TextAt(s, pos, t) && i < |t|
    ensures pos + i < |s| && s[pos + i] == t[i]
    decreases i
  {
    if i > 0 {
      TextAtIndex(s, pos + 1, t[1..], i - 1);
    }
  }

  lemma TextAtSlice(s: string, pos: nat, t: string)
    requires TextAt(s, pos, t)
    ensures pos + |t| <= |s| && s[pos..pos + |t|] == t
  {
    TextAtBounds(s, pos, t);
    forall i | 0 <= i < |t|
      ensures s[pos..pos + |t|][i] == t[i]
    {
      TextAtIndex(s, pos, t, i);
    }
  }

  /** Every piece of a string occurs where it was taken from. */
  lemma {:induction false} TextAtOwnSlice(s: string, pos: nat, end: nat)
    requires pos <= end <= |s|
    ensures TextAt(s, pos, s[pos..end])
    decreases end - pos
  {
    if pos < end {
      TextAtOwnSlice(s, pos + 1, end);
      assert s[pos..end][1..] == s[pos + 1..end];
    }
  }

  /** Text made of two parts occurs exactly where both parts occur one after the other. */
  lemma {:induction false} TextAtConcat(s: string, pos: nat, a: string, b: string)
    ensures TextAt(s, pos, a + b) <==> TextAt(s, pos, a) && TextAt(s, pos + |a|, b)
    decreases |a|
  {
    if |a| == 0 {
      assert a + b == b;
      if TextAt(s, pos, b) {
        TextAtBounds(s, pos, b);
      }
    } else {
      assert (a + b)[1..] == a[1..] + b;
      TextAtConcat(s, pos + 1, a[1..], b);
    }
  }

  lemma TextAtSingle(s: string, pos: nat, c: char)
    ensures TextAt(s, pos, [c]) <==> pos < |s| && s[pos] == c
  {
    assert [c][1..] == [];
  }

  /** Text occurs at `pos` when its first character is there and the rest follows it. */
  lemma TextAtCons(s: string, pos: nat, c: char, t: string)
    ensures TextAt(s, pos, [c] + t) <==> pos < |s| && s[pos] == c && TextAt(s, pos + 1, t)
  {
    assert ([c] + t)[1..] == t;
  }

  /** Text made of two parts occurs at `pos` when the first occurs there and the second at `k`, right after it. */
  lemma TextAtSplit(s: string, pos: nat, a: string, b: string, k: nat)
    requires TextAt(s, pos, a + b) && k == pos + |a|
    ensures TextAt(s, pos, a) && TextAt(s, k, b)
  {
    TextAtConcat(s, pos, a, b);
  }

  /** The first character of text occurring at `pos`, and where the rest occurs. */
  lemma TextAtHead(s: string, pos: nat, c: char, t: string)
    requires TextAt(s, pos, [c] + t)
    ensures pos < |s| && s[pos] == c && TextAt(s, pos + 1, t)
  {
    TextAtCons(s, pos, c, t);
  }

  /** The pieces written one after the other. */
  function Concat(pieces: seq<string>): string {
    if |pieces| == 0 then [] else pieces[0] + Concat(pieces[1..])
  }

  lemma {:induction false} ConcatAppend(a: seq<string>, b: seq<string>)
    ensures Concat(a + b) == Concat(a) + Concat(b)
    decreases |a|
  {
    if |a| == 0 {
      assert a + b == b;
    } else {
      assert (a + b)[1..] == a[1..] + b;
      ConcatAppend(a[1..], b);
    }
  }

  /** The last character of the pieces written one after the other is the last character of the last piece. */
  lemma ConcatLast(pieces: seq<string>)
    requires |pieces| > 0 && |pieces[|pieces| - 1]| > 0
    ensures var all := Concat(pieces);
            var last := pieces[|pieces| - 1];
            |all| > 0 && all[|all| - 1] == last[|last| - 1]
  {
    var n := |pieces|;
    var last := pieces[n - 1];
    assert pieces == pieces[..n - 1] + [last];
    ConcatAppend(pieces[..n - 1], [last]);
    assert [last][1..] == [];
    assert Concat([last]) == last + Concat([]);
  }

  /** Where each piece starts, and where the last one ends, when the pieces are written from `base` on. */
  function Offsets(pieces: seq<string>, base: nat): (starts: seq<nat>)
    ensures |starts| == |pieces| + 1
  {
    seq(|pieces| + 1, j requires 0 <= j <= |pieces| => base + |Concat(pieces[..j])|)
  }

  lemma OffsetsEnds(pieces: seq<string>, base: nat)
    ensures Offsets(pieces, base)[0] == base
    ensures Offsets(pieces, base)[|pieces|] == base + |Concat(pieces)|
  {
    assert pieces[..0] == [];
    assert pieces[..|pieces|] == pieces;
  }

  /** Each piece ends where the next one starts. */
  lemma OffsetsStep(pieces: seq<string>, base: nat, j: nat)
    requires j < |pieces|
    ensures Offsets(pieces, base)[j + 1] == Offsets(pieces, base)[j] + |pieces[j]|
  {
    assert pieces[..j + 1] == pieces[..j] + [pieces[j]];
    ConcatAppend(pieces[..j], [pieces[j]]);
    assert [pieces[j]][1..] == [];
  }

  /** When the pieces occur from `base` on, each one occurs where `Offsets` puts it. */
  lemma PieceAt(s: string, base: nat, pieces: seq<string>, j: nat)
    requires TextAt(s, base, Concat(pieces)) && j < |pieces|
    ensures TextAt(s, Offsets(pieces, base)[j], pieces[j])
  {
    var before := pieces[..j];
    var after := pieces[j + 1..];
    assert pieces == before + ([pieces[j]] + after);
    ConcatAppend(before, [pieces[j]] + after);
    assert ([pieces[j]] + after)[1..] == after;
    TextAtConcat(s, base, Concat(before), pieces[j] + Concat(after));
    TextAtConcat(s, base + |Concat(before)|, pieces[j], Concat(after));
  }

  /** Every piece of text occurring at `base` starts and ends inside `s`. */
  lemma OffsetsWithin(s: string, base: nat, pieces: seq<string>)
    requires TextAt(s, base, Concat(pieces))
    ensures forall j | 0 <= j <= |pieces| :: Offsets(pieces, base)[j] <= |s|
  {
    OffsetsEnds(pieces, base);
    TextAtBounds(s, base, Concat(pieces));
    forall j | 0 <= j < |pieces|
      ensures Offsets(pieces, base)[j] <= |s|
    {
      PieceAt(s, base, pieces, j);
      TextAtBounds(s, Offsets(pieces, base)[j], pieces[j]);
    }
  }

  /** A string occurs at the start of anything it begins. */
  lemma TextAtStart(a: string, b: string)
    ensures TextAt(a + b, 0, a)
  {
    TextAtOwnSlice(a + b, 0, |a|);
    assert (a + b)[0..|a|] == a;
  }

  // ---------------------------------------------------------------------------
  // Trimming
  // ---------------------------------------------------------------------------

  /** The number of white-space characters `TrimStart` removes. */
  function LeadingWhiteSpace(s: string): (k: nat)
    ensures k <= |s|
    ensures forall i | 0 <= i < k :: IsWhiteSpace(s[i])
    ensures k < |s| ==> !IsWhiteSpace(s[k])
  {
    if |s| > 0 && IsWhiteSpace(s[0]) then 1 + LeadingWhiteSpace(s[1..]) else 0
  }

  /** The number of white-space characters `TrimEnd` removes. */
  function TrailingWhiteSpace(s: string): (k: nat)
    ensures k <= |s|
    ensures forall i | |s| - k <= i < |s| :: IsWhiteSpace(s[i])
    ensures k < |s| ==> !IsWhiteSpace(s[|s| - k - 1])
  {
    if |s| > 0 && IsWhiteSpace(s[|s| - 1]) then 1 + TrailingWhiteSpace(s[..|s| - 1]) else 0
  }

  /** `string.Trim()`: white space removed from both ends. */
  function Trim(s: string): (r: string)
    ensures |r| == 0 <==> AllWhiteSpace(s)
    ensures |r| > 0 ==> !IsWhiteSpace(r[0]) && !IsWhiteSpace(r[|r| - 1])
    ensures var a := LeadingWhiteSpace(s);
            && a + |r| <= |s|
            && r == s[a..a + |r|]
            && AllWhiteSpace(s[..a])
            && AllWhiteSpace(s[a + |r|..])
  {
    var a := LeadingWhiteSpace(s);
    var t := s[a..];
    var b := TrailingWhiteSpace(t);
    var r := t[..|t| - b];
    assert r == s[a..a + |r|];
    assert a < |s| ==> !IsWhiteSpace(s[a]);
    assert a == |s| ==> s[..a] == s;
    r
  }

  /** Trimming gives back a value that white space surrounds. */
  lemma TrimSurrounded(before: string, v: string, after: string)
    requires AllWhiteSpace(before) && AllWhiteSpace(after)
    requires |v| > 0 && !IsWhiteSpace(v[0]) && !IsWhiteSpace(v[|v| - 1])
    ensures Trim(before + v + after) == v
  {
    var s := before + v + after;
    var a := LeadingWhiteSpace(s);
    var r := Trim(s);
    assert s[|before|] == v[0];
    assert forall i | 0 <= i < |before| :: s[i] == before[i];
    assert a == |before|;
    assert s[|before| + |v| - 1] == v[|v| - 1];
    assert forall i | |before| + |v| <= i < |s| :: s[i] == after[i - |before| - |v|];
    assert |r| == |v|;
    assert r == s[|before|..|before| + |v|];
  }

  lemma TrimIdempotent(s: string)
    ensures Trim(Trim(s)) == Trim(s)
  {
    var r := Trim(s);
    if |r| > 0 {
      assert LeadingWhiteSpace(r) == 0;
      assert TrailingWhiteSpace(r) == 0;
    }
  }

  // ---------------------------------------------------------------------------
  // Splitting
  // ---------------------------------------------------------------------------

  /** `s.Split(sep)`: every part, empty ones included, in order. */
  function Split(s: string, sep: char): (parts: seq<string>)
    ensures |parts| == CountChar(s, sep) + 1
    ensures forall i | 0 <= i < |parts| :: sep !in parts[i]
    decreases |s|
  {
    var k := IndexOf(s, sep);
    if k < 0 then [s]
    else
      assert s == s[..k] + [sep] + s[k + 1..];
      CountCharAppend(s[..k] + [sep], s[k + 1..], sep);
      CountCharAppend(s[..k], [sep], sep);
      assert [sep][1..] == [];
      [s[..k]] + Split(s[k + 1..], sep)
  }

  /** The parts joined back with the separator: the inverse of `Split`. */
  function Join(parts: seq<string>, sep: char): string
    requires |parts| >= 1
  {
    if |parts| == 1 then parts[0] else parts[0] + [sep] + Join(parts[1..], sep)
  }

  lemma {:induction false} JoinSplit(s: string, sep: char)
    ensures Join(Split(s, sep), sep) == s
    decreases |s|
  {
    var k := IndexOf(s, sep);
    if k >= 0 {
      JoinSplit(s[k + 1..], sep);
      assert s == s[..k] + [sep] + s[k + 1..];
    }
  }

  lemma {:induction false} SplitJoin(parts: seq<string>, sep: char)
    requires |parts| >= 1
    requires forall i | 0 <= i < |parts| :: sep !in parts[i]
    ensures Split(Join(parts, sep), sep) == parts
    decreases |parts|
  {
    if |parts| == 1 {
      assert IndexOf(parts[0], sep) == -1;
    } else {
      var rest := parts[1..];
      assert forall i | 0 <= i < |rest| :: sep !in rest[i] by {
        forall i | 0 <= i < |rest| ensures sep !in rest[i] { assert rest[i] == parts[i + 1]; }
      }
      SplitJoin(rest, sep);
      assert Join(parts, sep) == parts[0] + [sep] + Join(rest, sep);
      SplitAtFirst(parts[0], Join(rest, sep), sep);
      assert parts == [parts[0]] + rest;
    }
  }

  /** A text without the separator, then the separator: `Split` cuts there first. */
  lemma SplitAtFirst(p: string, rest: string, sep: char)
    requires sep !in p
    ensures Split(p + [sep] + rest, sep) == [p] + Split(rest, sep)
  {
    var s := p + [sep] + rest;
    assert s[|p|] == sep;
    assert s[..|p|] == p;
    IndexOfIs(s, sep, |p|);
    assert s[|p| + 1..] == rest;
  }

  // ---------------------------------------------------------------------------
  // Decimal numbers
  // ---------------------------------------------------------------------------

  function DigitValue(c: char): (d: nat)
    requires IsDigit(c)
    ensures d < 10
  {
    c as int - '0' as int
  }

  function DigitChar(d: nat): (c: char)
    requires d < 10
    ensures IsDigit(c) && DigitValue(c) == d
  {
    ('0' as int + d) as char
  }

  /** The value of a run of decimal digits, most significant first. */
  function DigitsValue(s: string): nat
    requires AllDigits(s)
  {
    if |s| == 0 then 0
    else DigitsValue(s[..|s| - 1]) * 10 + DigitValue(s[|s| - 1])
  }

  /** `Int32.ToString()` for a non-negative value: its shortest decimal rendering. */
  function NatToString(n: nat): (s: string)
    ensures |s| >= 1 && AllDigits(s)
    ensures |s| > 1 ==> s[0] != '0'
  {
    if n < 10 then [DigitChar(n)]
    else NatToString(n / 10) + [DigitChar(n % 10)]
  }

  /**
   * `int.Parse` on the strings this model gives it: a non-empty run of digits
   * has its decimal value, anything else throws (`None`).
   */
  function ParseNat(s: string): (r: Option<nat>)
    ensures r.Some? <==> |s| > 0 && AllDigits(s)
  {
    if |s| > 0 && AllDigits(s) then Some(DigitsValue(s)) else None
  }

  /** Rendering a number and reading it back gives the number. */
  lemma {:induction false} ParseNatToString(n: nat)
    ensures ParseNat(NatToString(n)) == Some(n)
    ensures DigitsValue(NatToString(n)) == n
    decreases n
  {
    var s := NatToString(n);
    if n < 10 {
      assert s == [DigitChar(n)];
      assert s[..|s| - 1] == [];
      assert DigitsValue(s) == DigitsValue([]) * 10 + DigitValue(s[0]);
    } else {
      ParseNatToString(n / 10);
      assert s[..|s| - 1] == NatToString(n / 10);
    }
  }
}

=== FILE: wrappers.dfy ===
/** Failure-compatible wrappers used in place of C#'s null references and exceptions. */
module Wrappers {

  /** A nullable value: `None` is C#'s `null`. */
  datatype Option<+T> = None | Some(value: T) {

    /** The value, or `default` when there is none (C#'s `??`). */
    function GetOr(default: T): T {
      match this
      case Some(v) => v
      case None => default
    }
  }

  /** The exceptions the modelled code can raise on its inputs. */
  datatype Error =
    /** `JsonNode.GetValue<string>()` applied to a node that does not hold a string. */
    | InvalidOperation
    /** A required string argument was null or empty. */
    | ArgumentNull
    /** `ParseException`: the text is not an identifier of the kind asked for. */
    | ParseError

  /** A value, or the exception that aborted the computation. Usable with `:-`. */
  datatype Result<+T> = Success(value: T) | Failure(error: Error) {

    predicate IsFailure() {
      Failure?
    }

    function PropagateFailure<U>(): Result<U>
      requires Failure?
    {
      Failure(error)
    }

    function Extract(): T
      requires Success?
    {
      value
    }
  }
}
